=== FILE: README.md ===
# Offline sync layer of a point-of-sale client, in Dafny

This project models the client-side resilience layer of a point-of-sale and
accounting front end. The layer replaces the global `fetch`. While the
device is offline it does three things:

- it answers reads from a 24-hour response cache;
- it defers writes into a persisted FIFO queue and returns a synthetic 202;
- it splices each created item into the cached list responses it belongs to
  (the "optimistic merge").

Once connectivity returns, the queue is replayed in order, and only the
entries whose call failed are kept.

The project also models the small pure helpers around that layer:

- the HTML escaper and the Markdown renderer;
- the session helpers, which read the stored session and the claims of its
  JSON Web Token;
- the URL, body and response handling of the API client;
- the endpoint table built from the environment.

Everything is a pure function over immutable data. The state of the sync
layer is `Offline.State`: connectivity, the current time, the decoded queue
and the decoded cache. Some things are parameters rather than modelled:

- the clock (`State.now`);
- the network (`NetResult`, and a `send` function for the API client);
- the fresh request id;
- every foreign call, including `JSON.parse`/`JSON.stringify`, `atob`,
  `String()` and `Number()`. These are oracles (`JsonCodec`,
  `Session.Platform`, `OfflineStore.StoreCodec`). A property that needs an
  oracle to behave says so in its `requires`.

Files and modules:

| file | module | what it holds |
|---|---|---|
| wrappers.dfy | Wrappers | `Option`, `Result` |
| json.dfy | JsonData | a closed JSON datatype, JavaScript truthiness, the parse/stringify oracle |
| strings.dfy | Strings | string search, global replace, ASCII case, trimming, decimal digits |
| offline_store.dfy | OfflineStore | the two persisted slots and their fail-soft reads |
| offline_cache.dfy | OfflineCache | TTL, collection prefix, the optimistic merge |
| offline.dfy | Offline | the interception shim, queueing, replay, status counts |
| markdown.dfy | Markdown | `escapeHtml` and `renderMarkdown` as ordered scanning passes |
| markdown_fixed.dfy | MarkdownFixed | a defect of the renderer and a corrected renderer |
| session.dfy | Session | `parseJwt` and the three session getters |
| http.dfy | Http | `normalizarUrl`, `prepararBody`, response classification |
| endpoints.dfy | Endpoints | `assertEnv`, `join`, the endpoint table |

In five places the code does not do what an offline layer of this kind is
evidently meant to do. The model follows the code each time, and states the
intended behaviour only to name the difference.

- **Late arrivals are dropped.** Intended: an entry queued while a replay is
  in flight is kept in the replay's final write. The code overwrites the
  queue with the survivors of its own snapshot
  (`src/utils/offline.ts:163`). `Offline.LateArrivalOverwritten` proves that
  such an entry is lost.
- **Slash-less collection URLs are not merged.** Intended: a create queued
  at `/items` updates the list cached under `/items`. The code matches cache
  keys against the slash-terminated prefix `/items/`, so that entry is not
  merged (`OfflineCache.SlashlessKeyNotMerged`).
- **Only POST merges.** Intended: any queued write whose payload is a JSON
  object is merged into the cached lists. The code merges only for POST
  (`src/utils/offline.ts:204`, `Offline.OnlyPostMerges`).
- **Reconnection signals are not coalesced.** Intended: a reconnection
  signal that arrives during a replay is absorbed by it. The code starts a
  new replay on every `online` event (`src/utils/offline.ts:241-244`).
  Overlapping replays are not modelled; each `GoOnline` is one complete
  replay.
- **The replay goes through the shim.** Intended: the replay calls the live
  network. The code calls the global `fetch` (`src/utils/offline.ts:151`),
  which the shim has replaced (`src/utils/offline.ts:170`). If connectivity
  drops during a replay, the replayed request is queued again and answered
  with a 202. That 202 counts as success, and the final write then drops the
  re-queued copy, so the write is lost. In the model a replay's outcomes are
  a parameter, so this is the case of a `true` outcome for a request that
  never reached the server, and `Offline.OnlySnapshotSurvives` shows the
  re-queued copy does not survive.

## Model

| member | source | states |
|---|---|---|
| OfflineStore.ReadQueue | src/utils/offline.ts:16-25 | a missing or empty slot, unparsable text, or a parsed value that is not an array all read as the empty queue; a non-empty queue is only ever the decoded array itself |
| OfflineStore.ReadCache | src/utils/offline.ts:39-48 | a missing or empty slot, unparsable text, or a parsed non-object all read as the empty cache; a non-empty cache is only ever the decoded object |
| OfflineStore.WriteQueue | src/utils/offline.ts:27-29 | writing the queue touches only the queue slot; every other storage key keeps its value |
| OfflineStore.WriteCache | src/utils/offline.ts:50-52 | writing the cache touches only the cache slot; every other storage key keeps its value |
| OfflineStore.StorageRoundTrip | src/utils/offline.ts:16-52 | with a serialiser that round-trips, reading a slot after writing it gives back what was written, and writing one slot leaves the reading of the other unchanged |
| OfflineCache.StripQuery | src/utils/offline.ts:93 | the result is the longest prefix of the URL without a `?`, and it stops exactly at the first `?` |
| OfflineCache.CollectionPrefix | src/utils/offline.ts:93 | the query-stripped URL followed by one `/` unless it already ends in `/`; it always ends in `/` |
| OfflineCache.PrependItem | src/utils/offline.ts:97-113 | a top-level array gets the item first; otherwise a `data` array; otherwise a `results` array; there is no change exactly when none of the three shapes is present |
| OfflineCache.MergeEntry | src/utils/offline.ts:94-116 | a key outside the prefix is untouched; url, status and headers never change; an entry that changes has `savedAt` refreshed to now |
| OfflineCache.MergeOptimistic | src/utils/offline.ts:91-119 | no key is added or removed; keys outside the prefix, bodies that do not parse, and unrecognised shapes are left as they were; every other key under the prefix gets the stringified prepended document and the current time |
| OfflineCache.MergedBodyRoundTrip | src/utils/offline.ts:97-111 | with a round-tripping codec, the merged body parses back to the cached array, `data` array or `results` array with the item in front and every other field kept, and an unrecognised shape keeps its body byte for byte |
| OfflineCache.SlashlessKeyNotMerged | src/utils/offline.ts:93-95 | a create at a slash-less URL without a query never updates the cache entry stored under that same URL |
| Offline.ShouldQueue | src/utils/offline.ts:54-57 | a call is deferred exactly when the method is not GET and the URL contains neither `/auth/login` nor `/auth/register` |
| Offline.ContentTypeOf | src/utils/offline.ts:80 | a non-empty `Content-Type` is taken before `content-type`, which is taken only when the first is missing or empty; the result is empty exactly when both are, and is otherwise one of the request's header values |
| Offline.ParseJsonBody | src/utils/offline.ts:78-89 | a payload exists exactly when the body is present and non-empty, looks like JSON, and parses; it is then the parse result |
| Offline.IndexFields | src/utils/offline.ts:205 | spreading an array yields the key of each index as its decimal text, bound to the element at that index |
| Offline.OptimisticItem | src/utils/offline.ts:205 | the item carries `offline: true` and `offline_id` equal to the fresh id; for an object payload every other field is kept and no new key appears |
| Offline.CacheAfterQueue | src/utils/offline.ts:204-207 | the cache changes only for a POST whose payload is an object or an array, and then it is the optimistic merge of the item built from that payload |
| Offline.Enqueue | src/utils/offline.ts:187-214 | exactly one entry is appended, with 0 attempts, and earlier entries are unchanged; the reply is a 202 whose queued id is the new entry's; the status event reports the new queue length |
| Offline.InterceptOffline | src/utils/offline.ts:175-221 | a fresh cached GET is answered with the stored status, headers and body, except that a status outside 200..599 or one of the null-body statuses 204, 205 and 304 makes rebuilding the response reject; a cached GET changes nothing either way; an eligible write is enqueued; anything else gets the 503 and changes nothing |
| Offline.InterceptOnline | src/utils/offline.ts:223-238 | a transport failure is re-raised; a delivered response is returned as it came; an ok GET overwrites the cache entry of its URL with the response and the current time and leaves every other key alone; nothing else changes the state |
| Offline.Intercept | src/utils/offline.ts:170-239 | the method is upper-cased first. Online, a transport failure rejects, a delivered response is returned as it came, an ok GET stores that response and the current time under its URL, and nothing else changes the state. Offline, a fresh cached GET is answered from the cache, or rejects when its stored status cannot be rebuilt; an eligible write gets a 202 with the fresh id and is appended under the upper-cased method; anything else gets the 503 and changes nothing. Every status event reports the persisted queue length |
| Offline.MethodCaseIgnored | src/utils/offline.ts:173 | the shim behaves the same for a method and its upper-cased spelling, so `post` is queued like `POST` and `get` is served like `GET` |
| Offline.Bump | src/utils/offline.ts:157 | a retained entry has one more attempt and every other field unchanged |
| Offline.FailedPositions | src/utils/offline.ts:156-161 | the strictly increasing list of exactly the positions whose call failed |
| Offline.SurvivorsAreFailures | src/utils/offline.ts:148-163 | the new queue is, in order, the failed entries of the snapshot, each with one more attempt |
| Offline.SurvivorsAllOk | src/utils/offline.ts:149-158 | when every call succeeds the new queue is empty |
| Offline.SurvivorsAllFailed | src/utils/offline.ts:156-161 | when every call fails the whole queue is kept in order, each entry with one more attempt |
| Offline.FinishReplay | src/utils/offline.ts:163 | the final write of a replay changes only the queue: connectivity, clock and cache are kept |
| Offline.Replay | src/utils/offline.ts:142-165 | offline or with an empty queue nothing happens; otherwise the queue is issued in order, the survivors replace it, the two status events report the old and the new length, and the queue never grows |
| Offline.GoOnline | src/utils/offline.ts:241-244 | coming back online marks the state online; an empty queue is left as it is with one status event of 0; a non-empty queue is issued in full and replaced by its survivors, with three status events: the old length in flight, the old length from the listener, and the survivors' length |
| Offline.GoOffline | src/utils/offline.ts:245 | going offline changes only connectivity and reports the unchanged queue length |
| Offline.CachedGetServedOffline | src/utils/offline.ts:175-184 | a GET cached while online is served offline with the same status, headers and body at any time up to and including 24 hours later; only a cached 204 or 205 cannot be rebuilt, and that offline call rejects |
| Offline.AuthWritesNeverQueued | src/utils/offline.ts:173-220 | offline, a call to a login or registration URL whose upper-cased method is not GET gets the 503 and leaves the state unchanged |
| Offline.OnlyPostMerges | src/utils/offline.ts:173-209 | an offline call whose upper-cased method is not POST never changes the cache |
| Offline.LateArrivalOverwritten | src/utils/offline.ts:163 | a write queued while a replay is in flight does reach the persisted queue, yet no entry with its id survives the replay's final write |
| Offline.OnlySnapshotSurvives | src/utils/offline.ts:148-163 | whatever the persisted queue holds, the final write keeps only entries taken from the replay's snapshot |
| Offline.OfflineCreateThenReconnect | src/utils/offline.ts:142-165 | a create issued offline into an empty queue is the one request replayed on reconnection, and a successful replay leaves the queue empty with a final status count of 0 |
| Markdown.EscapeHtmlIsEntityMap | src/utils/markdown.ts:1-7 | the five chained global replacements equal replacing each character by its own entity, independently of its neighbours |
| Markdown.EscapeHtmlConcat | src/utils/markdown.ts:1-7 | escaping distributes over concatenation |
| Markdown.EscapeHtmlSafe | src/utils/markdown.ts:1-7 | the output contains no `<`, `>`, `"` or `'`, and text without any of `& < > " '` is returned unchanged |
| Markdown.EscapeRoundTrip | src/utils/markdown.ts:2-7 | decoding the five entities recovers the input, because `&` is replaced first |
| Markdown.CloseFromIff | src/utils/markdown.ts:17-25 | the closing search stops exactly at the first closing delimiter reached over allowed characters, as a lazy `(.+?)` or a `[^`]+` does |
| Markdown.MatchSpanIff | src/utils/markdown.ts:17-25 | a span matches at the start of the text, ending at `e`, exactly when the delimiters enclose non-empty allowed content with no earlier closing delimiter |
| Markdown.SpanIdentityIff | src/utils/markdown.ts:17-25 | an emphasis or code pass leaves the text unchanged exactly when no position starts a match |
| Markdown.SpansGrow | src/utils/markdown.ts:17-25 | a pass that finds a match makes the text strictly longer |
| Markdown.UrlEndIff | src/utils/markdown.ts:13 | the URL run ends exactly at the first whitespace or `)`, or at the end of the text |
| Markdown.SchemeLength | src/utils/markdown.ts:13 | a link target must start with `http://` or `https://`; otherwise no scheme is recognised |
| Markdown.LinkTailIff | src/utils/markdown.ts:13 | `](` followed by a scheme, a non-empty run without whitespace or `)`, and then `)` is recognised, and nothing else is |
| Markdown.MatchLinkIff | src/utils/markdown.ts:12-15 | a link matches exactly when `[` opens one-line text whose first `](`-tail completes a link |
| Markdown.LinkTargetsAreHttp | src/utils/markdown.ts:12-15 | every matched link has an `http://` or `https://` target between `](` and `)` |
| Markdown.LinkUrlPlain | src/utils/markdown.ts:13 | a matched URL contains no whitespace and no `)` |
| Markdown.LinksIdentityIff | src/utils/markdown.ts:12-15 | the link pass leaves the text unchanged exactly when no position starts a link |
| Markdown.LinksGrow | src/utils/markdown.ts:12-15 | a link pass that finds a link makes the text strictly longer |
| Markdown.LineBreaksSingleLine | src/utils/markdown.ts:27 | after the break pass no line feed remains, and text without line breaks is unchanged |
| Markdown.LineBreaksReplaceNewlines | src/utils/markdown.ts:27 | without carriage returns, the break pass is the global replacement of each line feed by `<br />` |
| Markdown.LineBreaksSplit | src/utils/markdown.ts:27 | the break pass splits at any point not followed by a line feed, so a `\r` before the cut is never paired across it |
| Markdown.LineBreaksCrLf | src/utils/markdown.ts:27 | a `\r\n` anywhere becomes one `<br />`, whatever text surrounds it |
| Markdown.RenderMarkdown | src/utils/markdown.ts:9-28 | the rendered HTML never contains a line feed |
| Markdown.RenderMarkdownTagsOnly | src/utils/markdown.ts:9-28 | since escaping comes first, every `<` in the output opens one of the tags the renderer writes: `strong`, `em`, `code`, `br` or an anchor |
| MarkdownFixed.LinkPiecesSerialize | src/utils/markdown.ts:12-15 | splitting the text into plain runs and links and writing each link as an anchor gives exactly the link pass |
| MarkdownFixed.StrongSpan | src/utils/markdown.ts:18-19 | a double-star or double-underscore span around plain content becomes that content wrapped in `<strong>` |
| MarkdownFixed.StrongStarsNotItalicised | src/utils/markdown.ts:17-23 | `**x**` renders as `<strong>x</strong>` with no `<em>` added by the single-star or underscore passes |
| MarkdownFixed.StrongUnderscoresNotItalicised | src/utils/markdown.ts:17-23 | `__x__` renders as `<strong>x</strong>` with no `<em>` added by the single-star or underscore passes |
| MarkdownFixed.BlankTargetItalicised | src/utils/markdown.ts:12-23 | two links on one line render with the first anchor's `target="_blank"` broken by an inserted `<em>`, so the output is not made of intact anchors |
| MarkdownFixed.RenderMarkdownFixed | src/utils/markdown.ts:9-28 | the corrected renderer also never emits a line feed |
| MarkdownFixed.FixedAgreesWithoutLinks | src/utils/markdown.ts:9-28 | on text without links the corrected renderer produces the same HTML as the original |
| MarkdownFixed.RenderMarkdownFixedAnchorsIntact | src/utils/markdown.ts:9-28 | every `<` of the corrected output opens an allowed tag, and every anchor is one written by the link pass with its attributes intact |
| MarkdownFixed.BlankExampleFixed | src/utils/markdown.ts:12-23 | the corrected renderer turns the two-link example into two intact anchors separated by a space |
| Session.SecondSegment | src/utils/session.ts:50 | there is a second segment exactly when the token contains a dot; the segment itself contains no dot |
| Session.SecondSegmentOf | src/utils/session.ts:50 | for dot-free header and payload, the second segment of `header.payload…` is the payload, whatever follows |
| Session.ToStandardAlphabet | src/utils/session.ts:52 | each `-` becomes `+`, each `_` becomes `/`, and every other character is kept in place |
| Session.AlphabetRoundTrip | src/utils/session.ts:52 | converting standard base64 text to the base64url alphabet and back restores it |
| Session.UrlAlphabetRoundTrip | src/utils/session.ts:52 | converting base64url text to the standard alphabet and back restores it |
| Session.PadCount | src/utils/session.ts:53 | the padding is at most 3 characters and brings the length to a multiple of 4; it is zero exactly when the length already is one |
| Session.Pad | src/utils/session.ts:53 | the padded text extends the input with `=` only, to a length that is a multiple of 4, adding at most 3 characters |
| Session.PadRestores | src/utils/session.ts:53 | padding base64 text whose own padding was stripped restores exactly that padding |
| Session.ParseJwt | src/utils/session.ts:48-58 | no second segment or an empty one gives no payload, and a payload only comes from a successful `atob` of the normalised, padded segment |
| Session.JwtPayloadRoundTrip | src/utils/session.ts:48-58 | encoding a payload with base64url and stripping the padding, as in JWS compact serialisation, then decoding it gives the parse of the original text |
| Session.JsNumber | src/utils/session.ts:12 | a JSON number keeps its value and `null` counts as 0 |
| Session.SessionData | src/utils/session.ts:3-5 | session data exists only when the session key holds non-empty text that parses, and then it is that parse; a non-empty stored session is always read through the parser |
| Session.SessionToken | src/utils/session.ts:6-7 | a token is returned exactly when the `token` field is truthy and its text is non-empty, and it is that text |
| Session.TokenClaims | src/utils/session.ts:8-9 | claims are returned exactly when the session has a token whose decoded payload exists and is truthy, and they are that payload |
| Session.FirstPresentIff | src/utils/session.ts:10 | the `??` chain picks the value of the first key that is neither missing nor null, and any value it picks comes from such a first key |
| Session.FirstPresentNone | src/utils/session.ts:10 | the chain yields nothing exactly when no key is present |
| Session.GetSessionUserId | src/utils/session.ts:1-16 | a returned id is always a positive number |
| Session.UserIdFirstClaimDecides | src/utils/session.ts:10-12 | the first present id claim alone decides the result |
| Session.UserIdNoFallThrough | src/utils/session.ts:10-12 | a `user_id` of 0 gives no id even when `sub` holds a valid one |
| Session.UserIdIff | src/utils/session.ts:1-16 | an id is returned exactly when there is session data, with claims, whose first present id claim converts to that positive number |
| Session.GetSessionUserName | src/utils/session.ts:18-33 | a name is only ever returned when session data exists |
| Session.SessionUserWins | src/utils/session.ts:23 | a truthy session-level `usuario` is returned before any claim is looked at |
| Session.UserNameFromClaims | src/utils/session.ts:28-29 | otherwise the first present of `username`, `usuario`, `user`, `name` is returned when truthy, and nothing when falsy |
| Session.UserNameAbsent | src/utils/session.ts:28-29 | with no session user and none of the name claims present there is no name |
| Session.UserNameNoClaims | src/utils/session.ts:24-27 | without a session user, a missing token or a payload that does not decode gives no name |
| Session.GetSessionCajaNombre | src/utils/session.ts:35-46 | there is no register name exactly when there is no session data or neither `cajaNombre` nor `cajaId` is truthy |
| Session.CajaNombreWins | src/utils/session.ts:40 | a non-empty `cajaNombre` is returned as it is |
| Session.CajaLabelRoundTrip | src/utils/session.ts:41 | without a name, a positive `cajaId` is shown as `Caja ` followed by digits that read back as that id |
| Http.ApiBaseUrl | src/services/http.ts:1 | a configured base is used as it is, even when empty; otherwise the local default applies |
| Http.StripTrailingSlash | src/services/http.ts:10 | at most one character is removed, and one is removed exactly when the base ends in `/` |
| Http.Resource | src/services/http.ts:11 | the resource always starts with `/`, ends with the path, and equals the path exactly when the path already starts with `/` |
| Http.NormalizeUrl | src/services/http.ts:9-13 | the URL is the stripped base followed by the rooted path |
| Http.NormalizeUrlRootInsensitive | src/services/http.ts:9-13 | rooting a path first makes no difference |
| Http.NormalizeUrlSingleSlash | src/services/http.ts:9-13 | when neither the base ends in `//` nor the path starts with `//`, exactly one `/` separates base and path |
| Http.NormalizeUrlSlashInsensitive | src/services/http.ts:10 | a base with one trailing slash gives the same URLs as the base without it |
| Http.HeadersOfKeys | src/services/http.ts:40 | every initial header name is present lower-cased, and no other name is |
| Http.HeadersOfJoined | src/services/http.ts:40 | a name is present exactly when some header carries it, and its value is that name's values, each trimmed of HTTP white space, joined by `, ` in the order given |
| Http.HeadersOfSingle | src/services/http.ts:40 | a name given only once keeps its value trimmed of HTTP white space |
| Http.PrepareBody | src/services/http.ts:15-37 | `null` and `undefined` give no body; strings and body objects pass through; any other value is stringified, and only then is a JSON content type added, and only if none is set; existing headers are never changed |
| Http.PreparedBodyRoundTrip | src/services/http.ts:36 | with a round-tripping codec, parsing the serialised body gives back the value |
| Http.PrepareBodyHeadersIdempotent | src/services/http.ts:32-34 | preparing again with the resulting headers leaves them unchanged |
| Http.StatusMessage | src/services/http.ts:51 | the fallback message starts with `Error ` and ends with ` al llamar ` and the path |
| Http.StatusMessageRoundTrip | src/services/http.ts:51 | the digits in the fallback message read back as the status code |
| Http.Classify | src/services/http.ts:49-64 | a call fails exactly when the status is not ok, always with a non-empty message, and settles to `undefined` exactly on 204; classifying a reply never yields `Rejected`, which is kept for a rejected `fetch` or invalid headers |
| Http.ClassifyFailure | src/services/http.ts:49-52 | the failure message is the response text, or the status message when the text is empty or unreadable |
| Http.ClassifySuccess | src/services/http.ts:58-64 | a body is parsed as JSON exactly when the content type contains `application/json`, and is returned as text otherwise |
| Http.JsonWithCharsetParsed | src/services/http.ts:60 | `application/json; charset=utf-8` still counts as JSON |
| Http.Call | src/services/http.ts:39-65 | a request is built exactly when every initial header is valid, otherwise the call rejects; the request goes to the normalised URL with exactly the prepared headers and body; the call rejects when `fetch` rejects, and otherwise settles to the classification of the reply to that very request |
| Http.CallSetsJsonContentType | src/services/http.ts:40-47 | a serialised body is sent with the caller's content type if one was given, and `application/json` otherwise |
| Endpoints.AssertEnv | src/config/endpoints.ts:10-15 | a defined, non-empty value is returned unchanged; anything else fails with a message naming the variable |
| Endpoints.BaseUrls | src/config/endpoints.ts:17-22 | the table of bases exists exactly when all four variables are set, and then holds their values |
| Endpoints.BaseUrlsFirstMissing | src/config/endpoints.ts:17-22 | the error names the first unset variable in declaration order |
| Endpoints.Join | src/config/endpoints.ts:24 | the result starts with the base and ends with the path, and is one character longer exactly when the path does not start with `/` |
| Endpoints.JoinIsNormalizeUrl | src/config/endpoints.ts:24 | joining onto a slash-stripped base is the API client's URL normalisation |
| Endpoints.JoinKeepsTrailingSlash | src/config/endpoints.ts:24 | a trailing slash on the base is never removed, so a relative path yields `//` |
| Endpoints.EndpointTable | src/config/endpoints.ts:26-49 | the table exists exactly when the bases do; each row keeps its name, starts with its base and ends with its path |
| Endpoints.RoutesRooted | src/config/endpoints.ts:27-48 | every path in the table starts with `/` |
| Endpoints.EndpointsAreConcatenations | src/config/endpoints.ts:26-49 | each endpoint is exactly its base followed by its path |
| Endpoints.AuthEndpointsNeverQueued | src/config/endpoints.ts:27-29 | the login and registration endpoints are writes the offline layer never queues, whatever the base and the method |

## Left out

- Browser objects (`localStorage`, `Request`, `Response`, `Headers`, `Blob`) are abstracted as maps and optional strings. `toHeadersRecord` and `buildBodyString` (`src/utils/offline.ts:59-76`) are not modelled; their results are the `headers` and `body` parameters of the shim.
- `crypto.randomUUID` and `Date.now` are parameters: the fresh id and `State.now`.
- The events are returned as a list of values, not dispatched, and the `online`/`offline` listeners are the functions `GoOnline` and `GoOffline`. A status event's `online` flag is the modelled connectivity.
- Async interleaving is not modelled as a scheduler. A replay is a snapshot, a list of outcomes (one per issued request) and a final write. An entry queued in between is shown to be lost (`Offline.LateArrivalOverwritten`), and no fix is modelled. Overlapping replays from repeated `online` events are not modelled.
- Offline.InterceptOnline: the cached body and headers are those of the delivered response; the clone and `text()` of the response are not modelled.
- OfflineStore.WriteQueue: writing is total. The `QuotaExceededError` that `setItem` can throw (`src/utils/offline.ts:28`) is not modelled, because storage capacity belongs to the platform. With it, an offline write would reject instead of getting its 202, and a replay would reject before rewriting the queue.
- OfflineStore.WriteCache: writing is total. The `QuotaExceededError` of `setItem` (`src/utils/offline.ts:51`) is not modelled, for the same reason. With it, an online ok GET would reject after its response arrived, and an offline POST would reject after its entry was queued.
- OfflineStore.ReadQueue: the persisted text is decoded by an oracle. The unchecked cast of the source is not validated, so a decoded array is trusted as a queue.
- JSON numbers are reals. `Number()` and `String()` on strings, arrays and objects, and `atob` and `JSON.parse`, are oracles; floating-point rounding is not modelled.
- Session.GetSessionUserName: its own contract only says that a name needs session data. The claim precedence is stated by `SessionUserWins`, `UserNameFromClaims` and `UserNameAbsent`.
- Session.GetSessionUserId: its own contract only says that the id is positive. The full characterisation is `UserIdIff`.
- The Markdown passes are modelled as scanning functions equivalent to the regular expressions used: lazy `(.+?)` as "first closing delimiter over non-line-terminator characters", `[^\s)]+` and `[^`]+` as maximal runs. No general regular-expression engine is modelled.
- Http.Call: `fetch` is the `send` parameter, and `None` from it stands for a rejected `fetch`. Request options other than headers and body (method, credentials and so on) are passed through unmodelled. A reply body that cannot be read on the error path counts as empty, as the `catch` gives `''`.
- Http.HeadersOfKeys: `options.headers` is a list of name-value pairs. The record and `Headers` forms of `HeadersInit` are not modelled, and the byte-string conversion is reduced to "every character is at most U+00FF".
- Http.Classify: on success, a body that is not valid JSON while the content type says JSON is the outcome `BodyUnreadable`; the platform's error message is not modelled.
- MarkdownFixed.RenderMarkdownFixed: the corrected renderer runs the emphasis and code passes inside each plain run and each link text separately. Emphasis that spans a link is therefore not rendered: `**[a](http://b)**` keeps its stars around the anchor, where the original renderer wraps the anchor in `<strong>`.
- The endpoint table is evaluated once at module load in the source. Here it is a function of the environment, and a missing variable is a `Failure` instead of a thrown error.
- The thin service wrappers, the type declarations, the date helpers, the Electron main process and the DOM bootstrap are not part of this model.

## Findings

| source | as written | input that shows it | evidently intended | confidence | as-written member | corrected member |
|---|---|---|---|---|---|---|
| src/utils/markdown.ts:12-23 | the italic pass `_(.+?)_` runs over the anchors the link pass has already written, and each anchor contains `target="_blank"` | `[a](http://b) [c](http://d)`: the underscores of the two `_blank` attributes pair up, and the first anchor's target becomes `"<em>blank…` | links rendered as intact anchors whatever else is on the line; the correction gives up emphasis that spans a link, such as `**[a](http://b)**` | high, not executed | MarkdownFixed.BlankTargetItalicised | MarkdownFixed.RenderMarkdownFixedAnchorsIntact |

=== FILE: endpoints.dfy ===
/** The endpoint table: four required base URLs read from the build
    environment, and every API route joined onto one of them. Evaluating the
    table when a base is missing throws at module load; that is a `Failure`
    here. */
module Endpoints {
  import opened Wrappers
  import Strings
  import Http
  import Offline

  /** The four base-URL variables, as the build environment supplies them. */
  datatype Env = Env(auth: Option<string>, pos: Option<string>, local: Option<string>, authLocal: Option<string>)

  datatype Bases = Bases(auth: string, pos: string, local: string, authLocal: string)

  const MissingPrefix: string := "Falta la variable de entorno "

  /** `assertEnv`: a defined, non-empty value is returned as it is; anything
      else is an error naming the variable. */
  function AssertEnv(value: Option<string>, name: string): (r: Result<string, string>)
    ensures r.Success? <==> value.Some? && value.value != []
    ensures r.Success? ==> r.value == value.value
    ensures r.Failure? ==> MissingPrefix <= r.error && r.error[|MissingPrefix|..] == name
  {
    if value.None? || value.value == [] then
      assert (MissingPrefix + name)[|MissingPrefix|..] == name;
      Failure(MissingPrefix + name)
    else Success(value.value)
  }

  /** Whether a variable holds a usable value. */
  predicate IsSet(value: Option<string>) {
    value.Some? && value.value != []
  }

  const VariableNames: seq<string> :=
    ["VITE_API_AUTH_BASE", "VITE_API_POS_BASE", "VITE_API_LOCAL_BASE", "VITE_API_AUTH_LOCAL_BASE"]

  /** The variables in the order the table asserts them. */
  function Values(env: Env): seq<Option<string>> {
    [env.auth, env.pos, env.local, env.authLocal]
  }

  /** `BASE_REQUIRED`: the four bases, asserted in declaration order. */
  function BaseUrls(env: Env): (r: Result<Bases, string>)
    ensures r.Success? <==> IsSet(env.auth) && IsSet(env.pos) && IsSet(env.local) && IsSet(env.authLocal)
    ensures r.Success? ==> r.value == Bases(env.auth.value, env.pos.value, env.local.value, env.authLocal.value)
  {
    match AssertEnv(env.auth, VariableNames[0])
    case Failure(e) => Failure(e)
    case Success(auth) =>
      match AssertEnv(env.pos, VariableNames[1])
      case Failure(e) => Failure(e)
      case Success(pos) =>
        match AssertEnv(env.local, VariableNames[2])
        case Failure(e) => Failure(e)
        case Success(local) =>
          match AssertEnv(env.authLocal, VariableNames[3])
          case Failure(e) => Failure(e)
          case Success(authLocal) => Success(Bases(auth, pos, local, authLocal))
  }

  /** The error names the first unusable variable in declaration order. */
  lemma BaseUrlsFirstMissing(env: Env, i: nat)
    requires i < 4 && !IsSet(Values(env)[i])
    requires forall l :: 0 <= l < i ==> IsSet(Values(env)[l])
    ensures BaseUrls(env) == Failure(MissingPrefix + VariableNames[i])
  {
    var v := Values(env);
    assert v[0] == env.auth && v[1] == env.pos && v[2] == env.local && v[3] == env.authLocal;
    if i > 0 { assert IsSet(v[0]); }
    if i > 1 { assert IsSet(v[1]); }
    if i > 2 { assert IsSet(v[2]); }
  }

  // ---------------------------------------------------------------------
  // join
  // ---------------------------------------------------------------------

  /** `join`: the base, a `/` unless the path starts with one, then the path.
      A trailing slash on the base is never removed. */
  function Join(base: string, path: string): (url: string)
    ensures base <= url && Strings.EndsWith(url, path)
    ensures |url| == |base| + |path| + (if "/" <= path then 0 else 1)
  {
    var url := base + (if "/" <= path then "" else "/") + path;
    assert url[|url| - |path|..] == path;
    url
  }

  /** Joining onto a base stripped of its trailing slash is exactly the API
      client's URL normalisation. */
  lemma JoinIsNormalizeUrl(base: string, path: string)
    ensures Join(Http.StripTrailingSlash(base), path) == Http.NormalizeUrl(base, path)
  {
    var b := Http.StripTrailingSlash(base);
    var url := Http.NormalizeUrl(base, path);
    assert url == url[..|b|] + url[|b|..];
  }

  /** A base ending in `/` keeps its slash, so a relative path yields `//`. */
  lemma JoinKeepsTrailingSlash(base: string, path: string)
    requires Strings.EndsWith(base, "/") && !("/" <= path)
    ensures var url := Join(base, path);
            url[|base| - 1] == '/' && url[|base|] == '/'
  {
    assert base[|base| - 1..] == "/";
  }

  // ---------------------------------------------------------------------
  // ENDPOINTS
  // ---------------------------------------------------------------------

  datatype Base = Auth | Pos | Local | AuthLocal

  /** One row of the table: its name, the base it hangs from, its path. */
  datatype Route = Route(name: string, base: Base, path: string)

  const Routes: seq<Route> := [
    Route("LOGIN", Auth, "/auth/login"),
    Route("USUARIOS", Local, "/usuarios/"),
    Route("USUARIOS_REGISTRO", AuthLocal, "/auth/register"),
    Route("CLIENTES", Local, "/clientes/"),
    Route("CATEGORIAS", Local, "/categorias/"),
    Route("CATEGORIAS_POS", Pos, "/categorias/"),
    Route("PRODUCTOS", Local, "/productos/"),
    Route("VENTAS_POS", Pos, "/ventas/"),
    Route("VENTAS_LOCAL", Local, "/ventas/"),
    Route("CONTABILIDAD_CATEGORIAS", Pos, "/contabilidad/categorias/"),
    Route("CONTABILIDAD_PROVEEDORES", Pos, "/proveedores/"),
    Route("CONTABILIDAD_MOVIMIENTOS", Local, "/contabilidad/movimientos-financieros/"),
    Route("CONTABILIDAD_INGRESOS", Pos, "/contabilidad/ingresos/"),
    // the listing carries a fixed date-range query in its path
    Route("CONTABILIDAD_EGRESOS_LIST", Pos, "/contabilidad/egresos/" + "?desde=2026-01-20&hasta=2026-01-23"),
    Route("CONTABILIDAD_EGRESOS_CREATE", Pos, "/contabilidad/egresos/"),
    Route("CONTABILIDAD_CUENTAS", Pos, "/contabilidad/cuentas-por-cobrar/"),
    Route("CONTABILIDAD_CAJAS", Local, "/contabilidad/cajas/"),
    Route("CONTABILIDAD_CAJA_SESIONES", Local, "/contabilidad/caja-sesiones/"),
    Route("CONTABILIDAD_CIERRE_CAJA_DENOMINACIONES", Local, "/contabilidad/cierre-caja-denominaciones/"),
    Route("CONTABILIDAD_CIERRE_CAJA_DENOMINACIONES_BULK", Local, "/contabilidad/cierre-caja-denominaciones/bulk"),
    Route("VENTAS_RESUMEN", Local, "/ventas/resumen"),
    Route("PRESTAMO_CAJAS", Local, "/cajas-cerveza/")
  ]

  function BaseOf(bases: Bases, b: Base): string {
    match b
    case Auth => bases.auth
    case Pos => bases.pos
    case Local => bases.local
    case AuthLocal => bases.authLocal
  }

  datatype Endpoint = Endpoint(name: string, url: string)

  /** `ENDPOINTS`, row by row, or the error of the first missing base. */
  function EndpointTable(env: Env): (r: Result<seq<Endpoint>, string>)
    ensures r.Success? <==> BaseUrls(env).Success?
    ensures r.Success? ==> |r.value| == |Routes|
    ensures r.Success? ==> forall i :: 0 <= i < |Routes| ==>
              r.value[i].name == Routes[i].name
              && Strings.EndsWith(r.value[i].url, Routes[i].path)
              && BaseOf(BaseUrls(env).value, Routes[i].base) <= r.value[i].url
  {
    match BaseUrls(env)
    case Failure(e) => Failure(e)
    case Success(bases) =>
      Success(seq(|Routes|, i requires 0 <= i < |Routes| =>
                Endpoint(Routes[i].name, Join(BaseOf(bases, Routes[i].base), Routes[i].path))))
  }

  /** Every path in the table is rooted. */
  predicate AllRooted(routes: seq<Route>) {
    forall i :: 0 <= i < |routes| ==> routes[i].path != [] && routes[i].path[0] == '/'
  }

  lemma RoutesRooted()
    ensures AllRooted(Routes)
  {
    forall i | 0 <= i < |Routes| ensures Routes[i].path != [] && Routes[i].path[0] == '/' {
    }
  }

  /** So `join` never inserts a separator there: each endpoint is exactly its
      base followed by its path. */
  lemma EndpointsAreConcatenations(env: Env)
    requires EndpointTable(env).Success?
    ensures forall i :: 0 <= i < |Routes| ==>
              EndpointTable(env).value[i].url == BaseOf(BaseUrls(env).value, Routes[i].base) + Routes[i].path
  {
    RoutesRooted();
    var bases := BaseUrls(env).value;
    forall i | 0 <= i < |Routes|
      ensures EndpointTable(env).value[i].url == BaseOf(bases, Routes[i].base) + Routes[i].path
    {
      assert "/" <= Routes[i].path;
      assert BaseOf(bases, Routes[i].base) + "" == BaseOf(bases, Routes[i].base);
    }
  }

  /** The login and registration endpoints are among the paths the offline
      layer refuses to queue, whatever the method and the base. */
  lemma AuthEndpointsNeverQueued(env: Env, httpMethod: string)
    requires EndpointTable(env).Success?
    ensures Routes[0].name == "LOGIN" && Routes[2].name == "USUARIOS_REGISTRO"
    ensures !Offline.ShouldQueue(EndpointTable(env).value[0].url, httpMethod)
    ensures !Offline.ShouldQueue(EndpointTable(env).value[2].url, httpMethod)
  {
    EndpointsAreConcatenations(env);
    var bases := BaseUrls(env).value;
    Strings.ContainsAt(bases.auth + "/auth/login", "/auth/login", |bases.auth|);
    Strings.ContainsAt(bases.authLocal + "/auth/register", "/auth/register", |bases.authLocal|);
  }
}

=== FILE: http.dfy ===
/** The API client wrapper: URL normalisation against the configured base,
    request-body preparation, and the classification of the response. The
    network call itself is a parameter. */
module Http {
  import opened Wrappers
  import opened JsonData
  import Strings

  /** Used when `VITE_API_BASE_URL` is undefined (an empty value is kept). */
  const DefaultApiBaseUrl: string := "http://localhost:3000/api"

  /** `VITE_API_BASE_URL ?? 'http://localhost:3000/api'`. */
  function ApiBaseUrl(configured: Option<string>): (base: string)
    ensures configured.Some? ==> base == configured.value
    ensures configured.None? ==> base == DefaultApiBaseUrl
  {
    configured.GetOr(DefaultApiBaseUrl)
  }

  // ---------------------------------------------------------------------
  // normalizarUrl
  // ---------------------------------------------------------------------

  /** `base.replace(/\/$/, '')`: one trailing slash removed, if there is one. */
  function StripTrailingSlash(base: string): (r: string)
    ensures r <= base && |base| - |r| <= 1
    ensures |r| < |base| <==> Strings.EndsWith(base, "/")
  {
    if Strings.EndsWith(base, "/") then base[..|base| - 1] else base
  }

  /** The path with a leading `/` added unless it already has one. */
  function Resource(path: string): (r: string)
    ensures r != [] && r[0] == '/'
    ensures Strings.EndsWith(r, path) && |r| - |path| <= 1
    ensures r == path <==> "/" <= path
  {
    if "/" <= path then path else "/" + path
  }

  /** `normalizarUrl`: the stripped base followed by the rooted path. */
  function NormalizeUrl(base: string, path: string): (url: string)
    ensures StripTrailingSlash(base) <= url
    ensures url[|StripTrailingSlash(base)|..] == Resource(path)
  {
    var b := StripTrailingSlash(base);
    var r := Resource(path);
    assert (b + r)[|b|..] == r;
    b + r
  }

  /** Rooting a path is idempotent, so callers may pass either form. */
  lemma NormalizeUrlRootInsensitive(base: string, path: string)
    ensures NormalizeUrl(base, Resource(path)) == NormalizeUrl(base, path)
  {
  }

  /** When the base ends in at most one slash and the path starts with at most
      one, exactly one slash separates them in the URL. */
  lemma NormalizeUrlSingleSlash(base: string, path: string)
    requires !Strings.EndsWith(base, "//")
    requires !("//" <= path)
    ensures var b := StripTrailingSlash(base);
            var url := NormalizeUrl(base, path);
            && url[|b|] == '/'
            && (b == [] || b[|b| - 1] != '/')
            && (|b| + 1 < |url| ==> url[|b| + 1] != '/')
  {
    var b := StripTrailingSlash(base);
    var url := NormalizeUrl(base, path);
    StrippedBaseNoSlash(base);
    ResourceOneSlash(path);
    assert url[|b|..] == Resource(path);
    assert |b| + 1 < |url| ==> url[|b| + 1] == Resource(path)[1];
  }

  lemma StrippedBaseNoSlash(base: string)
    requires !Strings.EndsWith(base, "//")
    ensures var b := StripTrailingSlash(base);
            b == [] || b[|b| - 1] != '/'
  {
    if |base| >= 2 && Strings.EndsWith(base, "/") {
      assert base[|base| - 2..] == [base[|base| - 2], '/'];
    }
  }

  lemma ResourceOneSlash(path: string)
    requires !("//" <= path)
    ensures |Resource(path)| > 1 ==> Resource(path)[1] != '/'
  {
    if |path| >= 2 && "/" <= path {
      assert path[..2] == ['/', path[1]];
    }
  }

  /** A base configured with or without its trailing slash gives the same URLs. */
  lemma NormalizeUrlSlashInsensitive(base: string, path: string)
    requires !Strings.EndsWith(base, "/")
    ensures NormalizeUrl(base + "/", path) == NormalizeUrl(base, path)
  {
    assert (base + "/")[..|base|] == base;
  }

  // ---------------------------------------------------------------------
  // Headers
  // ---------------------------------------------------------------------

  datatype Header = Header(name: string, value: string)

  /** The characters of an HTTP token (section 5.6.2 of RFC 9110). */
  predicate TokenChar(c: char) {
    || ('a' <= c <= 'z') || ('A' <= c <= 'Z') || ('0' <= c <= '9')
    || c == '!' || c == '#' || c == '$' || c == '%' || c == '&' || c == '\'' || c == '*'
    || c == '+' || c == '-' || c == '.' || c == '^' || c == '_' || c == '`' || c == '|' || c == '~'
  }

  /** What `new Headers` accepts: a non-empty token as name, and a value of
      byte-range characters that holds no NUL, CR or LF once trimmed. */
  predicate ValidHeader(h: Header) {
    && h.name != [] && (forall i :: 0 <= i < |h.name| ==> TokenChar(h.name[i]))
    && (forall i :: 0 <= i < |h.value| ==> h.value[i] as int <= 0xFF)
    && var v := Strings.TrimHttp(h.value);
       forall i :: 0 <= i < |v| ==> v[i] != '\0' && v[i] != '\n' && v[i] != '\r'
  }

  /** Whether `new Headers(init)` returns rather than throwing a TypeError. */
  predicate HeadersValid(init: seq<Header>) {
    forall i :: 0 <= i < |init| ==> ValidHeader(init[i])
  }

  /** `new Headers(init)`: names are case-insensitive and stored lower-cased,
      values are trimmed of HTTP white space, and a repeated name
      accumulates its values joined by `, `. */
  function HeadersOf(init: seq<Header>): (h: map<string, string>)
    decreases |init|
  {
    if init == [] then map[]
    else AddHeader(HeadersOf(init[..|init| - 1]), init[|init| - 1])
  }

  /** The names present are exactly the lower-cased names given. */
  lemma {:induction false} HeadersOfKeys(init: seq<Header>)
    ensures forall k :: k in HeadersOf(init) ==> exists i :: 0 <= i < |init| && Strings.LowerAscii(init[i].name) == k
    ensures forall i :: 0 <= i < |init| ==> Strings.LowerAscii(init[i].name) in HeadersOf(init)
    decreases |init|
  {
    if init != [] {
      var front := init[..|init| - 1];
      var last := init[|init| - 1];
      HeadersOfKeys(front);
      var h := HeadersOf(front);
      assert HeadersOf(init).Keys == h.Keys + {Strings.LowerAscii(last.name)};
      forall i | 0 <= i < |init| ensures Strings.LowerAscii(init[i].name) in HeadersOf(init) {
        if i < |front| {
          assert front[i] == init[i];
          assert Strings.LowerAscii(front[i].name) in h;
        } else {
          assert i == |init| - 1;
        }
      }
      forall k | k in HeadersOf(init) ensures exists i :: 0 <= i < |init| && Strings.LowerAscii(init[i].name) == k {
        if k in h {
          var i :| 0 <= i < |front| && Strings.LowerAscii(front[i].name) == k;
          assert front[i] == init[i];
        } else {
          assert Strings.LowerAscii(init[|init| - 1].name) == k;
        }
      }
    }
  }

  /** One more header: its trimmed value under its lower-cased name, joined
      after any value already there. */
  function AddHeader(h: map<string, string>, last: Header): (h': map<string, string>)
    ensures h'.Keys == h.Keys + {Strings.LowerAscii(last.name)}
  {
    var k := Strings.LowerAscii(last.name);
    var v := Strings.TrimHttp(last.value);
    h[k := if k in h then h[k] + ", " + v else v]
  }

  /** The trimmed values given under the lower-cased name `k`, in order. */
  function ValuesNamed(init: seq<Header>, k: string): (vs: seq<string>)
    ensures |vs| <= |init|
    decreases |init|
  {
    if init == [] then []
    else
      var last := init[|init| - 1];
      ValuesNamed(init[..|init| - 1], k) + (if Strings.LowerAscii(last.name) == k then [Strings.TrimHttp(last.value)] else [])
  }

  /** The values joined by `, `. */
  function JoinComma(vs: seq<string>): string
    decreases |vs|
  {
    if vs == [] then ""
    else if |vs| == 1 then vs[0]
    else JoinComma(vs[..|vs| - 1]) + ", " + vs[|vs| - 1]
  }

  /** A name is present exactly when some header carries it, and then its
      value is all of that name's trimmed values, in order, joined by `, `. */
  lemma {:induction false} HeadersOfJoined(init: seq<Header>, k: string)
    ensures k in HeadersOf(init) <==> ValuesNamed(init, k) != []
    ensures k in HeadersOf(init) ==> HeadersOf(init)[k] == JoinComma(ValuesNamed(init, k))
    decreases |init|
  {
    if init != [] {
      var front := init[..|init| - 1];
      HeadersOfJoined(front, k);
      var h := HeadersOf(front);
      var vs := ValuesNamed(front, k);
      var last := init[|init| - 1];
      var v := Strings.TrimHttp(last.value);
      var kl := Strings.LowerAscii(last.name);
      assert HeadersOf(init) == AddHeader(h, last);
      if kl != k {
        assert ValuesNamed(init, k) == vs + [];
        assert vs + [] == vs;
      } else if vs == [] {
        assert ValuesNamed(init, k) == [v];
      } else {
        var all := vs + [v];
        assert ValuesNamed(init, k) == all;
        assert all[..|all| - 1] == vs;
        assert JoinComma(all) == JoinComma(vs) + ", " + v;
      }
    }
  }

  /** No header carries the name `k`: no values are gathered for it. */
  lemma {:induction false} ValuesNamedAbsent(init: seq<Header>, k: string)
    requires forall j :: 0 <= j < |init| ==> Strings.LowerAscii(init[j].name) != k
    ensures ValuesNamed(init, k) == []
    decreases |init|
  {
    if init != [] {
      var front := init[..|init| - 1];
      assert forall j :: 0 <= j < |front| ==> front[j].name == init[j].name;
      ValuesNamedAbsent(front, k);
    }
  }

  /** Exactly one header carries the name of `init[i]`: its trimmed value is
      the only one gathered. */
  lemma {:induction false} ValuesNamedUnique(init: seq<Header>, i: nat)
    requires i < |init|
    requires forall j :: 0 <= j < |init| && j != i ==>
               Strings.LowerAscii(init[j].name) != Strings.LowerAscii(init[i].name)
    ensures ValuesNamed(init, Strings.LowerAscii(init[i].name)) == [Strings.TrimHttp(init[i].value)]
    decreases |init|
  {
    var front := init[..|init| - 1];
    var k := Strings.LowerAscii(init[i].name);
    assert forall j :: 0 <= j < |front| ==> front[j].name == init[j].name;
    if i < |front| {
      assert front[i].value == init[i].value;
      ValuesNamedUnique(front, i);
      assert ValuesNamed(init, k) == ValuesNamed(front, k) + [];
    } else {
      ValuesNamedAbsent(front, k);
    }
  }

  /** A name given once keeps its trimmed value under its lower-cased form. */
  lemma HeadersOfSingle(init: seq<Header>, i: nat)
    requires i < |init|
    requires forall j :: 0 <= j < |init| && j != i ==>
               Strings.LowerAscii(init[j].name) != Strings.LowerAscii(init[i].name)
    ensures Strings.LowerAscii(init[i].name) in HeadersOf(init)
    ensures HeadersOf(init)[Strings.LowerAscii(init[i].name)] == Strings.TrimHttp(init[i].value)
  {
    HeadersOfJoined(init, Strings.LowerAscii(init[i].name));
    ValuesNamedUnique(init, i);
  }

  /** `headers.has('Content-Type')` looks the name up case-insensitively. */
  const ContentTypeName: string := "content-type"
  const JsonMediaType: string := "application/json"

  // ---------------------------------------------------------------------
  // prepararBody
  // ---------------------------------------------------------------------

  /** The `BodyInit` kinds `fetch` sends as they are. */
  datatype RawKind = StringBody | FormData | Blob | ArrayBuffer | ArrayBufferView | UrlSearchParams | ReadableStream

  /** A body `fetch` accepts; `data` stands for its content. */
  datatype RawBody = RawBody(kind: RawKind, data: string)

  /** What a caller may pass as `options.body`: nothing, a ready `BodyInit`,
      or any other value (a JSON string value is a JavaScript string). */
  datatype BodyInput = Absent | Init(raw: RawBody) | Value(value: Json)

  datatype Prepared = Prepared(body: Option<RawBody>, headers: map<string, string>)

  /** Whether the input reaches `JSON.stringify`. */
  predicate IsSerialised(input: BodyInput) {
    input.Value? && input.value != JNull && !input.value.JString?
  }

  /** `prepararBody`: `null`/`undefined` give no body; strings and `BodyInit`
      objects pass through; anything else is stringified, with a JSON
      content type added unless one is set. */
  function PrepareBody(input: BodyInput, headers: map<string, string>, codec: JsonCodec): (r: Prepared)
    ensures !IsSerialised(input) ==> r.headers == headers
    ensures input.Absent? || input == Value(JNull) ==> r.body.None?
    ensures input.Init? ==> r.body == Some(input.raw)
    ensures input.Value? && input.value.JString? ==> r.body == Some(RawBody(StringBody, input.value.s))
    ensures IsSerialised(input) ==> r.body == Some(RawBody(StringBody, codec.stringify(input.value)))
    ensures r.headers.Keys == headers.Keys + (if IsSerialised(input) then {ContentTypeName} else {})
    ensures forall k :: k in headers ==> r.headers[k] == headers[k]
    ensures IsSerialised(input) ==>
              r.headers[ContentTypeName] == (if ContentTypeName in headers then headers[ContentTypeName] else JsonMediaType)
  {
    match input
    case Absent => Prepared(None, headers)
    case Init(raw) => Prepared(Some(raw), headers)
    case Value(v) =>
      if v == JNull then Prepared(None, headers)
      else if v.JString? then Prepared(Some(RawBody(StringBody, v.s)), headers)
      else
        var h := if ContentTypeName in headers then headers else headers[ContentTypeName := JsonMediaType];
        Prepared(Some(RawBody(StringBody, codec.stringify(v))), h)
  }

  /** With a codec that reads back what it writes, the text sent for a
      serialised value parses to that value. */
  lemma PreparedBodyRoundTrip(v: Json, headers: map<string, string>, codec: JsonCodec)
    requires codec.parse(codec.stringify(v)) == Some(v)
    requires IsSerialised(Value(v))
    ensures codec.parse(PrepareBody(Value(v), headers, codec).body.value.data) == Some(v)
  {
  }

  /** Preparing again with the headers of a first preparation changes nothing further. */
  lemma PrepareBodyHeadersIdempotent(input: BodyInput, headers: map<string, string>, codec: JsonCodec)
    ensures var once := PrepareBody(input, headers, codec).headers;
            PrepareBody(input, once, codec).headers == once
  {
  }

  // ---------------------------------------------------------------------
  // Response classification in `http`
  // ---------------------------------------------------------------------

  /** The parts of a `Response` that `http` inspects. `body` is None when
      reading the body as text rejects. */
  datatype Reply = Reply(status: nat, contentType: Option<string>, body: Option<string>)

  predicate IsOk(status: nat) {
    200 <= status <= 299
  }

  /** How a call settles: a thrown `Error`, `undefined`, a parsed JSON value,
      raw text, or a rejection while reading a success body (whose message
      belongs to the platform). */
  datatype Outcome =
    | Failed(message: string) | Undefined | Parsed(value: Json) | Text(text: string) | BodyUnreadable
    | Rejected

  /** The message thrown for a non-ok response without body text. */
  function StatusMessage(status: nat, path: string): (m: string)
    ensures "Error " <= m && Strings.EndsWith(m, " al llamar " + path)
  {
    var m := "Error " + Strings.NatToString(status) + " al llamar " + path;
    assert m[|m| - |" al llamar " + path|..] == " al llamar " + path;
    m
  }

  /** The status can be read back from the digits of the message. */
  lemma StatusMessageRoundTrip(status: nat, path: string)
    ensures var m := StatusMessage(status, path);
            var digits := m[6..|m| - |" al llamar " + path|];
            && (forall i :: 0 <= i < |digits| ==> Strings.IsDigit(digits[i]))
            && Strings.DigitsValue(digits) == status
  {
    var m := StatusMessage(status, path);
    assert m[6..|m| - |" al llamar " + path|] == Strings.NatToString(status);
    Strings.NatToStringRoundTrip(status);
  }

  /** The classification of a response to a request for `path`. */
  function Classify(path: string, reply: Reply, codec: JsonCodec): (o: Outcome)
    ensures o.Failed? <==> !IsOk(reply.status)
    ensures o.Failed? ==> o.message != []
    ensures o.Undefined? <==> reply.status == 204
    ensures !o.Rejected?
  {
    if !IsOk(reply.status) then
      var detail := reply.body.GetOr("");
      Failed(if detail != [] then detail else StatusMessage(reply.status, path))
    else if reply.status == 204 then Undefined
    else if Strings.Contains(reply.contentType.GetOr(""), JsonMediaType) then
      match reply.body
      case None => BodyUnreadable
      case Some(t) => match codec.parse(t)
        case None => BodyUnreadable
        case Some(v) => Parsed(v)
    else match reply.body
      case None => BodyUnreadable
      case Some(t) => Text(t)
  }

  /** A failure carries the response text when there is any, and otherwise
      the status message naming the path as the caller wrote it. */
  lemma ClassifyFailure(path: string, reply: Reply, codec: JsonCodec)
    requires !IsOk(reply.status)
    ensures reply.body.Some? && reply.body.value != [] ==> Classify(path, reply, codec) == Failed(reply.body.value)
    ensures reply.body.None? || reply.body == Some([]) ==>
              Classify(path, reply, codec) == Failed(StatusMessage(reply.status, path))
  {
  }

  /** A successful, non-204 reply is parsed exactly when its content type
      mentions JSON, and returned as text exactly when it does not. */
  lemma ClassifySuccess(path: string, reply: Reply, codec: JsonCodec)
    requires IsOk(reply.status) && reply.status != 204 && reply.body.Some?
    ensures Strings.Contains(reply.contentType.GetOr(""), JsonMediaType) ==>
              Classify(path, reply, codec) == (match codec.parse(reply.body.value)
                                               case None => BodyUnreadable
                                               case Some(v) => Parsed(v))
    ensures !Strings.Contains(reply.contentType.GetOr(""), JsonMediaType) ==>
              Classify(path, reply, codec) == Text(reply.body.value)
  {
  }

  /** A JSON media type with parameters still selects parsing. */
  lemma JsonWithCharsetParsed(path: string, status: nat, text: string, v: Json, codec: JsonCodec)
    requires IsOk(status) && status != 204 && codec.parse(text) == Some(v)
    ensures Classify(path, Reply(status, Some("application/json; charset=utf-8"), Some(text)), codec) == Parsed(v)
  {
    Strings.ContainsAt("application/json; charset=utf-8", JsonMediaType, 0);
  }

  // ---------------------------------------------------------------------
  // The whole call
  // ---------------------------------------------------------------------

  /** What is handed to `fetch`. */
  datatype Request = Request(url: string, headers: map<string, string>, body: Option<RawBody>)

  /** `http(path, options)` with `send` standing for `fetch`, None where its
      promise rejects. The request is None when `new Headers` throws, and
      then nothing is sent. */
  function Call(base: string, path: string, init: seq<Header>, input: BodyInput,
                send: Request -> Option<Reply>, codec: JsonCodec): (r: (Option<Request>, Outcome))
    ensures r.0.Some? <==> HeadersValid(init)
    ensures r.0.Some? ==> r.0.value.url == NormalizeUrl(base, path)
    ensures r.0.Some? ==> var prepared := PrepareBody(input, HeadersOf(init), codec);
                          r.0.value.headers == prepared.headers && r.0.value.body == prepared.body
    ensures r.1.Rejected? <==> r.0.None? || send(r.0.value).None?
    ensures r.0.Some? && send(r.0.value).Some? ==> r.1 == Classify(path, send(r.0.value).value, codec)
  {
    if !HeadersValid(init) then (None, Rejected)
    else
      var prepared := PrepareBody(input, HeadersOf(init), codec);
      var request := Request(NormalizeUrl(base, path), prepared.headers, prepared.body);
      match send(request)
      case None => (Some(request), Rejected)
      case Some(reply) => (Some(request), Classify(path, reply, codec))
  }

  /** A JSON value sent without a content type goes out as `application/json`;
      a caller's own content type, in any letter case, is kept. */
  lemma CallSetsJsonContentType(base: string, path: string, init: seq<Header>, v: Json,
                                send: Request -> Option<Reply>, codec: JsonCodec)
    requires IsSerialised(Value(v))
    ensures var sent := Call(base, path, init, Value(v), send, codec).0;
            sent.Some? ==>
              && ContentTypeName in sent.value.headers
              && (ContentTypeName !in HeadersOf(init) ==> sent.value.headers[ContentTypeName] == JsonMediaType)
              && (ContentTypeName in HeadersOf(init) ==>
                    sent.value.headers[ContentTypeName] == HeadersOf(init)[ContentTypeName])
  {
  }
}

=== FILE: json.dfy ===
/** Parsed JSON values, as `JSON.parse` returns them. Parsing and
    serialisation themselves are foreign calls and enter the model as
    oracle functions. */
module JsonData {
  import opened Wrappers

  datatype Json =
    | JNull
    | JBool(b: bool)
    | JNumber(n: real)
    | JString(s: string)
    | JArray(elems: seq<Json>)
    | JObject(fields: map<string, Json>)

  /** `JSON.parse` (None when it throws) and `JSON.stringify`. */
  datatype JsonCodec = JsonCodec(parse: string -> Option<Json>, stringify: Json -> string)

  /** JavaScript truthiness of a parsed value (JSON has no NaN). */
  predicate Truthy(j: Json) {
    match j
    case JNull => false
    case JBool(b) => b
    case JNumber(n) => n != 0.0
    case JString(s) => s != ""
    case JArray(_) => true
    case JObject(_) => true
  }

  /** Optional property access `j?.key`: None stands for `undefined`. */
  function Field(j: Json, key: string): (r: Option<Json>)
    ensures r.Some? <==> j.JObject? && key in j.fields
    ensures r.Some? ==> r.value == j.fields[key]
  {
    if j.JObject? && key in j.fields then Some(j.fields[key]) else None
  }
}

=== FILE: markdown.dfy ===
/** HTML escaping and the small Markdown renderer: an escape followed by a
    fixed sequence of global regular-expression substitutions. Each global
    `replace` is modelled as a left-to-right scan that tries a match at each
    position and resumes after a successful match, as ECMAScript does. */
module Markdown {
  import opened Wrappers
  import Strings

  // ---------------------------------------------------------------------
  // Escaping
  // ---------------------------------------------------------------------

  /** `escapeHtml`: five global replacements, `&` first. */
  function EscapeHtml(s: string): string {
    var a := Strings.ReplaceAll(s, '&', "&amp;");
    var b := Strings.ReplaceAll(a, '<', "&lt;");
    var c := Strings.ReplaceAll(b, '>', "&gt;");
    var d := Strings.ReplaceAll(c, '"', "&quot;");
    Strings.ReplaceAll(d, '\'', "&#39;")
  }

  /** The entity each character becomes. */
  function Entity(c: char): string {
    match c
    case '&' => "&amp;"
    case '<' => "&lt;"
    case '>' => "&gt;"
    case '"' => "&quot;"
    case '\'' => "&#39;"
    case _ => [c]
  }

  /** Character-by-character reference for escaping: each character replaced
      by its entity, independently of its neighbours. */
  function EscapeEach(s: string): string
    decreases |s|
  {
    if s == [] then [] else Entity(s[0]) + EscapeEach(s[1..])
  }

  /** Escaping distributes over concatenation. */
  lemma EscapeHtmlConcat(a: string, b: string)
    ensures EscapeHtml(a + b) == EscapeHtml(a) + EscapeHtml(b)
  {
    var a1 := Strings.ReplaceAll(a, '&', "&amp;");
    var b1 := Strings.ReplaceAll(b, '&', "&amp;");
    Strings.ReplaceAllConcat(a, b, '&', "&amp;");
    var a2 := Strings.ReplaceAll(a1, '<', "&lt;");
    var b2 := Strings.ReplaceAll(b1, '<', "&lt;");
    Strings.ReplaceAllConcat(a1, b1, '<', "&lt;");
    var a3 := Strings.ReplaceAll(a2, '>', "&gt;");
    var b3 := Strings.ReplaceAll(b2, '>', "&gt;");
    Strings.ReplaceAllConcat(a2, b2, '>', "&gt;");
    var a4 := Strings.ReplaceAll(a3, '"', "&quot;");
    var b4 := Strings.ReplaceAll(b3, '"', "&quot;");
    Strings.ReplaceAllConcat(a3, b3, '"', "&quot;");
    Strings.ReplaceAllConcat(a4, b4, '\'', "&#39;");
  }

  /** Escaping a single character yields its entity: because `&` is replaced
      first, the `&` of the later entities is never escaped again. */
  lemma EscapeHtmlChar(c: char)
    ensures EscapeHtml([c]) == Entity(c)
  {
    Strings.ReplaceAllSingle(c, '&', "&amp;");
    if c == '&' {
      EntityUntouched("&amp;", 1);
    } else {
      Strings.ReplaceAllSingle(c, '<', "&lt;");
      if c == '<' {
        EntityUntouched("&lt;", 2);
      } else {
        Strings.ReplaceAllSingle(c, '>', "&gt;");
        if c == '>' {
          EntityUntouched("&gt;", 3);
        } else {
          Strings.ReplaceAllSingle(c, '"', "&quot;");
          if c == '"' {
            EntityUntouched("&quot;", 4);
          } else {
            Strings.ReplaceAllSingle(c, '\'', "&#39;");
          }
        }
      }
    }
  }

  /** The replacements after stage `k` leave an entity produced by stage `k`
      alone: none of them targets a character the entity holds. */
  lemma EntityUntouched(e: string, k: nat)
    requires 1 <= k <= 4
    requires k <= 1 ==> '<' !in e
    requires k <= 2 ==> '>' !in e
    requires k <= 3 ==> '"' !in e
    requires '\'' !in e
    ensures k == 1 ==> Strings.ReplaceAll(Strings.ReplaceAll(Strings.ReplaceAll(Strings.ReplaceAll(e, '<', "&lt;"), '>', "&gt;"), '"', "&quot;"), '\'', "&#39;") == e
    ensures k == 2 ==> Strings.ReplaceAll(Strings.ReplaceAll(Strings.ReplaceAll(e, '>', "&gt;"), '"', "&quot;"), '\'', "&#39;") == e
    ensures k == 3 ==> Strings.ReplaceAll(Strings.ReplaceAll(e, '"', "&quot;"), '\'', "&#39;") == e
    ensures k == 4 ==> Strings.ReplaceAll(e, '\'', "&#39;") == e
  {
  }

  /** The chained global replacements agree with the per-character
      reference: replacing `&` first is what makes the chain correct. */
  lemma {:induction false} EscapeHtmlIsEntityMap(s: string)
    ensures EscapeHtml(s) == EscapeEach(s)
    decreases |s|
  {
    if s == [] {
      assert EscapeHtml(s) == [];
    } else {
      assert s == [s[0]] + s[1..];
      EscapeHtmlConcat([s[0]], s[1..]);
      EscapeHtmlChar(s[0]);
      EscapeHtmlIsEntityMap(s[1..]);
    }
  }

  /** A character that can neither open a tag nor end an attribute value. */
  predicate HtmlSafe(c: char) {
    c != '<' && c != '>' && c != '"' && c != '\''
  }

  /** The characters `escapeHtml` rewrites. */
  predicate Special(c: char) {
    c == '&' || !HtmlSafe(c)
  }

  lemma EntityChars(c: char)
    ensures forall i :: 0 <= i < |Entity(c)| ==> HtmlSafe(Entity(c)[i])
    ensures !Special(c) ==> Entity(c) == [c]
  {
  }

  /** The per-character escape leaves only safe characters, and keeps text
      without special characters as it is. */
  lemma {:induction false} EscapeEachSafe(s: string)
    ensures forall i :: 0 <= i < |EscapeEach(s)| ==> HtmlSafe(EscapeEach(s)[i])
    ensures (forall i :: 0 <= i < |s| ==> !Special(s[i])) ==> EscapeEach(s) == s
    decreases |s|
  {
    if s != [] {
      var e, rest := Entity(s[0]), EscapeEach(s[1..]);
      EntityChars(s[0]);
      EscapeEachSafe(s[1..]);
      assert EscapeEach(s) == e + rest;
      forall i | 0 <= i < |e + rest| ensures HtmlSafe((e + rest)[i]) {
        if i >= |e| {
          assert (e + rest)[i] == rest[i - |e|];
        }
      }
      if forall i :: 0 <= i < |s| ==> !Special(s[i]) {
        assert !Special(s[0]);
        assert forall i :: 0 <= i < |s[1..]| ==> s[1..][i] == s[i + 1];
        assert s == [s[0]] + s[1..];
      }
    }
  }

  /** The escaped text holds no `<`, `>`, `"` or `'`, so it can neither open
      a tag nor close an attribute; text without special characters is kept
      as it is. */
  lemma EscapeHtmlSafe(s: string)
    ensures var r := EscapeHtml(s);
            && '<' !in r && '>' !in r && '"' !in r && '\'' !in r
            && (('&' !in s && '<' !in s && '>' !in s && '"' !in s && '\'' !in s) ==> r == s)
  {
    EscapeHtmlIsEntityMap(s);
    EscapeEachSafe(s);
    var r := EscapeHtml(s);
    assert forall c :: c in r ==> HtmlSafe(c);
    if '&' !in s && '<' !in s && '>' !in s && '"' !in s && '\'' !in s {
      assert forall i :: 0 <= i < |s| ==> s[i] in s;
    }
  }

  /** Decodes the five entities `escapeHtml` produces. */
  function Unescape(t: string): string
    decreases |t|
  {
    if t == [] then []
    else if "&amp;" <= t then "&" + Unescape(t[5..])
    else if "&lt;" <= t then "<" + Unescape(t[4..])
    else if "&gt;" <= t then ">" + Unescape(t[4..])
    else if "&quot;" <= t then "\"" + Unescape(t[6..])
    else if "&#39;" <= t then "'" + Unescape(t[5..])
    else [t[0]] + Unescape(t[1..])
  }

  /** Decoding the entities of one escaped character, followed by anything. */
  lemma UnescapeEntity(c: char, rest: string)
    ensures Unescape(Entity(c) + rest) == [c] + Unescape(rest)
  {
    if c == '&' {
      UnescapeAmp(rest);
    } else if c == '<' {
      UnescapeLt(rest);
    } else if c == '>' {
      UnescapeGt(rest);
    } else if c == '"' {
      UnescapeQuot(rest);
    } else if c == '\'' {
      UnescapeApos(rest);
    } else {
      var t := [c] + rest;
      assert t[0] == c && t[1..] == rest;
    }
  }

  lemma UnescapeAmp(rest: string)
    ensures Unescape("&amp;" + rest) == "&" + Unescape(rest)
  {
    var t := "&amp;" + rest;
    assert "&amp;" <= t && t[5..] == rest;
  }

  lemma UnescapeLt(rest: string)
    ensures Unescape("&lt;" + rest) == "<" + Unescape(rest)
  {
    var t := "&lt;" + rest;
    assert t[1] == 'l';
    assert "&lt;" <= t && t[4..] == rest;
  }

  lemma UnescapeGt(rest: string)
    ensures Unescape("&gt;" + rest) == ">" + Unescape(rest)
  {
    var t := "&gt;" + rest;
    assert t[1] == 'g';
    assert "&gt;" <= t && t[4..] == rest;
  }

  lemma UnescapeQuot(rest: string)
    ensures Unescape("&quot;" + rest) == "\"" + Unescape(rest)
  {
    var t := "&quot;" + rest;
    assert t[1] == 'q';
    assert "&quot;" <= t && t[6..] == rest;
  }

  lemma UnescapeApos(rest: string)
    ensures Unescape("&#39;" + rest) == "'" + Unescape(rest)
  {
    var t := "&#39;" + rest;
    assert t[1] == '#';
    assert "&#39;" <= t && t[5..] == rest;
  }

  /** Decoding the entities recovers the original text exactly: escaping
      loses nothing. */
  lemma {:induction false} EscapeRoundTrip(s: string)
    ensures Unescape(EscapeHtml(s)) == s
    decreases |s|
  {
    EscapeHtmlIsEntityMap(s);
    EscapeEachRoundTrip(s);
  }

  lemma {:induction false} EscapeEachRoundTrip(s: string)
    ensures Unescape(EscapeEach(s)) == s
    decreases |s|
  {
    if s != [] {
      UnescapeEntity(s[0], EscapeEach(s[1..]));
      EscapeEachRoundTrip(s[1..]);
    }
  }

  // ---------------------------------------------------------------------
  // Delimited spans: `\*\*(.+?)\*\*`, `__(.+?)__`, `\*(.+?)\*`, `_(.+?)_`
  // and `` `([^`]+)` ``
  // ---------------------------------------------------------------------

  /** The characters a span's content may hold: `.` (anything but a line
      terminator) or `[^`]` (anything but a backtick). */
  datatype Inner = NotLineTerminator | NotBacktick

  predicate Allowed(inner: Inner, c: char) {
    match inner
    case NotLineTerminator => !Strings.IsLineTerminator(c)
    case NotBacktick => c != '`'
  }

  /** One substitution pass: content between two copies of `delim` wrapped
      in `<tag>`…`</tag>`. */
  datatype SpanRule = SpanRule(delim: string, tag: string, inner: Inner)

  const StrongStars := SpanRule("**", "strong", NotLineTerminator)
  const StrongUnderscores := SpanRule("__", "strong", NotLineTerminator)
  const EmStar := SpanRule("*", "em", NotLineTerminator)
  const EmUnderscore := SpanRule("_", "em", NotLineTerminator)
  const CodeTicks := SpanRule("`", "code", NotBacktick)

  predicate ValidRule(r: SpanRule) {
    |r.delim| > 0
  }

  /** The first `e >= j` at which the closing delimiter starts, walking
      over allowed characters only; None when a disallowed character or the
      end of the text comes first. This is where a lazy `(.+?)` stops, and
      the only place a greedy `[^`]+` followed by a backtick can stop. */
  function CloseFrom(t: string, r: SpanRule, j: nat): (e: Option<nat>)
    requires ValidRule(r) && j <= |t|
    ensures e.Some? ==> j <= e.value && e.value + |r.delim| <= |t|
    decreases |t| - j
  {
    if r.delim <= t[j..] then Some(j)
    else if j < |t| && Allowed(r.inner, t[j]) then CloseFrom(t, r, j + 1)
    else None
  }

  /** A match of the rule at the start of `t`: the end of its content. */
  function MatchSpan(t: string, r: SpanRule): (e: Option<nat>)
    requires ValidRule(r)
    ensures e.Some? ==> |r.delim| < e.value && e.value + |r.delim| <= |t|
  {
    var d := |r.delim|;
    if r.delim <= t && d < |t| && Allowed(r.inner, t[d]) then CloseFrom(t, r, d + 1) else None
  }

  /** Reference reading of a lazy span: the delimiter opens `t`, the
      content `t[d..e]` (`d` the delimiter length) is non-empty and made of
      allowed characters, and `e` is the first place after the content's
      first character where the delimiter occurs again. */
  predicate SpanAt(t: string, r: SpanRule, e: nat) {
    var d := |r.delim|;
    && r.delim <= t && d < e && e + d <= |t| && r.delim <= t[e..]
    && (forall k :: d <= k < e ==> Allowed(r.inner, t[k]))
    && (forall k :: d < k < e ==> !(r.delim <= t[k..]))
  }

  /** The closing search ends exactly at the first delimiter reached over
      allowed characters. */
  lemma {:induction false} CloseFromIff(t: string, r: SpanRule, j: nat, e: nat)
    requires ValidRule(r) && j <= |t|
    ensures CloseFrom(t, r, j) == Some(e) <==>
              && j <= e && e + |r.delim| <= |t| && r.delim <= t[e..]
              && forall k :: j <= k < e ==> Allowed(r.inner, t[k]) && !(r.delim <= t[k..])
    decreases |t| - j
  {
    if r.delim <= t[j..] {
    } else if j < |t| && Allowed(r.inner, t[j]) {
      CloseFromIff(t, r, j + 1, e);
    }
  }

  /** The span matcher finds exactly the reference match. */
  lemma MatchSpanIff(t: string, r: SpanRule, e: nat)
    requires ValidRule(r)
    ensures MatchSpan(t, r) == Some(e) <==> SpanAt(t, r, e)
  {
    if MatchSpan(t, r) == Some(e) {
      MatchSpanSound(t, r, e);
    }
    if SpanAt(t, r, e) {
      MatchSpanComplete(t, r, e);
    }
  }

  lemma MatchSpanSound(t: string, r: SpanRule, e: nat)
    requires ValidRule(r) && MatchSpan(t, r) == Some(e)
    ensures SpanAt(t, r, e)
  {
    var d := |r.delim|;
    assert r.delim <= t && d < |t| && Allowed(r.inner, t[d]);
    CloseFromIff(t, r, d + 1, e);
  }

  lemma MatchSpanComplete(t: string, r: SpanRule, e: nat)
    requires ValidRule(r) && SpanAt(t, r, e)
    ensures MatchSpan(t, r) == Some(e)
  {
    var d := |r.delim|;
    assert CloseFrom(t, r, d + 1) == Some(e) by {
      assert forall k :: d + 1 <= k < e ==> Allowed(r.inner, t[k]) && !(r.delim <= t[k..]);
      CloseFromIff(t, r, d + 1, e);
    }
    assert r.delim <= t && d < |t| && Allowed(r.inner, t[d]);
  }

  function OpenTag(name: string): string {
    "<" + name + ">"
  }

  function CloseTag(name: string): string {
    "</" + name + ">"
  }

  /** What one match ending its content at `e` becomes: the content
      between the delimiters, wrapped in the rule's tags. */
  function SpanHtml(t: string, r: SpanRule, e: nat): string
    requires |r.delim| <= e <= |t|
  {
    OpenTag(r.tag) + t[|r.delim|..e] + CloseTag(r.tag)
  }

  /** One global substitution pass of a span rule. */
  function ApplySpan(t: string, r: SpanRule): string
    requires ValidRule(r)
    decreases |t|, 1
  {
    if t == [] then [] else SpanStep(t, r, MatchSpan(t, r))
  }

  function SpanStep(t: string, r: SpanRule, m: Option<nat>): string
    requires ValidRule(r) && t != []
    requires m.Some? ==> |r.delim| < m.value && m.value + |r.delim| <= |t|
    decreases |t|, 0
  {
    if m.Some? then SpanHtml(t, r, m.value) + ApplySpan(t[m.value + |r.delim|..], r)
    else [t[0]] + ApplySpan(t[1..], r)
  }

  /** One step of a span pass where no match starts. */
  lemma ApplySpanStep(t: string, r: SpanRule)
    requires ValidRule(r) && t != [] && MatchSpan(t, r).None?
    ensures ApplySpan(t, r) == [t[0]] + ApplySpan(t[1..], r)
  {
  }

  /** One step of a span pass where a match starts. */
  lemma ApplySpanAt(t: string, r: SpanRule, e: nat)
    requires ValidRule(r) && t != [] && MatchSpan(t, r) == Some(e)
    ensures ApplySpan(t, r) == SpanHtml(t, r, e) + ApplySpan(t[e + |r.delim|..], r)
  {
  }

  /** No position of `t` starts a match of the rule. */
  predicate NoSpanIn(t: string, r: SpanRule)
    requires ValidRule(r)
  {
    forall i :: 0 <= i < |t| ==> MatchSpan(t[i..], r).None?
  }

  /** The tags a rule writes are longer than the two delimiters they replace. */
  predicate Widening(r: SpanRule) {
    ValidRule(r) && |OpenTag(r.tag)| + |CloseTag(r.tag)| > 2 * |r.delim|
  }

  /** A span pass changes the text exactly when some position starts a
      match. */
  lemma SpanIdentityIff(t: string, r: SpanRule)
    requires Widening(r)
    ensures ApplySpan(t, r) == t <==> NoSpanIn(t, r)
  {
    if NoSpanIn(t, r) {
      SpansPassThrough(t, r);
    } else {
      var i :| 0 <= i < |t| && MatchSpan(t[i..], r).Some?;
      SpansGrow(t, r, i);
    }
  }

  /** Text without the delimiter's first character passes through. */
  lemma SpanIdentity(t: string, r: SpanRule)
    requires ValidRule(r) && r.delim[0] !in t
    ensures ApplySpan(t, r) == t
  {
    SpanPassThrough(t, [], r);
    assert t + [] == t;
  }

  lemma {:induction false} SpansPassThrough(t: string, r: SpanRule)
    requires ValidRule(r) && NoSpanIn(t, r)
    ensures ApplySpan(t, r) == t
    decreases |t|
  {
    if t != [] {
      assert MatchSpan(t[0..], r).None? && t[0..] == t;
      ApplySpanStep(t, r);
      assert NoSpanIn(t[1..], r) by {
        forall i | 0 <= i < |t[1..]| ensures MatchSpan(t[1..][i..], r).None? {
          assert t[1..][i..] == t[i + 1..];
        }
      }
      SpansPassThrough(t[1..], r);
    }
  }

  lemma {:induction false} SpanNoShrink(t: string, r: SpanRule)
    requires Widening(r)
    ensures |ApplySpan(t, r)| >= |t|
    decreases |t|
  {
    if t != [] {
      if MatchSpan(t, r).Some? {
        var e := MatchSpan(t, r).value;
        ApplySpanAt(t, r, e);
        SpanNoShrink(t[e + |r.delim|..], r);
      } else {
        ApplySpanStep(t, r);
        SpanNoShrink(t[1..], r);
      }
    }
  }

  lemma {:induction false} SpansGrow(t: string, r: SpanRule, i: nat)
    requires Widening(r) && i < |t| && MatchSpan(t[i..], r).Some?
    ensures |ApplySpan(t, r)| > |t|
    decreases |t|
  {
    if MatchSpan(t, r).Some? {
      var e := MatchSpan(t, r).value;
      ApplySpanAt(t, r, e);
      SpanNoShrink(t[e + |r.delim|..], r);
    } else {
      assert t[0..] == t;
      ApplySpanStep(t, r);
      assert t[1..][i - 1..] == t[i..];
      SpansGrow(t[1..], r, i - 1);
    }
  }

  /** The five rules of the renderer all widen the text they rewrite. */
  lemma MarkupRulesWiden()
    ensures Widening(StrongStars) && Widening(StrongUnderscores)
    ensures Widening(EmStar) && Widening(EmUnderscore) && Widening(CodeTicks)
  {
  }

  // ---------------------------------------------------------------------
  // Links: `\[(.+?)\]\((https?:\/\/[^\s)]+)\)`
  // ---------------------------------------------------------------------

  /** First index at or after `k` that is white space or `)`. */
  function UrlEnd(t: string, k: nat): (e: nat)
    requires k <= |t|
    ensures k <= e <= |t|
    decreases |t| - k
  {
    if k == |t| || Strings.IsJsSpace(t[k]) || t[k] == ')' then k else UrlEnd(t, k + 1)
  }

  /** `[^\s)]+` is greedy: it runs from `k` to the first white space or
      `)`, and nowhere else. */
  lemma {:induction false} UrlEndIff(t: string, k: nat, e: nat)
    requires k <= |t|
    ensures UrlEnd(t, k) == e <==>
              && k <= e <= |t|
              && (forall m :: k <= m < e ==> !Strings.IsJsSpace(t[m]) && t[m] != ')')
              && (e < |t| ==> Strings.IsJsSpace(t[e]) || t[e] == ')')
    decreases |t| - k
  {
    if k == |t| || Strings.IsJsSpace(t[k]) || t[k] == ')' {
    } else {
      UrlEndIff(t, k + 1, e);
    }
  }

  /** The length of the scheme `https://` or `http://` that starts `u`, or
      0 when `u` starts with neither. */
  function SchemeLength(u: string): (n: nat)
    ensures n == 0 || (n == 7 && "http://" <= u) || (n == 8 && "https://" <= u)
    ensures n == 0 <==> !("http://" <= u) && !("https://" <= u)
  {
    if "https://" <= u then 8 else if "http://" <= u then 7 else 0
  }

  /** The scheme characters are neither white space nor `)`. */
  lemma SchemePlain(u: string)
    ensures forall m :: 0 <= m < SchemeLength(u) ==> !Strings.IsJsSpace(u[m]) && u[m] != ')'
  {
    var n := SchemeLength(u);
    if n == 7 {
      assert u[..7] == "http://";
      forall m | 0 <= m < 7 ensures !Strings.IsJsSpace(u[m]) && u[m] != ')' {
        assert u[m] == "http://"[m];
      }
    } else if n == 8 {
      assert u[..8] == "https://";
      forall m | 0 <= m < 8 ensures !Strings.IsJsSpace(u[m]) && u[m] != ')' {
        assert u[m] == "https://"[m];
      }
    }
  }

  /** The part of a link after its label, `](` + scheme + target + `)`,
      starting at `j`: the index of its closing `)`. */
  function LinkTail(t: string, j: nat): (e: Option<nat>)
    requires j <= |t|
    ensures e.Some? ==> j + 2 < e.value < |t|
  {
    if !("](" <= t[j..]) then None
    else
      var n := SchemeLength(t[j + 2..]);
      if n == 0 then None
      else
        var e := UrlEnd(t, j + 2 + n);
        if j + 2 + n < e < |t| && t[e] == ')' then Some(e) else None
  }

  /** Reference reading of `\]\((https?:\/\/[^\s)]+)\)` at `j`, ending at
      `e`: `](`, a scheme, at least one character that is neither white
      space nor `)`, then `)`. */
  predicate TailAt(t: string, j: nat, e: nat) {
    && j + 2 <= |t| && "](" <= t[j..]
    && var n := SchemeLength(t[j + 2..]);
       && n > 0 && j + 2 + n < e < |t| && t[e] == ')'
       && forall m :: j + 2 + n <= m < e ==> !Strings.IsJsSpace(t[m]) && t[m] != ')'
  }

  lemma LinkTailIff(t: string, j: nat, e: nat)
    requires j <= |t|
    ensures LinkTail(t, j) == Some(e) <==> TailAt(t, j, e)
  {
    if "](" <= t[j..] {
      var n := SchemeLength(t[j + 2..]);
      if n > 0 {
        UrlEndIff(t, j + 2 + n, e);
      }
    }
  }

  /** Where a link ends: `close` indexes the `]` after its label and `paren`
      the `)` after its target. */
  datatype LinkSpan = LinkSpan(close: nat, paren: nat)

  /** Lazy search for the `]` that ends the label: the first candidate
      whose tail matches wins; the label may not cross a line terminator. */
  function LinkCloseFrom(t: string, j: nat): (m: Option<LinkSpan>)
    requires j <= |t|
    ensures m.Some? ==> j <= m.value.close <= |t| && LinkTail(t, m.value.close) == Some(m.value.paren)
    decreases |t| - j
  {
    if LinkTail(t, j).Some? then Some(LinkSpan(j, LinkTail(t, j).value))
    else if j < |t| && !Strings.IsLineTerminator(t[j]) then LinkCloseFrom(t, j + 1)
    else None
  }

  /** A link at the start of `t`. */
  function MatchLink(t: string): (m: Option<LinkSpan>)
    ensures m.Some? ==> 2 <= m.value.close <= |t| && LinkTail(t, m.value.close) == Some(m.value.paren)
    ensures m.Some? ==> t[0] == '['
  {
    if 2 <= |t| && t[0] == '[' && !Strings.IsLineTerminator(t[1]) then LinkCloseFrom(t, 2) else None
  }

  /** Reference reading of a link at the start of `t`: `[`, a label of at
      least one character without line terminators, closed at the first
      place where a tail matches. */
  predicate LinkAt(t: string, m: LinkSpan) {
    && 2 <= m.close <= |t| && t[0] == '[' && LinkTail(t, m.close) == Some(m.paren)
    && (forall c :: 1 <= c < m.close ==> !Strings.IsLineTerminator(t[c]))
    && (forall c :: 2 <= c < m.close ==> LinkTail(t, c).None?)
  }

  lemma {:induction false} LinkCloseFromIff(t: string, j: nat, m: LinkSpan)
    requires j <= |t|
    ensures LinkCloseFrom(t, j) == Some(m) <==>
              && j <= m.close <= |t| && LinkTail(t, m.close) == Some(m.paren)
              && forall c :: j <= c < m.close ==> LinkTail(t, c).None? && !Strings.IsLineTerminator(t[c])
    decreases |t| - j
  {
    if LinkTail(t, j).Some? {
    } else if j < |t| && !Strings.IsLineTerminator(t[j]) {
      LinkCloseFromIff(t, j + 1, m);
    }
  }

  /** The link matcher finds exactly the reference match. */
  lemma MatchLinkIff(t: string, m: LinkSpan)
    ensures MatchLink(t) == Some(m) <==> LinkAt(t, m)
  {
    if MatchLink(t) == Some(m) {
      MatchLinkSound(t, m);
    }
    if LinkAt(t, m) {
      MatchLinkComplete(t, m);
    }
  }

  lemma MatchLinkSound(t: string, m: LinkSpan)
    requires MatchLink(t) == Some(m)
    ensures LinkAt(t, m)
  {
    assert 2 <= |t| && t[0] == '[' && !Strings.IsLineTerminator(t[1]);
    LinkCloseFromIff(t, 2, m);
  }

  lemma MatchLinkComplete(t: string, m: LinkSpan)
    requires LinkAt(t, m)
    ensures MatchLink(t) == Some(m)
  {
    assert LinkCloseFrom(t, 2) == Some(m) by {
      assert forall c :: 2 <= c < m.close ==> LinkTail(t, c).None? && !Strings.IsLineTerminator(t[c]);
      LinkCloseFromIff(t, 2, m);
    }
    assert 2 <= |t| && t[0] == '[' && !Strings.IsLineTerminator(t[1]);
  }

  /** Every character of a recognised target is neither white space nor `)`. */
  lemma LinkUrlPlain(t: string, m: LinkSpan)
    requires MatchLink(t) == Some(m)
    ensures forall i :: m.close + 2 <= i < m.paren ==> !Strings.IsJsSpace(t[i]) && t[i] != ')'
  {
    MatchLinkIff(t, m);
    LinkTailIff(t, m.close, m.paren);
    var u := t[m.close + 2..];
    SchemePlain(u);
    assert forall i :: m.close + 2 <= i < m.paren ==> t[i] == u[i - m.close - 2];
  }

  const AnchorOpen: string := "<a href=\""

  /** The attributes after the `href` value: `target` opens a new window
      and `rel` cuts the opener. */
  const AnchorAttributes: string := TargetOpen + "_" + BlankRel

  /** The attributes on either side of the `_` of `_blank`, the one
      markup delimiter an anchor holds. */
  const TargetOpen: string := "\" target=\""
  const BlankRel: string := "blank\" rel=\"noopener noreferrer\">"

  /** `<a href="$2" target="_blank" rel="noopener noreferrer">$1</a>`. */
  function Anchor(url: string, text: string): string {
    AnchorOpen + url + AnchorAttributes + text + "</a>"
  }

  /** The link pass. */
  function ApplyLinks(t: string): string
    decreases |t|, 1
  {
    if t == [] then [] else LinkStep(t, MatchLink(t))
  }

  /** One step of the link pass, given what the matcher found at the front. */
  function LinkStep(t: string, m: Option<LinkSpan>): string
    requires t != []
    requires m.Some? ==> 2 <= m.value.close && m.value.close + 2 < m.value.paren < |t|
    decreases |t|, 0
  {
    if m.Some? then
      Anchor(t[m.value.close + 2..m.value.paren], t[1..m.value.close]) + ApplyLinks(t[m.value.paren + 1..])
    else [t[0]] + ApplyLinks(t[1..])
  }

  /** No position of `t` starts a link. */
  predicate NoLinkIn(t: string) {
    forall i :: 0 <= i < |t| ==> MatchLink(t[i..]).None?
  }

  /** The link pass changes the text exactly when some position starts a
      link: text without links passes through, and every rewritten link
      grows, since an anchor is longer than the link it replaces. */
  lemma LinksIdentityIff(t: string)
    ensures ApplyLinks(t) == t <==> NoLinkIn(t)
  {
    if NoLinkIn(t) {
      LinksPassThrough(t);
    } else {
      var i :| 0 <= i < |t| && MatchLink(t[i..]).Some?;
      LinksGrow(t, i);
    }
  }

  lemma {:induction false} LinksPassThrough(t: string)
    requires NoLinkIn(t)
    ensures ApplyLinks(t) == t
    decreases |t|
  {
    if t != [] {
      assert MatchLink(t[0..]).None? && t[0..] == t;
      ApplyLinksStep(t);
      assert NoLinkIn(t[1..]) by {
        forall i | 0 <= i < |t[1..]| ensures MatchLink(t[1..][i..]).None? {
          assert t[1..][i..] == t[i + 1..];
        }
      }
      LinksPassThrough(t[1..]);
    }
  }

  /** An anchor is longer than the link text it replaces. */
  lemma AnchorLonger(url: string, text: string)
    ensures |Anchor(url, text)| > |text| + |url| + 4
  {
    AnchorLiteralChars();
  }

  /** The link pass never shrinks the text. */
  lemma {:induction false} LinksNoShrink(t: string)
    ensures |ApplyLinks(t)| >= |t|
    decreases |t|
  {
    if t != [] {
      if MatchLink(t).Some? {
        var m := MatchLink(t).value;
        ApplyLinksAt(t, m);
        AnchorLonger(t[m.close + 2..m.paren], t[1..m.close]);
        LinksNoShrink(t[m.paren + 1..]);
      } else {
        ApplyLinksStep(t);
        LinksNoShrink(t[1..]);
      }
    }
  }

  /** Once some position starts a link, the link pass grows the text. */
  lemma {:induction false} LinksGrow(t: string, i: nat)
    requires i < |t| && MatchLink(t[i..]).Some?
    ensures |ApplyLinks(t)| > |t|
    decreases |t|
  {
    if MatchLink(t).Some? {
      var m := MatchLink(t).value;
      ApplyLinksAt(t, m);
      AnchorLonger(t[m.close + 2..m.paren], t[1..m.close]);
      LinksNoShrink(t[m.paren + 1..]);
    } else {
      assert t[0..] == t;
      ApplyLinksStep(t);
      assert t[1..][i - 1..] == t[i..];
      LinksGrow(t[1..], i - 1);
    }
  }

  /** A prefix of `u` that fits in its first `n` characters is a prefix of `u[..n]`. */
  lemma PrefixWithin(w: string, u: string, n: nat)
    requires w <= u && |w| <= n <= |u|
    ensures w <= u[..n]
  {
  }

  /** Every anchor the link pass writes points at an `http://` or `https://`
      target taken verbatim from the text, and its label is the bracketed
      text: the `[` at the start, `](` after the label and `)` after the
      target. */
  lemma LinkTargetsAreHttp(t: string)
    requires MatchLink(t).Some?
    ensures var m := MatchLink(t).value;
            && ("http://" <= t[m.close + 2..m.paren] || "https://" <= t[m.close + 2..m.paren])
            && t[0] == '[' && t[m.close] == ']' && t[m.close + 1] == '(' && t[m.paren] == ')'
  {
    var m := MatchLink(t).value;
    MatchLinkIff(t, m);
    LinkTailIff(t, m.close, m.paren);
    var u := t[m.close + 2..];
    assert t[m.close + 2..m.paren] == u[..m.paren - m.close - 2];
    if "https://" <= u {
      PrefixWithin("https://", u, m.paren - m.close - 2);
    } else {
      PrefixWithin("http://", u, m.paren - m.close - 2);
    }
    assert t[m.close] == t[m.close..][0] && t[m.close + 1] == t[m.close..][1];
  }

  // ---------------------------------------------------------------------
  // Line breaks: `\r?\n`
  // ---------------------------------------------------------------------

  /** Every `\r\n` or lone `\n` becomes `<br />`; a lone `\r` stays. */
  function ApplyLineBreaks(t: string): string
    decreases |t|
  {
    if t == [] then []
    else if 2 <= |t| && t[0] == '\r' && t[1] == '\n' then "<br />" + ApplyLineBreaks(t[2..])
    else if t[0] == '\n' then "<br />" + ApplyLineBreaks(t[1..])
    else [t[0]] + ApplyLineBreaks(t[1..])
  }

  /** No line feed survives the break pass, and text without line breaks
      passes through unchanged. */
  lemma {:induction false} LineBreaksSingleLine(t: string)
    ensures '\n' !in ApplyLineBreaks(t)
    ensures '\n' !in t && '\r' !in t ==> ApplyLineBreaks(t) == t
    decreases |t|
  {
    if t != [] {
      var n := if 2 <= |t| && t[0] == '\r' && t[1] == '\n' then 2 else 1;
      LineBreaksSingleLine(t[n..]);
      if n == 1 && t[0] != '\n' {
        assert t[0] != '\n';
        assert ApplyLineBreaks(t) == [t[0]] + ApplyLineBreaks(t[1..]);
      } else {
        assert '\n' !in "<br />";
      }
    }
    if '\n' !in t && '\r' !in t {
      LineBreaksPassThrough(t, []);
      assert t + [] == t;
    }
  }

  /** On text without carriage returns the pass is the plain global
      replacement of `\n` by `<br />`. */
  lemma {:induction false} LineBreaksReplaceNewlines(t: string)
    requires '\r' !in t
    ensures ApplyLineBreaks(t) == Strings.ReplaceAll(t, '\n', "<br />")
    decreases |t|
  {
    if t != [] {
      assert t[0] in t;
      assert forall c :: c in t[1..] ==> c in t;
      LineBreaksReplaceNewlines(t[1..]);
    }
  }

  /** The pass splits at any point not followed by a line feed: a final
      `\r` of the first part is never paired across the cut. */
  lemma {:induction false} LineBreaksSplit(a: string, rest: string)
    requires rest == [] || rest[0] != '\n'
    ensures ApplyLineBreaks(a + rest) == ApplyLineBreaks(a) + ApplyLineBreaks(rest)
    decreases |a|
  {
    var t := a + rest;
    if a == [] {
      assert t == rest;
    } else if 2 <= |a| && a[0] == '\r' && a[1] == '\n' {
      assert t[0] == '\r' && t[1] == '\n';
      assert t[2..] == a[2..] + rest;
      LineBreaksSplit(a[2..], rest);
    } else if a[0] == '\n' {
      assert t[0] == '\n';
      assert t[1..] == a[1..] + rest;
      LineBreaksSplit(a[1..], rest);
    } else {
      assert t[0] == a[0];
      assert !(2 <= |t| && t[0] == '\r' && t[1] == '\n') by {
        if 2 <= |t| && |a| == 1 {
          assert t[1] == rest[0];
        } else if 2 <= |t| {
          assert t[1] == a[1];
        }
      }
      assert t[1..] == a[1..] + rest;
      LineBreaksSplit(a[1..], rest);
    }
  }

  /** A `\r\n` anywhere becomes a single `<br />`, whatever surrounds it. */
  lemma LineBreaksCrLf(a: string, b: string)
    ensures ApplyLineBreaks(a + "\r\n" + b) == ApplyLineBreaks(a) + "<br />" + ApplyLineBreaks(b)
  {
    assert a + "\r\n" + b == a + ("\r\n" + b);
    LineBreaksSplit(a, "\r\n" + b);
    assert ("\r\n" + b)[2..] == b;
  }

  // ---------------------------------------------------------------------
  // The renderer
  // ---------------------------------------------------------------------

  /** The emphasis and code passes, in source order: bold, italic, code. */
  function Inline(t: string): string {
    var bold := ApplySpan(ApplySpan(t, StrongStars), StrongUnderscores);
    var italic := ApplySpan(ApplySpan(bold, EmStar), EmUnderscore);
    ApplySpan(italic, CodeTicks)
  }

  /** The substitution passes after escaping: links, inline markup, breaks. */
  function Markup(escaped: string): string {
    ApplyLineBreaks(Inline(ApplyLinks(escaped)))
  }

  /** `renderMarkdown`: escape first, then the markup passes. The output
      never contains a line feed. */
  function RenderMarkdown(markdown: string): (html: string)
    ensures '\n' !in html
  {
    LineBreaksSingleLine(Inline(ApplyLinks(EscapeHtml(markdown))));
    Markup(EscapeHtml(markdown))
  }

  // ---------------------------------------------------------------------
  // Which `<` the output may hold
  // ---------------------------------------------------------------------

  /** The tags a `<` of the output is allowed to open: only the inline and
      break tags, those plus anchors recognised by their first characters,
      or those plus anchors whose attributes are intact. */
  datatype TagSet = InlineOnly | AnchorsLoose | AnchorsStrict

  /** The literal tag texts, without their `<`: 0-5 the inline tags, 6 the
      break, 7 the start of an anchor, 8 its end. */
  function TagBody(k: nat): string
    requires k < 9
  {
    if k == 0 then "strong>"
    else if k == 1 then "/strong>"
    else if k == 2 then "em>"
    else if k == 3 then "/em>"
    else if k == 4 then "code>"
    else if k == 5 then "/code>"
    else if k == 6 then "br />"
    else if k == 7 then "a "
    else "/a>"
  }

  function TagText(k: nat): string
    requires k < 9
  {
    "<" + TagBody(k)
  }

  /** The literal tags each set allows; the strict set checks anchor starts
      by their attributes instead. */
  predicate TagIndex(ts: TagSet, k: nat) {
    k < 7 || (ts == AnchorsLoose && k < 9) || (ts == AnchorsStrict && k == 8)
  }

  /** After the `href` value: a URL without quotes or line breaks, then the
      exact attributes the link pass writes. */
  predicate AttributesAfterUrl(v: string)
    decreases |v|
  {
    && |v| > 0
    && if v[0] == '"' then AnchorAttributes <= v
       else !Strings.IsLineTerminator(v[0]) && AttributesAfterUrl(v[1..])
  }

  /** `u` starts with an anchor whose `target` and `rel` are intact. */
  predicate AnchorOpenAt(u: string) {
    AnchorOpen <= u && AttributesAfterUrl(u[|AnchorOpen|..])
  }

  predicate StartsTag(u: string, ts: TagSet) {
    || (exists k :: TagIndex(ts, k) && k < 9 && TagText(k) <= u)
    || (ts == AnchorsStrict && AnchorOpenAt(u))
  }

  /** Every `<` of `t` opens one of the allowed tags. */
  predicate TagsOnly(t: string, ts: TagSet) {
    forall i :: 0 <= i < |t| && t[i] == '<' ==> StartsTag(t[i..], ts)
  }

  /** A character that neither opens a tag, delimits a span nor breaks a line. */
  predicate PlainChar(c: char) {
    c != '<' && c != '*' && c != '_' && c != '`' && c != '\n' && c != '\r'
  }

  lemma TagBodyChars(k: nat)
    requires k < 9
    ensures |TagBody(k)| >= 2
    ensures forall i :: 0 <= i < |TagBody(k)| ==> PlainChar(TagBody(k)[i])
  {
  }

  /** Tag texts hold no markup delimiter and no line break, and `<` only
      at their start. */
  lemma TagBodyPlain(k: nat)
    requires k < 9
    ensures var b := TagBody(k);
            && |b| >= 2 && '<' !in b
            && '*' !in b && '_' !in b && '`' !in b && '\n' !in b && '\r' !in b
  {
    TagBodyChars(k);
  }

  /** A prefix avoids every character it does not contain. */
  lemma PrefixAvoids(w: string, u: string, c: char, n: nat)
    requires w <= u && n < |u| && u[n] == c && c !in w
    ensures |w| <= n
  {
  }

  lemma AttributesExtend(v: string, w: string)
    requires AttributesAfterUrl(v)
    ensures AttributesAfterUrl(v + w)
    decreases |v|
  {
    if v[0] == '"' {
      assert (v + w)[..|AnchorAttributes|] == v[..|AnchorAttributes|];
    } else {
      assert (v + w)[1..] == v[1..] + w;
      AttributesExtend(v[1..], w);
    }
  }

  lemma StartsTagExtend(u: string, w: string, ts: TagSet)
    requires StartsTag(u, ts)
    ensures StartsTag(u + w, ts)
  {
    if exists k :: TagIndex(ts, k) && k < 9 && TagText(k) <= u {
      var k :| TagIndex(ts, k) && k < 9 && TagText(k) <= u;
      assert (u + w)[..|TagText(k)|] == u[..|TagText(k)|];
    } else {
      assert (u + w)[..|AnchorOpen|] == u[..|AnchorOpen|];
      assert (u + w)[|AnchorOpen|..] == u[|AnchorOpen|..] + w;
      AttributesExtend(u[|AnchorOpen|..], w);
    }
  }

  /** Allowed tags are closed under concatenation. */
  lemma TagsOnlyConcat(a: string, b: string, ts: TagSet)
    requires TagsOnly(a, ts) && TagsOnly(b, ts)
    ensures TagsOnly(a + b, ts)
  {
    forall i | 0 <= i < |a + b| && (a + b)[i] == '<'
      ensures StartsTag((a + b)[i..], ts)
    {
      if i < |a| {
        assert (a + b)[i..] == a[i..] + b;
        StartsTagExtend(a[i..], b, ts);
      } else {
        assert (a + b)[i..] == b[i - |a|..];
      }
    }
  }

  lemma TagsOnlyJoin(x: string, a: string, b: string, ts: TagSet)
    requires x == a + b && TagsOnly(a, ts) && TagsOnly(b, ts)
    ensures TagsOnly(x, ts)
  {
    TagsOnlyConcat(a, b, ts);
  }

  lemma TagsOnlySuffix(t: string, k: nat, ts: TagSet)
    requires k <= |t| && TagsOnly(t, ts)
    ensures TagsOnly(t[k..], ts)
  {
    forall i | 0 <= i < |t[k..]| && t[k..][i] == '<'
      ensures StartsTag(t[k..][i..], ts)
    {
      assert t[k..][i..] == t[k + i..];
    }
  }

  lemma TagsOnlyCons(c: char, t: string, ts: TagSet)
    requires TagsOnly(t, ts)
    requires c == '<' ==> StartsTag([c] + t, ts)
    ensures TagsOnly([c] + t, ts)
  {
    forall i | 0 <= i < |[c] + t| && ([c] + t)[i] == '<'
      ensures StartsTag(([c] + t)[i..], ts)
    {
      if i > 0 {
        assert ([c] + t)[i..] == t[i - 1..];
      }
    }
  }

  lemma NoLtTagsOnly(t: string, ts: TagSet)
    requires '<' !in t
    ensures TagsOnly(t, ts)
  {
  }

  /** A literal tag text is itself well formed. */
  lemma TagTextTagsOnly(ts: TagSet, k: nat)
    requires k < 9 && TagIndex(ts, k)
    ensures TagsOnly(TagText(k), ts)
  {
    TagBodyPlain(k);
    assert TagText(k) <= TagText(k);
    TagsOnlyCons('<', TagBody(k), ts);
  }

  /** The tags allowed in text the inline passes produce are allowed
      everywhere. */
  lemma InlineTagsAnywhere(t: string, ts: TagSet)
    requires TagsOnly(t, InlineOnly)
    ensures TagsOnly(t, ts)
  {
    forall i | 0 <= i < |t| && t[i] == '<'
      ensures StartsTag(t[i..], ts)
    {
      var k :| TagIndex(InlineOnly, k) && k < 9 && TagText(k) <= t[i..];
      assert TagIndex(ts, k);
    }
  }

  // ---------------------------------------------------------------------
  // Each pass keeps the tags allowed
  // ---------------------------------------------------------------------

  /** The five rules of the renderer. */
  predicate MarkupRule(r: SpanRule) {
    r == StrongStars || r == StrongUnderscores || r == EmStar || r == EmUnderscore || r == CodeTicks
  }

  /** The open and close tag of a markup rule, as literal tag texts. */
  lemma MarkupRuleTags(r: SpanRule) returns (k: nat)
    requires MarkupRule(r)
    ensures ValidRule(r)
    ensures r.delim[0] == '*' || r.delim[0] == '_' || r.delim[0] == '`'
    ensures k < 6 && OpenTag(r.tag) == TagText(k) && CloseTag(r.tag) == TagText(k + 1)
  {
    k := if r.tag == "strong" then 0 else if r.tag == "em" then 2 else 4;
  }

  /** Text before the first delimiter passes through a span pass unchanged. */
  lemma {:induction false} SpanPassThrough(p: string, q: string, r: SpanRule)
    requires ValidRule(r) && r.delim[0] !in p
    ensures ApplySpan(p + q, r) == p + ApplySpan(q, r)
    decreases |p|
  {
    if p != [] {
      var t := p + q;
      assert t[0] == p[0] && t[0] != r.delim[0];
      assert !(r.delim <= t);
      assert t[1..] == p[1..] + q;
      SpanPassThrough(p[1..], q, r);
    } else {
      assert p + q == q;
    }
  }

  /** Cutting well-formed text just before a delimiter character cuts no
      literal tag in two. */
  lemma TagsOnlyCut(t: string, e: nat, c: char, ts: TagSet)
    requires ts != AnchorsStrict
    requires e < |t| && t[e] == c && (c == '*' || c == '_' || c == '`')
    requires TagsOnly(t, ts)
    ensures TagsOnly(t[..e], ts)
  {
    forall i | 0 <= i < e && t[..e][i] == '<'
      ensures StartsTag(t[..e][i..], ts)
    {
      var k :| TagIndex(ts, k) && k < 9 && TagText(k) <= t[i..];
      TagBodyPlain(k);
      PrefixAvoids(TagText(k), t[i..], c, e - i);
      assert t[..e][i..][..|TagText(k)|] == TagText(k);
    }
  }

  /** A literal tag at the start of the input of a span pass survives. */
  lemma SpanKeepsTagStart(t: string, r: SpanRule, ts: TagSet)
    requires MarkupRule(r) && ts != AnchorsStrict
    requires t != [] && t[0] == '<' && StartsTag(t, ts)
    ensures StartsTag([t[0]] + ApplySpan(t[1..], r), ts)
  {
    var k :| TagIndex(ts, k) && k < 9 && TagText(k) <= t;
    SpanKeepsLiteralTag(t, r, k);
  }

  lemma SpanKeepsLiteralTag(t: string, r: SpanRule, k: nat)
    requires MarkupRule(r) && k < 9 && TagText(k) <= t
    ensures TagText(k) <= [t[0]] + ApplySpan(t[1..], r)
  {
    var _ := MarkupRuleTags(r);
    TagBodyPlain(k);
    assert TagText(k)[1..] == TagBody(k);
    SpanKeepsPrefix(t, r, TagText(k));
  }

  /** A prefix free of the delimiter after its first character comes out of
      a span pass unchanged when no match starts at it. */
  lemma SpanKeepsPrefix(t: string, r: SpanRule, w: string)
    requires ValidRule(r) && |w| >= 1 && w <= t && r.delim[0] !in w[1..]
    ensures w <= [t[0]] + ApplySpan(t[1..], r)
  {
    var rest := t[|w|..];
    assert t[1..] == w[1..] + rest;
    SpanPassThrough(w[1..], rest, r);
    ConsPrefix(w, ApplySpan(rest, r));
  }

  /** Putting back the first character of a prefix. */
  lemma ConsPrefix(w: string, x: string)
    requires |w| >= 1
    ensures w <= [w[0]] + (w[1..] + x)
  {
    assert [w[0]] + (w[1..] + x) == w + x;
  }

  /** The content of one match keeps its tags whole. */
  lemma SpanContentTags(t: string, r: SpanRule, ts: TagSet, e: nat)
    requires MarkupRule(r) && ts != AnchorsStrict
    requires TagsOnly(t, ts) && MatchSpan(t, r) == Some(e)
    ensures TagsOnly(t[|r.delim|..e], ts)
  {
    var _ := MarkupRuleTags(r);
    assert t[e] == r.delim[0] by {
      MatchSpanIff(t, r, e);
      assert t[e..][0] == t[e];
    }
    TagsOnlySlice(t, |r.delim|, e, r.delim[0], ts);
  }

  /** A slice of well-formed text that ends just before a delimiter
      character is well formed. */
  lemma TagsOnlySlice(t: string, a: nat, b: nat, c: char, ts: TagSet)
    requires ts != AnchorsStrict
    requires a <= b < |t| && t[b] == c && (c == '*' || c == '_' || c == '`')
    requires TagsOnly(t, ts)
    ensures TagsOnly(t[a..b], ts)
  {
    TagsOnlySuffix(t, a, ts);
    assert t[a..][b - a] == c;
    TagsOnlyCut(t[a..], b - a, c, ts);
    assert t[a..][..b - a] == t[a..b];
  }

  /** The content and the tags a span pass writes for one match. */
  lemma SpanMatchTags(t: string, r: SpanRule, ts: TagSet, e: nat)
    requires MarkupRule(r) && ts != AnchorsStrict
    requires TagsOnly(t, ts) && MatchSpan(t, r) == Some(e)
    ensures TagsOnly(SpanHtml(t, r, e), ts)
  {
    var k := MarkupRuleTags(r);
    TagTextTagsOnly(ts, k);
    TagTextTagsOnly(ts, k + 1);
    var content := t[|r.delim|..e];
    SpanContentTags(t, r, ts, e);
    TagsOnlyConcat(TagText(k), content, ts);
    TagsOnlyConcat(TagText(k) + content, TagText(k + 1), ts);
  }

  /** A span pass keeps every `<` of its input at the start of an allowed
      tag and adds only its own tags. */
  lemma {:induction false} SpanKeepsTags(t: string, r: SpanRule, ts: TagSet)
    requires MarkupRule(r) && ts != AnchorsStrict
    requires TagsOnly(t, ts)
    ensures TagsOnly(ApplySpan(t, r), ts)
    decreases |t|, 1
  {
    if t != [] {
      if MatchSpan(t, r).Some? {
        SpanKeepsTagsAtMatch(t, r, ts);
      } else {
        if t[0] == '<' {
          SpanKeepsTagStart(t, r, ts);
        }
        var rest := ApplySpan(t[1..], r);
        assert ApplySpan(t, r) == [t[0]] + rest;
        TagsOnlySuffix(t, 1, ts);
        SpanKeepsTags(t[1..], r, ts);
        TagsOnlyCons(t[0], rest, ts);
      }
    }
  }

  lemma {:induction false} SpanKeepsTagsAtMatch(t: string, r: SpanRule, ts: TagSet)
    requires MarkupRule(r) && ts != AnchorsStrict
    requires TagsOnly(t, ts) && t != [] && MatchSpan(t, r).Some?
    ensures TagsOnly(ApplySpan(t, r), ts)
    decreases |t|, 0
  {
    var _ := MarkupRuleTags(r);
    var e := MatchSpan(t, r).value;
    var d := |r.delim|;
    var span, rest := SpanHtml(t, r, e), ApplySpan(t[e + d..], r);
    ApplySpanAt(t, r, e);
    assert TagsOnly(span, ts) by {
      SpanMatchTags(t, r, ts, e);
    }
    assert TagsOnly(rest, ts) by {
      TagsOnlySuffix(t, e + d, ts);
      SpanKeepsTags(t[e + d..], r, ts);
    }
    TagsOnlyJoin(ApplySpan(t, r), span, rest, ts);
  }

  lemma InlineKeepsTags(t: string, ts: TagSet)
    requires ts != AnchorsStrict && TagsOnly(t, ts)
    ensures TagsOnly(Inline(t), ts)
  {
    SpanKeepsTags(t, StrongStars, ts);
    var a := ApplySpan(t, StrongStars);
    SpanKeepsTags(a, StrongUnderscores, ts);
    var b := ApplySpan(a, StrongUnderscores);
    SpanKeepsTags(b, EmStar, ts);
    var c := ApplySpan(b, EmStar);
    SpanKeepsTags(c, EmUnderscore, ts);
    SpanKeepsTags(ApplySpan(c, EmUnderscore), CodeTicks, ts);
  }

  /** Text without line breaks passes through the break pass unchanged. */
  lemma {:induction false} LineBreaksPassThrough(p: string, q: string)
    requires '\n' !in p && '\r' !in p
    ensures ApplyLineBreaks(p + q) == p + ApplyLineBreaks(q)
    decreases |p|
  {
    if p != [] {
      var t := p + q;
      assert t[0] == p[0];
      assert t[1..] == p[1..] + q;
      LineBreaksPassThrough(p[1..], q);
    } else {
      assert p + q == q;
    }
  }

  lemma {:induction false} AttributesThroughBreaks(v: string)
    requires AttributesAfterUrl(v)
    ensures AttributesAfterUrl(ApplyLineBreaks(v))
    decreases |v|
  {
    if v[0] == '"' {
      AnchorLiterals();
      BreaksKeepPrefix(AnchorAttributes, v);
    } else {
      LineBreaksStep(v);
      AttributesThroughBreaks(v[1..]);
      assert ApplyLineBreaks(v)[1..] == ApplyLineBreaks(v[1..]);
    }
  }

  /** A character other than a line break is copied by the break pass. */
  lemma LineBreaksStep(t: string)
    requires t != [] && t[0] != '\n' && t[0] != '\r'
    ensures ApplyLineBreaks(t) == [t[0]] + ApplyLineBreaks(t[1..])
  {
  }

  /** A prefix free of line breaks survives the break pass. */
  lemma BreaksKeepPrefix(w: string, t: string)
    requires w <= t && '\n' !in w && '\r' !in w
    ensures w <= ApplyLineBreaks(t)
  {
    assert t == w + t[|w|..];
    LineBreaksPassThrough(w, t[|w|..]);
  }

  /** A tag at the start of the input of the break pass survives, intact
      anchors included. */
  lemma BreaksKeepTagStart(t: string, ts: TagSet)
    requires t != [] && t[0] == '<' && StartsTag(t, ts)
    ensures StartsTag([t[0]] + ApplyLineBreaks(t[1..]), ts)
  {
    if exists k :: TagIndex(ts, k) && k < 9 && TagText(k) <= t {
      var k :| TagIndex(ts, k) && k < 9 && TagText(k) <= t;
      BreaksKeepLiteralTag(t, k);
    } else {
      BreaksKeepAnchor(t);
    }
  }

  lemma BreaksKeepLiteralTag(t: string, k: nat)
    requires k < 9 && TagText(k) <= t
    ensures TagText(k) <= [t[0]] + ApplyLineBreaks(t[1..])
  {
    var b := TagBody(k);
    TagBodyPlain(k);
    assert t[1..] == b + t[|TagText(k)|..];
    LineBreaksPassThrough(b, t[|TagText(k)|..]);
  }

  lemma BreaksKeepAnchor(t: string)
    requires AnchorOpenAt(t)
    ensures AnchorOpenAt([t[0]] + ApplyLineBreaks(t[1..]))
  {
    var out := [t[0]] + ApplyLineBreaks(t[1..]);
    var n := |AnchorOpen|;
    assert t[1..] == AnchorOpen[1..] + t[n..];
    LineBreaksPassThrough(AnchorOpen[1..], t[n..]);
    AttributesThroughBreaks(t[n..]);
    assert out[..n] == AnchorOpen;
    assert out[n..] == ApplyLineBreaks(t[n..]);
  }

  /** The break pass keeps every allowed tag and adds only `<br />`. */
  lemma {:induction false} LineBreaksKeepTags(t: string, ts: TagSet)
    requires TagsOnly(t, ts)
    ensures TagsOnly(ApplyLineBreaks(t), ts)
    decreases |t|
  {
    if t != [] {
      TagTextTagsOnly(ts, 6);
      assert TagText(6) == "<br />";
      var n := if 2 <= |t| && t[0] == '\r' && t[1] == '\n' then 2 else 1;
      TagsOnlySuffix(t, n, ts);
      LineBreaksKeepTags(t[n..], ts);
      if n == 2 || t[0] == '\n' {
        TagsOnlyConcat("<br />", ApplyLineBreaks(t[n..]), ts);
      } else {
        if t[0] == '<' {
          BreaksKeepTagStart(t, ts);
        }
        TagsOnlyCons(t[0], ApplyLineBreaks(t[1..]), ts);
      }
    }
  }

  /** A character of the fixed parts of an anchor after its `<`. */
  predicate AnchorChar(c: char) {
    c != '<' && c != '\n' && c != '\r'
  }

  predicate AnchorChars(s: string) {
    forall i :: 0 <= i < |s| ==> AnchorChar(s[i])
  }

  lemma AnchorCharsConcat(a: string, b: string)
    requires AnchorChars(a) && AnchorChars(b)
    ensures AnchorChars(a + b)
  {
    forall i | 0 <= i < |a + b| ensures AnchorChar((a + b)[i]) {
      if i >= |a| {
        assert (a + b)[i] == b[i - |a|];
      }
    }
  }

  lemma AttributePartsChars()
    ensures AnchorChars(TargetOpen) && AnchorChars("_") && AnchorChars(BlankRel)
    ensures TargetOpen[0] == '"'
  {
  }

  lemma AnchorLiteralChars()
    ensures |AnchorOpen| == 9 && AnchorOpen[0] == '<' && AnchorOpen[1] == 'a' && AnchorOpen[2] == ' '
    ensures forall i :: 1 <= i < |AnchorOpen| ==> AnchorChar(AnchorOpen[i])
    ensures |AnchorAttributes| > 0 && AnchorAttributes[0] == '"'
    ensures forall i :: 0 <= i < |AnchorAttributes| ==> AnchorChar(AnchorAttributes[i])
  {
    AttributePartsChars();
    AnchorCharsConcat(TargetOpen, "_");
    AnchorCharsConcat(TargetOpen + "_", BlankRel);
  }

  /** The characters of the fixed parts of an anchor. */
  lemma AnchorLiterals()
    ensures |AnchorOpen| == 9 && AnchorOpen[0] == '<' && '<' !in AnchorOpen[1..]
    ensures TagText(7) <= AnchorOpen
    ensures |AnchorAttributes| > 0 && AnchorAttributes[0] == '"'
    ensures '<' !in AnchorAttributes && '\n' !in AnchorAttributes && '\r' !in AnchorAttributes
  {
    AnchorLiteralChars();
    assert TagText(7) == "<a ";
    assert forall i :: 0 <= i < |AnchorOpen[1..]| ==> AnchorOpen[1..][i] == AnchorOpen[i + 1];
  }

  /** The attributes follow any URL free of quotes and line breaks. */
  lemma {:induction false} UrlThenAttributes(url: string, w: string)
    requires '"' !in url
    requires forall m :: 0 <= m < |url| ==> !Strings.IsLineTerminator(url[m])
    ensures AttributesAfterUrl(url + AnchorAttributes + w)
    decreases |url|
  {
    var v := url + AnchorAttributes + w;
    if url == [] {
      AnchorLiterals();
      assert v == AnchorAttributes + w;
      assert v[..|AnchorAttributes|] == AnchorAttributes;
    } else {
      assert v[1..] == url[1..] + AnchorAttributes + w;
      assert v[0] == url[0] && url[0] in url;
      UrlThenAttributes(url[1..], w);
    }
  }

  /** Where the anchor's own `<` may sit. */
  lemma AnchorStart(url: string, text: string, ts: TagSet)
    requires ts != InlineOnly
    requires ts == AnchorsStrict ==>
               '"' !in url && forall m :: 0 <= m < |url| ==> !Strings.IsLineTerminator(url[m])
    ensures StartsTag(Anchor(url, text), ts)
  {
    var a := Anchor(url, text);
    var tail := url + AnchorAttributes + (text + "</a>");
    assert a == AnchorOpen + tail by {
      AnchorShape(url, text);
    }
    if ts == AnchorsStrict {
      UrlThenAttributes(url, text + "</a>");
      assert a[..|AnchorOpen|] == AnchorOpen;
      assert a[|AnchorOpen|..] == tail;
    } else {
      AnchorLiterals();
      assert TagIndex(ts, 7);
    }
  }

  /** The anchor, grouped as its opening text and the rest. */
  lemma AnchorShape(url: string, text: string)
    ensures Anchor(url, text) == AnchorOpen + (url + AnchorAttributes + (text + "</a>"))
    ensures Anchor(url, text) == [AnchorOpen[0]] + (AnchorOpen[1..] + url + AnchorAttributes + text + "</a>")
  {
    Regroup(AnchorOpen, url, AnchorAttributes, text, "</a>");
  }

  /** Regrouping five concatenated pieces. */
  lemma Regroup(o: string, u: string, a: string, x: string, y: string)
    requires |o| > 0
    ensures o + u + a + x + y == o + (u + a + (x + y))
    ensures o + u + a + x + y == [o[0]] + (o[1..] + u + a + x + y)
  {
    assert o == [o[0]] + o[1..];
  }

  /** Text without `<` on either side of two pieces. */
  lemma NoLtConcat(a: string, b: string)
    requires '<' !in a && '<' !in b
    ensures '<' !in a + b
  {
  }

  /** An anchor written by the link pass, around well-formed link text. */
  lemma AnchorTags(url: string, text: string, ts: TagSet)
    requires ts != InlineOnly && '<' !in url && TagsOnly(text, ts)
    requires ts == AnchorsStrict ==>
               '"' !in url && forall m :: 0 <= m < |url| ==> !Strings.IsLineTerminator(url[m])
    ensures TagsOnly(Anchor(url, text), ts)
  {
    var head := AnchorOpen[1..] + url + AnchorAttributes;
    assert TagsOnly(head, ts) by {
      AnchorLiterals();
      NoLtConcat(AnchorOpen[1..], url);
      NoLtConcat(AnchorOpen[1..] + url, AnchorAttributes);
      NoLtTagsOnly(head, ts);
    }
    var body := head + text + "</a>";
    assert TagsOnly(body, ts) by {
      TagTextTagsOnly(ts, 8);
      assert TagText(8) == "</a>";
      TagsOnlyConcat(head, text, ts);
      TagsOnlyConcat(head + text, "</a>", ts);
    }
    assert Anchor(url, text) == [AnchorOpen[0]] + body by {
      AnchorShape(url, text);
    }
    AnchorStart(url, text, ts);
    TagsOnlyCons(AnchorOpen[0], body, ts);
  }

  /** Characters of a slice are characters of the whole. */
  lemma SliceChars(t: string, a: nat, b: nat)
    requires a <= b <= |t|
    ensures forall c :: c in t[a..b] ==> c in t
  {
    forall c | c in t[a..b] ensures c in t {
      var i :| 0 <= i < b - a && t[a..b][i] == c;
      assert t[a + i] == c;
    }
  }

  /** One recognised link of escaped text becomes a loose-well-formed anchor. */
  lemma LinkMatchTags(t: string, m: LinkSpan)
    requires '<' !in t && MatchLink(t) == Some(m)
    ensures TagsOnly(Anchor(t[m.close + 2..m.paren], t[1..m.close]), AnchorsLoose)
  {
    SliceChars(t, m.close + 2, m.paren);
    SliceChars(t, 1, m.close);
    NoLtTagsOnly(t[1..m.close], AnchorsLoose);
    AnchorTags(t[m.close + 2..m.paren], t[1..m.close], AnchorsLoose);
  }

  /** One step of the link pass where no link starts. */
  lemma ApplyLinksStep(t: string)
    requires t != [] && MatchLink(t).None?
    ensures ApplyLinks(t) == [t[0]] + ApplyLinks(t[1..])
  {
  }

  /** One step of the link pass where a link starts. */
  lemma ApplyLinksAt(t: string, m: LinkSpan)
    requires MatchLink(t) == Some(m)
    ensures ApplyLinks(t) == Anchor(t[m.close + 2..m.paren], t[1..m.close]) + ApplyLinks(t[m.paren + 1..])
  {
  }

  /** The link pass over escaped text: every `<` opens one of its anchors. */
  lemma {:induction false} LinksKeepTags(t: string)
    requires '<' !in t
    ensures TagsOnly(ApplyLinks(t), AnchorsLoose)
    decreases |t|, 1
  {
    if t != [] {
      if MatchLink(t).Some? {
        LinksKeepTagsAtLink(t, MatchLink(t).value);
      } else {
        ApplyLinksStep(t);
        SliceChars(t, 1, |t|);
        LinksKeepTags(t[1..]);
        TagsOnlyCons(t[0], ApplyLinks(t[1..]), AnchorsLoose);
      }
    }
  }

  lemma {:induction false} LinksKeepTagsAtLink(t: string, m: LinkSpan)
    requires '<' !in t && t != [] && MatchLink(t) == Some(m)
    ensures TagsOnly(ApplyLinks(t), AnchorsLoose)
    decreases |t|, 0
  {
    var a, rest := Anchor(t[m.close + 2..m.paren], t[1..m.close]), ApplyLinks(t[m.paren + 1..]);
    ApplyLinksAt(t, m);
    assert TagsOnly(a, AnchorsLoose) by {
      LinkMatchTags(t, m);
    }
    assert TagsOnly(rest, AnchorsLoose) by {
      SliceChars(t, m.paren + 1, |t|);
      LinksKeepTags(t[m.paren + 1..]);
    }
    TagsOnlyConcat(a, rest, AnchorsLoose);
  }

  /** Escaping first means that every `<` of the rendered HTML opens a tag
      the renderer wrote itself: `<a `, `</a>`, `<strong>`, `</strong>`,
      `<em>`, `</em>`, `<code>`, `</code>` or `<br />`. */
  lemma RenderMarkdownTagsOnly(markdown: string)
    ensures TagsOnly(RenderMarkdown(markdown), AnchorsLoose)
  {
    var escaped := EscapeHtml(markdown);
    EscapeHtmlSafe(markdown);
    LinksKeepTags(escaped);
    InlineKeepsTags(ApplyLinks(escaped), AnchorsLoose);
    LineBreaksKeepTags(Inline(ApplyLinks(escaped)), AnchorsLoose);
  }
}

=== FILE: markdown_fixed.dfy ===
/** The link pass writes `target="_blank"` into its anchors and the italic
    pass `_(.+?)_` runs afterwards over the whole text, anchors included, so
    two links on one line get their targets rewritten. This module exhibits
    that on a concrete input and defines the renderer with the inline passes
    kept off the written anchors, for which every anchor stays intact. */
module MarkdownFixed {
  import opened Wrappers
  import Strings
  import opened Markdown

  // ---------------------------------------------------------------------
  // The text split at the links
  // ---------------------------------------------------------------------

  /** A maximal run of text outside links, or one recognised link. */
  datatype Piece = Plain(text: string) | Link(url: string, text: string)

  /** Puts one more character in front of the pieces, joining it to a
      leading plain run. */
  function ConsChar(c: char, ps: seq<Piece>): seq<Piece> {
    if |ps| > 0 && ps[0].Plain? then [Plain([c] + ps[0].text)] + ps[1..] else [Plain([c])] + ps
  }

  /** The links the link pass recognises, in order, with the plain runs
      between them. */
  function LinkPieces(t: string): seq<Piece>
    decreases |t|, 1
  {
    if t == [] then [] else PiecesStep(t, MatchLink(t))
  }

  /** One step of the split, given what the link matcher found at the front. */
  function PiecesStep(t: string, m: Option<LinkSpan>): seq<Piece>
    requires t != []
    requires m.Some? ==> 2 <= m.value.close && m.value.close + 2 < m.value.paren < |t|
    decreases |t|, 0
  {
    if m.Some? then
      [Link(t[m.value.close + 2..m.value.paren], t[1..m.value.close])] + LinkPieces(t[m.value.paren + 1..])
    else ConsChar(t[0], LinkPieces(t[1..]))
  }

  lemma LinkPiecesStep(t: string)
    requires t != [] && MatchLink(t).None?
    ensures LinkPieces(t) == ConsChar(t[0], LinkPieces(t[1..]))
  {
  }

  lemma LinkPiecesAt(t: string, m: LinkSpan)
    requires MatchLink(t) == Some(m)
    ensures LinkPieces(t) == [Link(t[m.close + 2..m.paren], t[1..m.close])] + LinkPieces(t[m.paren + 1..])
  {
  }

  /** A piece as the link pass writes it. */
  function PieceHtml(p: Piece): string {
    match p
    case Plain(x) => x
    case Link(u, x) => Anchor(u, x)
  }

  /** The pieces written back with anchors for links. */
  function Serialize(ps: seq<Piece>): string
    decreases |ps|
  {
    if ps == [] then [] else PieceHtml(ps[0]) + Serialize(ps[1..])
  }

  lemma SerializeCons(p: Piece, ps: seq<Piece>)
    ensures Serialize([p] + ps) == PieceHtml(p) + Serialize(ps)
  {
    assert ([p] + ps)[1..] == ps;
  }

  lemma SerializeConsChar(c: char, ps: seq<Piece>)
    ensures Serialize(ConsChar(c, ps)) == [c] + Serialize(ps)
  {
    if |ps| > 0 && ps[0].Plain? {
      SerializeCons(ps[0], ps[1..]);
      SerializeCons(Plain([c] + ps[0].text), ps[1..]);
      assert ps == [ps[0]] + ps[1..];
    } else {
      SerializeCons(Plain([c]), ps);
    }
  }

  /** The split loses nothing: writing the pieces back is the link pass. */
  lemma {:induction false} LinkPiecesSerialize(t: string)
    ensures Serialize(LinkPieces(t)) == ApplyLinks(t)
    decreases |t|
  {
    if t != [] {
      if MatchLink(t).Some? {
        var m := MatchLink(t).value;
        ApplyLinksAt(t, m);
        LinkPiecesAt(t, m);
        LinkPiecesSerialize(t[m.paren + 1..]);
        SerializeCons(Link(t[m.close + 2..m.paren], t[1..m.close]), LinkPieces(t[m.paren + 1..]));
      } else {
        ApplyLinksStep(t);
        LinkPiecesStep(t);
        LinkPiecesSerialize(t[1..]);
        SerializeConsChar(t[0], LinkPieces(t[1..]));
      }
    }
  }

  /** Text without links is one plain piece. */
  lemma {:induction false} NoLinksOnePiece(t: string)
    requires NoLinkIn(t)
    ensures LinkPieces(t) == if t == [] then [] else [Plain(t)]
    decreases |t|
  {
    if t != [] {
      assert MatchLink(t[0..]).None? && t[0..] == t;
      LinkPiecesStep(t);
      assert NoLinkIn(t[1..]) by {
        forall i | 0 <= i < |t[1..]| ensures MatchLink(t[1..][i..]).None? {
          assert t[1..][i..] == t[i + 1..];
        }
      }
      NoLinksOnePiece(t[1..]);
      if |t| == 1 {
        assert t == [t[0]];
      } else {
        assert t == [t[0]] + t[1..];
      }
    }
  }

  // ---------------------------------------------------------------------
  // The corrected renderer
  // ---------------------------------------------------------------------

  /** A piece with the inline passes applied to its text only. */
  function PieceRender(p: Piece): string {
    match p
    case Plain(x) => Inline(x)
    case Link(u, x) => Anchor(u, Inline(x))
  }

  /** Plain runs and link texts get the inline passes; URLs and the anchor
      attributes do not. */
  function RenderPieces(ps: seq<Piece>): string
    decreases |ps|
  {
    if ps == [] then [] else PieceRender(ps[0]) + RenderPieces(ps[1..])
  }

  /** `renderMarkdown` with the emphasis and code passes applied around the
      anchors instead of over them. Like the original, its output never
      holds a line feed. */
  function RenderMarkdownFixed(markdown: string): (html: string)
    ensures '\n' !in html
  {
    LineBreaksSingleLine(RenderPieces(LinkPieces(EscapeHtml(markdown))));
    ApplyLineBreaks(RenderPieces(LinkPieces(EscapeHtml(markdown))))
  }

  /** The correction changes only text that holds links. */
  lemma FixedAgreesWithoutLinks(markdown: string)
    requires NoLinkIn(EscapeHtml(markdown))
    ensures RenderMarkdownFixed(markdown) == RenderMarkdown(markdown)
  {
    var t := EscapeHtml(markdown);
    assert RenderPieces(LinkPieces(t)) == Inline(ApplyLinks(t)) by {
      NoLinksOnePiece(t);
      LinksIdentityIff(t);
      if t != [] {
        assert RenderPieces([Plain(t)]) == Inline(t) + RenderPieces([]);
      }
    }
  }

  // ---------------------------------------------------------------------
  // Every anchor of the corrected renderer is intact
  // ---------------------------------------------------------------------

  predicate CleanUrl(u: string) {
    '<' !in u && '"' !in u && forall m :: 0 <= m < |u| ==> !Strings.IsLineTerminator(u[m])
  }

  predicate CleanPieces(ps: seq<Piece>) {
    forall k :: 0 <= k < |ps| ==> CleanPiece(ps[k])
  }

  lemma ConsCharClean(c: char, ps: seq<Piece>)
    requires c != '<' && CleanPieces(ps)
    ensures CleanPieces(ConsChar(c, ps))
  {
    if |ps| > 0 && ps[0].Plain? {
      assert '<' !in [c] + ps[0].text;
    }
  }

  /** A recognised link of escaped text has a clean URL and text. */
  lemma LinkClean(t: string, m: LinkSpan)
    requires '<' !in t && '"' !in t && MatchLink(t) == Some(m)
    ensures CleanUrl(t[m.close + 2..m.paren]) && '<' !in t[1..m.close]
  {
    SliceChars(t, m.close + 2, m.paren);
    SliceChars(t, 1, m.close);
    LinkUrlPlain(t, m);
    var u := t[m.close + 2..m.paren];
    forall i | 0 <= i < |u| ensures !Strings.IsLineTerminator(u[i]) {
      assert u[i] == t[m.close + 2 + i];
    }
  }

  predicate CleanPiece(p: Piece) {
    '<' !in p.text && (p.Link? ==> CleanUrl(p.url))
  }

  lemma CleanPiecesCons(p: Piece, ps: seq<Piece>)
    requires CleanPiece(p) && CleanPieces(ps)
    ensures CleanPieces([p] + ps)
  {
    forall k | 0 <= k < |[p] + ps| ensures CleanPiece(([p] + ps)[k]) {
      if k > 0 {
        assert ([p] + ps)[k] == ps[k - 1];
      }
    }
  }

  /** Escaped text splits into clean pieces. */
  lemma {:induction false} LinkPiecesClean(t: string)
    requires '<' !in t && '"' !in t
    ensures CleanPieces(LinkPieces(t))
    decreases |t|
  {
    if t != [] {
      if MatchLink(t).Some? {
        var m := MatchLink(t).value;
        LinkPiecesAt(t, m);
        LinkClean(t, m);
        SliceChars(t, m.paren + 1, |t|);
        LinkPiecesClean(t[m.paren + 1..]);
        CleanPiecesCons(Link(t[m.close + 2..m.paren], t[1..m.close]), LinkPieces(t[m.paren + 1..]));
      } else {
        LinkPiecesStep(t);
        SliceChars(t, 1, |t|);
        LinkPiecesClean(t[1..]);
        ConsCharClean(t[0], LinkPieces(t[1..]));
      }
    }
  }

  /** The inline passes over text without `<` write only inline tags. */
  lemma InlineTags(x: string, ts: TagSet)
    requires '<' !in x
    ensures TagsOnly(Inline(x), ts)
  {
    NoLtTagsOnly(x, InlineOnly);
    InlineKeepsTags(x, InlineOnly);
    InlineTagsAnywhere(Inline(x), ts);
  }

  lemma PieceTags(p: Piece)
    requires CleanPiece(p)
    ensures TagsOnly(PieceRender(p), AnchorsStrict)
  {
    InlineTags(p.text, AnchorsStrict);
    if p.Link? {
      AnchorTags(p.url, Inline(p.text), AnchorsStrict);
    }
  }

  lemma {:induction false} RenderPiecesTags(ps: seq<Piece>)
    requires CleanPieces(ps)
    ensures TagsOnly(RenderPieces(ps), AnchorsStrict)
    decreases |ps|
  {
    if ps != [] {
      PieceTags(ps[0]);
      assert CleanPieces(ps[1..]) by {
        assert forall k :: 0 <= k < |ps[1..]| ==> ps[1..][k] == ps[k + 1];
      }
      RenderPiecesTags(ps[1..]);
      TagsOnlyConcat(PieceRender(ps[0]), RenderPieces(ps[1..]), AnchorsStrict);
    }
  }

  /** Every `<` of the corrected output opens an inline or break tag, a
      closing `</a>`, or an anchor whose `href` is followed by exactly
      `target="_blank" rel="noopener noreferrer"`. */
  lemma RenderMarkdownFixedAnchorsIntact(markdown: string)
    ensures TagsOnly(RenderMarkdownFixed(markdown), AnchorsStrict)
  {
    var escaped := EscapeHtml(markdown);
    EscapeHtmlSafe(markdown);
    LinkPiecesClean(escaped);
    RenderPiecesTags(LinkPieces(escaped));
    LineBreaksKeepTags(RenderPieces(LinkPieces(escaped)), AnchorsStrict);
  }

  // ---------------------------------------------------------------------
  // The input that shows the discrepancy
  // ---------------------------------------------------------------------

  /** `[l](http://h)`: a link with one-character text and host. */
  function ShortLinkText(l: char, h: char): string {
    ['[', l, ']', '(', 'h', 't', 't', 'p', ':', '/', '/', h, ')']
  }

  function ShortUrl(h: char): string {
    ['h', 't', 't', 'p', ':', '/', '/', h]
  }

  /** `[a](http://b) [c](http://d)`: two links on one line. */
  const BlankExample: string := ShortLinkText('a', 'b') + [' '] + ShortLinkText('c', 'd')

  /** The link pass recognises a short link at the front. */
  lemma ShortLink(l: char, h: char, rest: string)
    requires !Strings.IsLineTerminator(l) && !Strings.IsJsSpace(h) && h != ')'
    ensures var t := ShortLinkText(l, h) + rest;
            && MatchLink(t) == Some(LinkSpan(2, 12))
            && t[4..12] == ShortUrl(h) && t[1..2] == [l] && t[13..] == rest
  {
    var t := ShortLinkText(l, h) + rest;
    assert LinkTail(t, 2) == Some(12) by {
      assert forall i :: 0 <= i < 13 ==> t[i] == ShortLinkText(l, h)[i];
      assert "](" <= t[2..];
      assert SchemeLength(t[4..]) == 7 by {
        assert "http://" <= t[4..] && t[4..][4] == ':';
      }
      LinkTailIff(t, 2, 12);
    }
    assert LinkAt(t, LinkSpan(2, 12)) by {
      assert t[0] == '[' && t[1] == l;
    }
    MatchLinkIff(t, LinkSpan(2, 12));
    assert t[4..12] == ShortUrl(h) && t[1..2] == [l] by {
      assert forall i :: 0 <= i < 13 ==> t[i] == ShortLinkText(l, h)[i];
    }
  }

  lemma ShortLinkPass(l: char, h: char, rest: string)
    requires !Strings.IsLineTerminator(l) && !Strings.IsJsSpace(h) && h != ')'
    ensures ApplyLinks(ShortLinkText(l, h) + rest) == Anchor(ShortUrl(h), [l]) + ApplyLinks(rest)
    ensures LinkPieces(ShortLinkText(l, h) + rest) == [Link(ShortUrl(h), [l])] + LinkPieces(rest)
  {
    ShortLink(l, h, rest);
    ApplyLinksAt(ShortLinkText(l, h) + rest, LinkSpan(2, 12));
    LinkPiecesAt(ShortLinkText(l, h) + rest, LinkSpan(2, 12));
  }

  lemma SpaceFirst(rest: string)
    ensures ApplyLinks([' '] + rest) == [' '] + ApplyLinks(rest)
    ensures LinkPieces([' '] + rest) == ConsChar(' ', LinkPieces(rest))
  {
    var t := [' '] + rest;
    assert t[1..] == rest;
    ApplyLinksStep(t);
    LinkPiecesStep(t);
  }

  /** The second half of the example: a space, then a link. */
  lemma SecondLinkHtml()
    ensures ApplyLinks([' '] + ShortLinkText('c', 'd')) == [' '] + Anchor(ShortUrl('d'), "c")
  {
    var second := ShortLinkText('c', 'd');
    assert ApplyLinks(second) == Anchor(ShortUrl('d'), "c") by {
      assert second + [] == second;
      ShortLinkPass('c', 'd', []);
    }
    SpaceFirst(second);
  }

  lemma SecondLinkPieces()
    ensures LinkPieces([' '] + ShortLinkText('c', 'd')) == [Plain([' ']), Link(ShortUrl('d'), "c")]
  {
    var second := ShortLinkText('c', 'd');
    assert LinkPieces(second) == [Link(ShortUrl('d'), "c")] by {
      assert second + [] == second;
      ShortLinkPass('c', 'd', []);
    }
    SpaceFirst(second);
  }

  lemma BlankExampleLinks()
    ensures ApplyLinks(BlankExample) == Anchor(ShortUrl('b'), "a") + [' '] + Anchor(ShortUrl('d'), "c")
  {
    var tail := [' '] + ShortLinkText('c', 'd');
    assert BlankExample == ShortLinkText('a', 'b') + tail;
    assert ApplyLinks(tail) == [' '] + Anchor(ShortUrl('d'), "c") by {
      SecondLinkHtml();
    }
    ShortLinkPass('a', 'b', tail);
  }

  lemma BlankExamplePieces()
    ensures LinkPieces(BlankExample) == [Link(ShortUrl('b'), "a"), Plain([' ']), Link(ShortUrl('d'), "c")]
  {
    var tail := [' '] + ShortLinkText('c', 'd');
    assert BlankExample == ShortLinkText('a', 'b') + tail;
    assert LinkPieces(tail) == [Plain([' ']), Link(ShortUrl('d'), "c")] by {
      SecondLinkPieces();
    }
    ShortLinkPass('a', 'b', tail);
  }

  /** A character no inline pass reacts to and that breaks no line. */
  predicate Quiet(c: char) {
    c != '_' && c != '*' && c != '`' && !Strings.IsLineTerminator(c)
  }

  predicate AllQuiet(s: string) {
    forall i :: 0 <= i < |s| ==> Quiet(s[i])
  }

  lemma QuietConcat(a: string, b: string)
    requires AllQuiet(a) && AllQuiet(b)
    ensures AllQuiet(a + b)
  {
    forall i | 0 <= i < |a + b| ensures Quiet((a + b)[i]) {
      if i >= |a| {
        assert (a + b)[i] == b[i - |a|];
      }
    }
  }

  lemma QuietAbsent(s: string)
    requires AllQuiet(s)
    ensures '_' !in s && '*' !in s && '`' !in s && '\n' !in s && '\r' !in s
  {
    forall c | c in s ensures Quiet(c) {
      var i :| 0 <= i < |s| && s[i] == c;
    }
  }

  lemma QuietAnchorParts()
    ensures AllQuiet(AnchorOpen) && AllQuiet(TargetOpen) && AllQuiet("</a>")
  {
  }

  lemma QuietBlankRel()
    ensures AllQuiet(BlankRel)
  {
  }

  lemma QuietEm()
    ensures AllQuiet(OpenTag("em")) && AllQuiet(CloseTag("em"))
  {
  }

  /** Text of quiet characters passes every inline pass unchanged. */
  lemma InlineQuiet(s: string)
    requires AllQuiet(s)
    ensures Inline(s) == s
  {
    QuietAbsent(s);
    SpanIdentity(s, StrongStars);
    SpanIdentity(s, StrongUnderscores);
    SpanIdentity(s, EmStar);
    SpanIdentity(s, EmUnderscore);
    SpanIdentity(s, CodeTicks);
  }

  /** The italic matcher pairs two lone underscores. */
  lemma ItalicMatch(q1: string, q2: string)
    requires q1 != [] && AllQuiet(q1)
    ensures MatchSpan(['_'] + (q1 + (['_'] + q2)), EmUnderscore) == Some(1 + |q1|)
  {
    var t := ['_'] + (q1 + (['_'] + q2));
    var k := 1 + |q1|;
    assert SpanAt(t, EmUnderscore, k) by {
      assert forall m :: 1 <= m < k ==> t[m] == q1[m - 1];
      assert t[k] == '_';
    }
    MatchSpanComplete(t, EmUnderscore, k);
  }

  /** The italic pass between two lone underscores. */
  lemma ItalicAcross(q1: string, q2: string)
    requires q1 != [] && AllQuiet(q1)
    ensures ApplySpan(['_'] + (q1 + (['_'] + q2)), EmUnderscore)
         == OpenTag("em") + (q1 + (CloseTag("em") + ApplySpan(q2, EmUnderscore)))
  {
    var t := ['_'] + (q1 + (['_'] + q2));
    var k := 1 + |q1|;
    ItalicMatch(q1, q2);
    ApplySpanAt(t, EmUnderscore, k);
    assert t[1..k] == q1 by {
      assert forall m :: 1 <= m < k ==> t[m] == q1[m - 1];
    }
    assert t[k + 1..] == q2;
    Assoc4(OpenTag("em"), q1, CloseTag("em"), ApplySpan(q2, EmUnderscore));
  }

  lemma Assoc4(a: string, b: string, c: string, d: string)
    ensures a + b + c + d == a + (b + (c + d))
  {
  }

  /** A lone underscore is no `__`. */
  lemma LoneUnderscore(q: string)
    requires q != [] && q[0] != '_'
    ensures ApplySpan(['_'] + q, StrongUnderscores) == ['_'] + ApplySpan(q, StrongUnderscores)
  {
    var t := ['_'] + q;
    assert t[1] == q[0];
    assert t[1..] == q;
    assert MatchSpan(t, StrongUnderscores).None? by {
      assert !("__" <= t);
    }
    ApplySpanStep(t, StrongUnderscores);
  }

  /** `p_m_q`, grouped from the right. */
  function Underscored(p: string, m: string, q: string): string {
    p + (['_'] + (m + (['_'] + q)))
  }

  /** `p<em>m</em>q`, grouped from the right. */
  function Italicised(p: string, m: string, q: string): string {
    p + (OpenTag("em") + (m + (CloseTag("em") + q)))
  }

  /** The bold-underscore pass over `p_m_q` with quiet parts changes nothing. */
  lemma NoStrongUnderscores(p: string, m: string, q: string)
    requires AllQuiet(p) && AllQuiet(m) && AllQuiet(q) && m != [] && q != []
    ensures ApplySpan(Underscored(p, m, q), StrongUnderscores) == Underscored(p, m, q)
  {
    var u := StrongUnderscores;
    var a := ['_'] + q;
    assert ApplySpan(a, u) == a by {
      QuietAbsent(q);
      LoneUnderscore(q);
      SpanIdentity(q, u);
    }
    var b := ['_'] + (m + a);
    assert ApplySpan(b, u) == b by {
      QuietAbsent(m);
      LoneUnderscore(m + a);
      SpanPassThrough(m, a, u);
    }
    QuietAbsent(p);
    SpanPassThrough(p, b, u);
  }

  /** The italic-underscore pass over `p_m_q` with quiet parts. */
  lemma ItalicUnderscores(p: string, m: string, q: string)
    requires AllQuiet(p) && AllQuiet(m) && AllQuiet(q) && m != []
    ensures ApplySpan(Underscored(p, m, q), EmUnderscore) == Italicised(p, m, q)
  {
    var tail := ['_'] + (m + (['_'] + q));
    assert ApplySpan(tail, EmUnderscore) == OpenTag("em") + (m + (CloseTag("em") + q)) by {
      QuietAbsent(q);
      ItalicAcross(m, q);
      SpanIdentity(q, EmUnderscore);
    }
    QuietAbsent(p);
    SpanPassThrough(p, tail, EmUnderscore);
  }

  /** No `*` in `p_m_q` when there is none in its parts. */
  lemma NoStarAround(p: string, m: string, q: string)
    requires AllQuiet(p) && AllQuiet(m) && AllQuiet(q)
    ensures '*' !in Underscored(p, m, q)
  {
    QuietAbsent(p);
    QuietAbsent(m);
    QuietAbsent(q);
  }

  lemma QuietItalicised(p: string, m: string, q: string)
    requires AllQuiet(p) && AllQuiet(m) && AllQuiet(q)
    ensures AllQuiet(Italicised(p, m, q))
  {
    QuietEm();
    QuietConcat(CloseTag("em"), q);
    QuietConcat(m, CloseTag("em") + q);
    QuietConcat(OpenTag("em"), m + (CloseTag("em") + q));
    QuietConcat(p, OpenTag("em") + (m + (CloseTag("em") + q)));
  }

  /** The inline passes over text with exactly two underscores, not
      adjacent, on one line: they become one italic span. */
  lemma TwoUnderscores(p: string, m: string, q: string)
    requires AllQuiet(p) && AllQuiet(m) && AllQuiet(q) && m != [] && q != []
    ensures Inline(Underscored(p, m, q)) == Italicised(p, m, q)
  {
    var t := Underscored(p, m, q);
    assert ApplySpan(t, StrongStars) == t && ApplySpan(t, EmStar) == t by {
      NoStarAround(p, m, q);
      SpanIdentity(t, StrongStars);
      SpanIdentity(t, EmStar);
    }
    NoStrongUnderscores(p, m, q);
    ItalicUnderscores(p, m, q);
    var italic := Italicised(p, m, q);
    assert ApplySpan(italic, CodeTicks) == italic by {
      QuietItalicised(p, m, q);
      QuietAbsent(italic);
      SpanIdentity(italic, CodeTicks);
    }
  }

  // ---------------------------------------------------------------------
  // Bold before italics
  // ---------------------------------------------------------------------

  lemma QuietStrong()
    ensures AllQuiet(OpenTag("strong")) && AllQuiet(CloseTag("strong"))
  {
  }

  /** `<strong>m</strong>`, grouped from the right. */
  function Strong(m: string): string {
    OpenTag("strong") + (m + CloseTag("strong"))
  }

  /** A bold pass over `dd m dd` (`dd` its two-character delimiter) wraps `m`. */
  lemma StrongSpan(r: SpanRule, m: string)
    requires r == StrongStars || r == StrongUnderscores
    requires AllQuiet(m) && m != []
    ensures ApplySpan(r.delim + (m + r.delim), r) == Strong(m)
  {
    var t := r.delim + (m + r.delim);
    var e := 2 + |m|;
    StrongSpanAt(r, m);
    MatchSpanComplete(t, r, e);
    ApplySpanAt(t, r, e);
    assert t[2..e] == m;
    assert ApplySpan(t[e + 2..], r) == [] by {
      assert t[e + 2..] == [];
    }
    assert SpanHtml(t, r, e) == OpenTag("strong") + m + CloseTag("strong");
    Strings.AppendAssoc(OpenTag("strong"), m, CloseTag("strong"));
  }

  /** The reference match of a bold rule over `dd m dd` ends after `m`. */
  lemma StrongSpanAt(r: SpanRule, m: string)
    requires r == StrongStars || r == StrongUnderscores
    requires AllQuiet(m) && m != []
    ensures SpanAt(r.delim + (m + r.delim), r, 2 + |m|)
  {
    var t := r.delim + (m + r.delim);
    var e := 2 + |m|;
    forall k | 2 <= k < e ensures Allowed(r.inner, t[k]) && !(r.delim <= t[k..]) {
      assert t[k] == m[k - 2] && Quiet(m[k - 2]);
      assert t[k..][0] == t[k];
    }
    assert t[e..] == r.delim;
  }

  /** After the bold passes, `<strong>m</strong>` with quiet `m` passes the
      remaining inline passes unchanged. */
  lemma StrongThenQuiet(m: string)
    requires AllQuiet(m)
    ensures var out := Strong(m);
            ApplySpan(ApplySpan(ApplySpan(out, EmStar), EmUnderscore), CodeTicks) == out
    ensures ApplySpan(Strong(m), StrongUnderscores) == Strong(m)
  {
    var out := Strong(m);
    assert AllQuiet(out) by {
      QuietStrong();
      QuietConcat(m, CloseTag("strong"));
      QuietConcat(OpenTag("strong"), m + CloseTag("strong"));
    }
    QuietAbsent(out);
    SpanIdentity(out, StrongUnderscores);
    SpanIdentity(out, EmStar);
    SpanIdentity(out, EmUnderscore);
    SpanIdentity(out, CodeTicks);
  }

  /** Bold is recognised before italics: `**m**` with quiet content becomes
      one `<strong>` span and no `<em>`. */
  lemma StrongStarsNotItalicised(m: string)
    requires AllQuiet(m) && m != []
    ensures Inline("**" + (m + "**")) == Strong(m)
  {
    StrongSpan(StrongStars, m);
    StrongThenQuiet(m);
  }

  /** The same for `__m__`, which the star pass leaves alone. */
  lemma StrongUnderscoresNotItalicised(m: string)
    requires AllQuiet(m) && m != []
    ensures Inline("__" + (m + "__")) == Strong(m)
  {
    var u := "__" + (m + "__");
    assert ApplySpan(u, StrongStars) == u by {
      QuietAbsent(m);
      assert '*' !in u;
      SpanIdentity(u, StrongStars);
    }
    StrongSpan(StrongUnderscores, m);
    StrongThenQuiet(m);
  }

  // ---------------------------------------------------------------------
  // The example through both renderers
  // ---------------------------------------------------------------------

  /** Text `escapeHtml` keeps as it is. */
  predicate Verbatim(s: string) {
    forall i :: 0 <= i < |s| ==> !Special(s[i])
  }

  lemma VerbatimConcat(a: string, b: string)
    requires Verbatim(a) && Verbatim(b)
    ensures Verbatim(a + b)
  {
    forall i | 0 <= i < |a + b| ensures !Special((a + b)[i]) {
      if i >= |a| {
        assert (a + b)[i] == b[i - |a|];
      }
    }
  }

  lemma EscapeVerbatim(s: string)
    requires Verbatim(s)
    ensures EscapeHtml(s) == s
  {
    EscapeHtmlIsEntityMap(s);
    EscapeEachSafe(s);
  }

  lemma ShortLinkVerbatim(l: char, h: char)
    requires !Special(l) && !Special(h)
    ensures Verbatim(ShortLinkText(l, h))
  {
  }

  lemma BlankExampleVerbatim()
    ensures EscapeHtml(BlankExample) == BlankExample
  {
    ShortLinkVerbatim('a', 'b');
    ShortLinkVerbatim('c', 'd');
    VerbatimConcat(ShortLinkText('a', 'b'), [' ']);
    VerbatimConcat(ShortLinkText('a', 'b') + [' '], ShortLinkText('c', 'd'));
    EscapeVerbatim(BlankExample);
  }

  /** The two anchors and the space between them, cut at their two
      underscores. */
  lemma PairShape(o: string, u1: string, t: string, b: string, x1: string, c: string, u2: string, x2: string)
    ensures (o + u1 + (t + "_" + b) + x1 + c) + ([' '] + (o + u2 + (t + "_" + b) + x2 + c))
         == Underscored(o + u1 + t, b + x1 + c + [' '] + o + u2 + t, b + x2 + c)
  {
  }

  /** The parts of the link pass's output around the two underscores. */
  const BlankBefore: string := AnchorOpen + ShortUrl('b') + TargetOpen
  const BlankBetween: string := BlankRel + "a" + "</a>" + [' '] + AnchorOpen + ShortUrl('d') + TargetOpen
  const BlankAfter: string := BlankRel + "c" + "</a>"

  lemma BlankLinked()
    ensures ApplyLinks(BlankExample) == Underscored(BlankBefore, BlankBetween, BlankAfter)
  {
    BlankExampleLinks();
    PairShape(AnchorOpen, ShortUrl('b'), TargetOpen, BlankRel, "a", "</a>", ShortUrl('d'), "c");
  }

  lemma QuietShort(h: char)
    requires Quiet(h) && h != '"'
    ensures AllQuiet(ShortUrl(h)) && '"' !in ShortUrl(h)
  {
  }

  lemma QuietBefore()
    ensures AllQuiet(BlankBefore)
  {
    QuietAnchorParts();
    QuietShort('b');
    QuietConcat(AnchorOpen, ShortUrl('b'));
    QuietConcat(AnchorOpen + ShortUrl('b'), TargetOpen);
  }

  lemma QuietAfter()
    ensures AllQuiet(BlankAfter)
  {
    QuietAnchorParts();
    QuietBlankRel();
    QuietConcat(BlankRel, "c");
    QuietConcat(BlankRel + "c", "</a>");
  }

  lemma QuietBetween()
    ensures AllQuiet(BlankBetween)
  {
    QuietAnchorParts();
    QuietBlankRel();
    QuietShort('d');
    var a := BlankRel + "a" + "</a>";
    assert AllQuiet(a) by {
      QuietConcat(BlankRel, "a");
      QuietConcat(BlankRel + "a", "</a>");
    }
    assert AllQuiet(a + [' '] + AnchorOpen) by {
      QuietConcat(a, [' ']);
      QuietConcat(a + [' '], AnchorOpen);
    }
    QuietConcat(a + [' '] + AnchorOpen, ShortUrl('d'));
    QuietConcat(a + [' '] + AnchorOpen + ShortUrl('d'), TargetOpen);
  }

  /** As written, the example renders with the text between the two
      `_blank` targets in italics. */
  lemma BlankRendered()
    ensures RenderMarkdown(BlankExample) == Italicised(BlankBefore, BlankBetween, BlankAfter)
  {
    var p, m, q := BlankBefore, BlankBetween, BlankAfter;
    BlankExampleVerbatim();
    BlankLinked();
    QuietBefore();
    QuietBetween();
    QuietAfter();
    TwoUnderscores(p, m, q);
    var out := Italicised(p, m, q);
    assert ApplyLineBreaks(out) == out by {
      QuietItalicised(p, m, q);
      QuietAbsent(out);
      LineBreaksSingleLine(out);
    }
  }

  /** A URL free of quotes and line breaks is skipped by the attribute check. */
  lemma {:induction false} UrlSkip(url: string, v: string)
    requires AllQuiet(url) && '"' !in url
    ensures AttributesAfterUrl(url + v) == AttributesAfterUrl(v)
    decreases |url|
  {
    if url != [] {
      assert (url + v)[1..] == url[1..] + v;
      assert url[0] in url && Quiet(url[0]);
      UrlSkip(url[1..], v);
    } else {
      assert url + v == v;
    }
  }

  /** No literal tag other than an anchor start opens text whose second
      character is `a`. */
  lemma NoLiteralTagBeforeA(w: string)
    requires |w| >= 2 && w[1] == 'a'
    ensures forall k :: TagIndex(AnchorsStrict, k) && k < 9 ==> !(TagText(k) <= w)
  {
    forall k | TagIndex(AnchorsStrict, k) && k < 9 ensures !(TagText(k) <= w) {
      assert TagText(k)[1] != 'a';
    }
  }

  /** After a plain URL, a `<` where `_blank` should begin breaks the
      attributes. */
  lemma TargetBroken(u: string, rest: string)
    requires AllQuiet(u) && '"' !in u && |rest| > 0 && rest[0] == '<'
    ensures !AttributesAfterUrl(u + (TargetOpen + rest))
  {
    var v := TargetOpen + rest;
    UrlSkip(u, v);
    assert v[0] == '"' && v[10] == '<';
    assert AnchorAttributes[10] == '_';
  }

  lemma ItalicisedShape(o: string, u: string, t: string, m: string, q: string)
    ensures Italicised(o + u + t, m, q) == o + (u + (t + (OpenTag("em") + (m + (CloseTag("em") + q)))))
  {
  }

  /** The first anchor of the rendered example no longer carries the
      attributes the link pass wrote. */
  lemma BlankOutNotStrict()
    ensures !StartsTag(Italicised(BlankBefore, BlankBetween, BlankAfter), AnchorsStrict)
  {
    var out := Italicised(BlankBefore, BlankBetween, BlankAfter);
    var rest := OpenTag("em") + (BlankBetween + (CloseTag("em") + BlankAfter));
    ItalicisedShape(AnchorOpen, ShortUrl('b'), TargetOpen, BlankBetween, BlankAfter);
    AnchorLiteralChars();
    assert out[1] == 'a';
    NoLiteralTagBeforeA(out);
    assert !AttributesAfterUrl(out[|AnchorOpen|..]) by {
      assert out[|AnchorOpen|..] == ShortUrl('b') + (TargetOpen + rest);
      QuietShort('b');
      TargetBroken(ShortUrl('b'), rest);
    }
  }

  /** As written: on two links in one line the italic pass pairs the
      underscores of the two `_blank` targets, so the first anchor's target
      reads `<em>blank` and its attributes are no longer the ones written. */
  lemma BlankTargetItalicised()
    ensures AnchorOpen + ShortUrl('b') + TargetOpen + OpenTag("em") <= RenderMarkdown(BlankExample)
    ensures !TagsOnly(RenderMarkdown(BlankExample), AnchorsStrict)
  {
    BlankRendered();
    BlankOutNotStrict();
    var out := RenderMarkdown(BlankExample);
    AnchorLiteralChars();
    assert out[0] == '<' && out[0..] == out;
  }

  /** Anchors over quiet URLs and texts stay on one line. */
  lemma AnchorOneLine(u: string, x: string)
    requires AllQuiet(u) && AllQuiet(x)
    ensures '\n' !in Anchor(u, x) && '\r' !in Anchor(u, x)
  {
    QuietAnchorParts();
    QuietAbsent(AnchorOpen);
    QuietAbsent("</a>");
    QuietAbsent(u);
    QuietAbsent(x);
    AnchorLiterals();
  }

  /** The corrected renderer's pieces of the example, before the break pass. */
  lemma BlankPiecesRendered()
    ensures RenderPieces([Link(ShortUrl('b'), "a"), Plain([' ']), Link(ShortUrl('d'), "c")])
         == Anchor(ShortUrl('b'), "a") + ([' '] + Anchor(ShortUrl('d'), "c"))
  {
    var ps := [Link(ShortUrl('b'), "a"), Plain([' ']), Link(ShortUrl('d'), "c")];
    InlineQuiet("a");
    InlineQuiet([' ']);
    InlineQuiet("c");
    assert ps[1..][1..] == ps[2..] && ps[2..][1..] == [];
  }

  lemma ShortAnchorOneLine(h: char, x: string)
    requires Quiet(h) && h != '"' && AllQuiet(x)
    ensures '\n' !in Anchor(ShortUrl(h), x) && '\r' !in Anchor(ShortUrl(h), x)
  {
    QuietShort(h);
    AnchorOneLine(ShortUrl(h), x);
  }

  lemma BlankAnchorsOneLine()
    ensures var html := Anchor(ShortUrl('b'), "a") + ([' '] + Anchor(ShortUrl('d'), "c"));
            '\n' !in html && '\r' !in html
  {
    assert AllQuiet("a") && AllQuiet("c");
    ShortAnchorOneLine('b', "a");
    ShortAnchorOneLine('d', "c");
  }

  /** Corrected: the same input renders as the two anchors exactly as the
      link pass writes them. */
  lemma BlankExampleFixed()
    ensures RenderMarkdownFixed(BlankExample) == Anchor(ShortUrl('b'), "a") + ([' '] + Anchor(ShortUrl('d'), "c"))
  {
    var a1, a2 := Anchor(ShortUrl('b'), "a"), Anchor(ShortUrl('d'), "c");
    assert RenderPieces(LinkPieces(EscapeHtml(BlankExample))) == a1 + ([' '] + a2) by {
      BlankExampleVerbatim();
      BlankExamplePieces();
      BlankPiecesRendered();
    }
    assert ApplyLineBreaks(a1 + ([' '] + a2)) == a1 + ([' '] + a2) by {
      BlankAnchorsOneLine();
      LineBreaksSingleLine(a1 + ([' '] + a2));
    }
  }
}

=== FILE: offline.dfy ===
/** The interception shim that replaces the global `fetch`, and the replay
    engine that drains the write queue once connectivity returns. The clock,
    the network, the fresh request id and JSON parsing are parameters. */
module Offline {
  import opened Wrappers
  import opened JsonData
  import opened OfflineStore
  import opened OfflineCache
  import Strings

  /** Writes to these endpoints are never queued. */
  const NoQueuePaths: seq<string> := ["/auth/login", "/auth/register"]

  /** Connectivity, clock, and the decoded contents of both persisted slots. */
  datatype State = State(online: bool, now: int, queue: seq<OfflineRequest>, cache: map<string, CacheEntry>)

  datatype Payload = Text(text: string) | JsonBody(doc: Json)
  datatype Response = Response(status: int, headers: Headers, body: Payload)

  /** What the shim's promise settles to; `Rejected` re-raises a transport failure. */
  datatype Reply = Answer(response: Response) | Rejected

  /** The two broadcast notifications: `app:offline-status` and `app:offline-enqueued`. */
  datatype Event =
    | StatusChanged(online: bool, syncing: bool, queueCount: nat)
    | ItemQueued(url: string, httpMethod: string, body: Option<Json>)

  datatype Step = Step(reply: Reply, state: State, events: seq<Event>)

  /** What the native `fetch` produced for a live call. */
  datatype NetResult = Delivered(status: int, headers: Headers, body: string) | TransportFailure

  predicate IsOk(status: int) {
    200 <= status <= 299
  }

  /** The status notification always reports the persisted queue length. */
  function StatusOf(s: State, syncing: bool): Event {
    StatusChanged(s.online, syncing, |s.queue|)
  }

  /** Every status notification in `events` reports the length of `q`. */
  predicate CountsMatch(events: seq<Event>, q: seq<OfflineRequest>) {
    forall i :: 0 <= i < |events| && events[i].StatusChanged? ==> events[i].queueCount == |q|
  }

  const JsonHeaders: Headers := map["Content-Type" := "application/json"]

  /** The synthetic 202 returned for a queued write. */
  function Accepted(id: string): Response {
    Response(202, JsonHeaders, JsonBody(JObject(map["offline" := JBool(true), "queuedId" := JString(id)])))
  }

  /** The synthetic 503 returned when an offline call can be neither served nor queued. */
  const Unavailable: Response :=
    Response(503, JsonHeaders, JsonBody(JObject(map["offline" := JBool(true), "error" := JString("Sin conexion")])))

  // ---------------------------------------------------------------------
  // Queue eligibility and request payloads
  // ---------------------------------------------------------------------

  /** Whether an offline call with the (upper-cased) method is deferred. */
  function ShouldQueue(url: string, httpMethod: string): (b: bool)
    ensures b <==> httpMethod != "GET" && !Strings.Contains(url, "/auth/login") && !Strings.Contains(url, "/auth/register")
  {
    httpMethod != "GET" && !(exists p :: p in NoQueuePaths && Strings.Contains(url, p))
  }

  /** `headers['Content-Type'] || headers['content-type'] || ''`. */
  function ContentTypeOf(headers: Headers): (ct: string)
    ensures ct != "" ==> ct in headers.Values
    ensures "Content-Type" in headers && headers["Content-Type"] != "" ==> ct == headers["Content-Type"]
    ensures !("Content-Type" in headers && headers["Content-Type"] != "") && "content-type" in headers ==>
              ct == headers["content-type"]
    ensures ct == "" <==> (("Content-Type" !in headers || headers["Content-Type"] == "")
                           && ("content-type" !in headers || headers["content-type"] == ""))
  {
    if "Content-Type" in headers && headers["Content-Type"] != "" then headers["Content-Type"]
    else if "content-type" in headers && headers["content-type"] != "" then headers["content-type"]
    else ""
  }

  /** Whether a request body is worth handing to `JSON.parse`: declared JSON,
      or text that opens with a brace or bracket after trimming. */
  predicate LooksLikeJson(body: string, headers: Headers) {
    || Strings.Contains(Strings.LowerAscii(ContentTypeOf(headers)), "application/json")
    || "{" <= Strings.Trim(body)
    || "[" <= Strings.Trim(body)
  }

  /** The request payload as JSON, or None when there is none, it does not
      look like JSON, or it does not parse. */
  function ParseJsonBody(body: Option<string>, headers: Headers, codec: JsonCodec): (r: Option<Json>)
    ensures r.Some? <==> body.Some? && body.value != "" && LooksLikeJson(body.value, headers)
                         && codec.parse(body.value).Some?
    ensures r.Some? ==> r == codec.parse(body.value)
  {
    if body.None? || body.value == "" then None
    else if !LooksLikeJson(body.value, headers) then None
    else codec.parse(body.value)
  }

  /** `{...elems}`: an array spread into an object is keyed by decimal index. */
  function IndexFields(elems: seq<Json>): (m: map<string, Json>)
    ensures forall i :: 0 <= i < |elems| ==> Strings.NatToString(i) in m && m[Strings.NatToString(i)] == elems[i]
    decreases |elems|
  {
    if elems == [] then map[]
    else
      var n := |elems| - 1;
      var m := IndexFields(elems[..n]);
      IndexKeysDistinct(n);
      m[Strings.NatToString(n) := elems[n]]
  }

  /** Distinct indices have distinct decimal keys. */
  lemma IndexKeysDistinct(n: nat)
    ensures forall i :: 0 <= i < n ==> Strings.NatToString(i) != Strings.NatToString(n)
  {
    forall i | 0 <= i < n
      ensures Strings.NatToString(i) != Strings.NatToString(n)
    {
      Strings.NatToStringRoundTrip(i);
      Strings.NatToStringRoundTrip(n);
    }
  }

  /** `{ ...payload, offline: true, offline_id: id }`. */
  function OptimisticItem(payload: Json, id: string): (item: Json)
    requires payload.JObject? || payload.JArray?
    ensures item.JObject? && "offline" in item.fields && "offline_id" in item.fields
    ensures item.fields["offline"] == JBool(true) && item.fields["offline_id"] == JString(id)
    ensures payload.JObject? ==> item.fields.Keys == payload.fields.Keys + {"offline", "offline_id"}
    ensures payload.JObject? ==> forall k :: k in payload.fields && k != "offline" && k != "offline_id" ==>
                                   item.fields[k] == payload.fields[k]
  {
    var spread := if payload.JObject? then payload.fields else IndexFields(payload.elems);
    JObject(spread["offline" := JBool(true)]["offline_id" := JString(id)])
  }

  // ---------------------------------------------------------------------
  // The shim
  // ---------------------------------------------------------------------

  /** The cache entry that answers an offline GET, if any. */
  predicate ServedFromCache(s: State, url: string, httpMethod: string) {
    httpMethod == "GET" && url in s.cache && IsFresh(s.cache[url], s.now)
  }

  /** The request descriptor the queue stores for an offline write. */
  function NewEntry(s: State, url: string, httpMethod: string, headers: Headers, body: Option<string>, id: string)
    : OfflineRequest
  {
    OfflineRequest(id, url, httpMethod, headers, body, s.now, 0)
  }

  /** The cache after queuing a write: only a POST whose payload parsed to
      an object or array is merged, as `{...payload, offline, offline_id}`. */
  function CacheAfterQueue(cache: map<string, CacheEntry>, url: string, httpMethod: string, payload: Option<Json>,
                           id: string, now: int, codec: JsonCodec): (cache': map<string, CacheEntry>)
    ensures httpMethod != "POST" ==> cache' == cache
    ensures payload.None? || !(payload.value.JObject? || payload.value.JArray?) ==> cache' == cache
    ensures httpMethod == "POST" && payload.Some? && (payload.value.JObject? || payload.value.JArray?) ==>
      cache' == MergeOptimistic(cache, url, OptimisticItem(payload.value, id), now, codec)
  {
    if httpMethod == "POST" && payload.Some? && (payload.value.JObject? || payload.value.JArray?) then
      MergeOptimistic(cache, url, OptimisticItem(payload.value, id), now, codec)
    else cache
  }

  /** The `app:offline-enqueued` notification: carries the optimistic item
      when one was merged, else the parsed payload. */
  function QueuedEvent(url: string, httpMethod: string, payload: Option<Json>, id: string): Event {
    if httpMethod == "POST" && payload.Some? && (payload.value.JObject? || payload.value.JArray?) then
      ItemQueued(url, httpMethod, Some(OptimisticItem(payload.value, id)))
    else ItemQueued(url, httpMethod, payload)
  }

  /** Queues an eligible offline write: the entry is appended with no
      attempts and the caller gets a 202 carrying the entry's id. */
  function Enqueue(s: State, url: string, httpMethod: string, headers: Headers, body: Option<string>,
                   freshId: string, codec: JsonCodec): (st: Step)
    ensures |st.state.queue| == |s.queue| + 1 && st.state.queue[..|s.queue|] == s.queue
    ensures st.state.queue[|s.queue|] == NewEntry(s, url, httpMethod, headers, body, freshId)
    ensures st.state.queue[|s.queue|].attempts == 0
    ensures st.reply == Answer(Accepted(st.state.queue[|s.queue|].id))
    ensures st.state.online == s.online && st.state.now == s.now
    ensures st.state.cache == CacheAfterQueue(s.cache, url, httpMethod, ParseJsonBody(body, headers, codec), freshId, s.now, codec)
    ensures |st.events| == 2 && st.events[0] == StatusChanged(s.online, false, |s.queue| + 1)
    ensures CountsMatch(st.events, st.state.queue)
  {
    var payload := ParseJsonBody(body, headers, codec);
    var entry := NewEntry(s, url, httpMethod, headers, body, freshId);
    var queue' := s.queue + [entry];
    var cache' := CacheAfterQueue(s.cache, url, httpMethod, payload, entry.id, s.now, codec);
    var s' := State(s.online, s.now, queue', cache');
    Step(Answer(Accepted(entry.id)), s', [StatusOf(s', false), QueuedEvent(url, httpMethod, payload, entry.id)])
  }

  /** Whether `new Response(body, {status})` accepts a non-null body: the
      status must lie in 200..599 and must not be one of the null-body
      statuses 204, 205 and 304 (101 and 103 are already out of range). A
      cached body is a string, never null, so any other status throws. */
  predicate BodyStatusAccepted(status: int) {
    200 <= status <= 599 && status != 204 && status != 205 && status != 304
  }

  /** The shim while the platform reports no connectivity (`httpMethod` is
      already upper-cased). */
  function InterceptOffline(s: State, url: string, httpMethod: string, headers: Headers, body: Option<string>,
                            freshId: string, codec: JsonCodec): (st: Step)
    // a fresh cached GET is answered verbatim, unless rebuilding the
    // response throws on its status; either way nothing changes
    ensures ServedFromCache(s, url, httpMethod) && BodyStatusAccepted(s.cache[url].status) ==>
      st.reply == Answer(Response(s.cache[url].status, s.cache[url].headers, Text(s.cache[url].body)))
    ensures ServedFromCache(s, url, httpMethod) && !BodyStatusAccepted(s.cache[url].status) ==>
      st.reply == Rejected
    ensures ServedFromCache(s, url, httpMethod) ==> st.state == s && st.events == []
    // an eligible write is queued
    ensures !ServedFromCache(s, url, httpMethod) && ShouldQueue(url, httpMethod) ==>
      st == Enqueue(s, url, httpMethod, headers, body, freshId, codec)
    // anything else is refused with a 503 and changes nothing
    ensures !ServedFromCache(s, url, httpMethod) && !ShouldQueue(url, httpMethod) ==>
      st == Step(Answer(Unavailable), s, [])
  {
    if ServedFromCache(s, url, httpMethod) then
      var e := s.cache[url];
      if BodyStatusAccepted(e.status) then Step(Answer(Response(e.status, e.headers, Text(e.body))), s, [])
      else Step(Rejected, s, [])
    else if ShouldQueue(url, httpMethod) then
      Enqueue(s, url, httpMethod, headers, body, freshId, codec)
    else
      Step(Answer(Unavailable), s, [])
  }

  /** The shim while online: the live response is passed through untouched,
      and a successful GET overwrites the cache entry for its exact URL. */
  function InterceptOnline(s: State, url: string, httpMethod: string, net: NetResult): (st: Step)
    ensures net.TransportFailure? ==> st == Step(Rejected, s, [])
    ensures net.Delivered? ==> st.reply == Answer(Response(net.status, net.headers, Text(net.body)))
    ensures net.Delivered? && httpMethod == "GET" && IsOk(net.status) ==>
      && st.state.queue == s.queue && st.state.online == s.online && st.state.now == s.now
      && st.state.cache.Keys == s.cache.Keys + {url}
      && st.state.cache[url] == CacheEntry(url, net.status, net.headers, net.body, s.now)
      && forall k :: k in s.cache && k != url ==> st.state.cache[k] == s.cache[k]
    ensures !(net.Delivered? && httpMethod == "GET" && IsOk(net.status)) ==> st.state == s
    ensures st.events == []
  {
    match net
    case TransportFailure => Step(Rejected, s, [])
    case Delivered(status, headers, body) =>
      var response := Response(status, headers, Text(body));
      if httpMethod == "GET" && IsOk(status) then
        var cache' := s.cache[url := CacheEntry(url, status, headers, body, s.now)];
        Step(Answer(response), s.(cache := cache'), [])
      else
        Step(Answer(response), s, [])
  }

  /** The replacement `fetch`: upper-cases the method, then branches on
      connectivity. The network result is only consulted when online. */
  function Intercept(s: State, url: string, rawMethod: string, headers: Headers, body: Option<string>,
                     freshId: string, net: NetResult, codec: JsonCodec): (st: Step)
    ensures st.state.online == s.online && st.state.now == s.now
    ensures s.online ==> st.state.queue == s.queue
    ensures !s.online ==>
      (st.reply.Rejected? <==> ServedFromCache(s, url, Strings.UpperAscii(rawMethod))
                               && !BodyStatusAccepted(s.cache[url].status))
    ensures !s.online ==>
      (|| st.state.queue == s.queue
       || (&& |st.state.queue| == |s.queue| + 1 && st.state.queue[..|s.queue|] == s.queue
           && st.state.queue[|s.queue|].id == freshId && st.state.queue[|s.queue|].attempts == 0))
    ensures !s.online && st.state.queue == s.queue ==> st.state.cache == s.cache
    ensures CountsMatch(st.events, st.state.queue)
    // online: the live result passes through, and an ok GET is cached
    ensures s.online && net.TransportFailure? ==> st.reply == Rejected
    ensures s.online && net.Delivered? ==> st.reply == Answer(Response(net.status, net.headers, Text(net.body)))
    ensures s.online && net.Delivered? && Strings.UpperAscii(rawMethod) == "GET" && IsOk(net.status) ==>
      url in st.state.cache && st.state.cache[url] == CacheEntry(url, net.status, net.headers, net.body, s.now)
    ensures s.online && !(net.Delivered? && Strings.UpperAscii(rawMethod) == "GET" && IsOk(net.status)) ==>
      st.state == s
    // offline: a fresh cached GET is answered, an eligible write gets a 202
    // and is queued under the upper-cased method, anything else gets the 503
    ensures !s.online && ServedFromCache(s, url, Strings.UpperAscii(rawMethod))
            && BodyStatusAccepted(s.cache[url].status) ==>
      st.reply == Answer(Response(s.cache[url].status, s.cache[url].headers, Text(s.cache[url].body)))
    ensures !s.online && !ServedFromCache(s, url, Strings.UpperAscii(rawMethod))
            && ShouldQueue(url, Strings.UpperAscii(rawMethod)) ==>
      && st.reply == Answer(Accepted(freshId))
      && st.state.queue == s.queue + [NewEntry(s, url, Strings.UpperAscii(rawMethod), headers, body, freshId)]
    ensures !s.online && !ServedFromCache(s, url, Strings.UpperAscii(rawMethod))
            && !ShouldQueue(url, Strings.UpperAscii(rawMethod)) ==>
      st == Step(Answer(Unavailable), s, [])
  {
    var m := Strings.UpperAscii(rawMethod);
    if s.online then InterceptOnline(s, url, m, net)
    else InterceptOffline(s, url, m, headers, body, freshId, codec)
  }

  /** The method is compared upper-cased, so its spelling never matters:
      `post` is treated as `POST` and `get` as `GET`. */
  lemma MethodCaseIgnored(s: State, url: string, rawMethod: string, headers: Headers, body: Option<string>,
                          freshId: string, net: NetResult, codec: JsonCodec)
    ensures Intercept(s, url, rawMethod, headers, body, freshId, net, codec)
            == Intercept(s, url, Strings.UpperAscii(rawMethod), headers, body, freshId, net, codec)
    ensures Intercept(s, url, "post", headers, body, freshId, net, codec)
            == Intercept(s, url, "POST", headers, body, freshId, net, codec)
    ensures Intercept(s, url, "get", headers, body, freshId, net, codec)
            == Intercept(s, url, "GET", headers, body, freshId, net, codec)
  {
    var m := Strings.UpperAscii(rawMethod);
    assert Strings.UpperAscii(m) == m;
    assert Strings.UpperAscii("post") == "POST";
    assert Strings.UpperAscii("POST") == "POST";
    assert Strings.UpperAscii("get") == "GET";
    assert Strings.UpperAscii("GET") == "GET";
  }

  // ---------------------------------------------------------------------
  // Replay
  // ---------------------------------------------------------------------

  /** A failed entry is kept with one more attempt and nothing else changed. */
  function Bump(e: OfflineRequest): (e': OfflineRequest)
    ensures e'.attempts == e.attempts + 1
    ensures e' == e.(attempts := e'.attempts)
  {
    e.(attempts := e.attempts + 1)
  }

  /** The entries a replay keeps: `outcomes[i]` says whether the call for
      `q[i]` came back ok. Defined from the right end, as the loop builds it. */
  function Survivors(q: seq<OfflineRequest>, outcomes: seq<bool>): (r: seq<OfflineRequest>)
    requires |outcomes| == |q|
    ensures |r| <= |q|
    decreases |q|
  {
    if q == [] then []
    else
      var n := |q| - 1;
      Survivors(q[..n], outcomes[..n]) + (if outcomes[n] then [] else [Bump(q[n])])
  }

  /** The positions whose call failed, in increasing order. */
  function FailedPositions(outcomes: seq<bool>): (ps: seq<nat>)
    ensures forall k :: 0 <= k < |ps| ==> ps[k] < |outcomes| && !outcomes[ps[k]]
    ensures forall k, l :: 0 <= k < l < |ps| ==> ps[k] < ps[l]
    ensures forall i :: 0 <= i < |outcomes| && !outcomes[i] ==> i in ps
    decreases |outcomes|
  {
    if outcomes == [] then []
    else
      var n := |outcomes| - 1;
      FailedPositions(outcomes[..n]) + (if outcomes[n] then [] else [n])
  }

  /** The survivors are exactly the failed entries, in their original
      relative order, each with its attempt count raised by one. */
  lemma {:induction false} SurvivorsAreFailures(q: seq<OfflineRequest>, outcomes: seq<bool>)
    requires |outcomes| == |q|
    ensures |Survivors(q, outcomes)| == |FailedPositions(outcomes)|
    ensures forall k :: 0 <= k < |FailedPositions(outcomes)| ==>
      Survivors(q, outcomes)[k] == Bump(q[FailedPositions(outcomes)[k]])
    decreases |q|
  {
    if q != [] {
      var n := |q| - 1;
      SurvivorsAreFailures(q[..n], outcomes[..n]);
      var ps := FailedPositions(outcomes[..n]);
      var rest := Survivors(q[..n], outcomes[..n]);
      var all := FailedPositions(outcomes);
      var kept := Survivors(q, outcomes);
      assert all == ps + (if outcomes[n] then [] else [n]);
      assert kept == rest + (if outcomes[n] then [] else [Bump(q[n])]);
      forall k | 0 <= k < |all|
        ensures kept[k] == Bump(q[all[k]])
      {
        if k < |ps| {
          assert all[k] == ps[k] && kept[k] == rest[k];
          assert q[..n][ps[k]] == q[ps[k]];
        }
      }
    }
  }

  /** With every call successful nothing survives. */
  lemma {:induction false} SurvivorsAllOk(q: seq<OfflineRequest>, outcomes: seq<bool>)
    requires |outcomes| == |q|
    requires forall i :: 0 <= i < |q| ==> outcomes[i]
    ensures Survivors(q, outcomes) == []
    decreases |q|
  {
    if q != [] {
      var n := |q| - 1;
      assert forall i :: 0 <= i < n ==> outcomes[..n][i] == outcomes[i];
      SurvivorsAllOk(q[..n], outcomes[..n]);
    }
  }

  /** With every call failed everything survives, bumped, in order. */
  lemma {:induction false} SurvivorsAllFailed(q: seq<OfflineRequest>, outcomes: seq<bool>)
    requires |outcomes| == |q|
    requires forall i :: 0 <= i < |q| ==> !outcomes[i]
    ensures |Survivors(q, outcomes)| == |q|
    ensures forall i :: 0 <= i < |q| ==> Survivors(q, outcomes)[i] == Bump(q[i])
    decreases |q|
  {
    if q != [] {
      var n := |q| - 1;
      assert forall i :: 0 <= i < n ==> outcomes[..n][i] == outcomes[i];
      SurvivorsAllFailed(q[..n], outcomes[..n]);
      var rest := Survivors(q[..n], outcomes[..n]);
      assert Survivors(q, outcomes) == rest + [Bump(q[n])];
      forall i | 0 <= i < n ensures Survivors(q, outcomes)[i] == Bump(q[i]) {
        assert rest[i] == Bump(q[..n][i]);
      }
    }
  }

  datatype ReplayResult = ReplayResult(state: State, issued: seq<OfflineRequest>, events: seq<Event>)

  /** The write that ends a replay: the persisted queue is overwritten with
      the snapshot's survivors, whatever the queue holds by then. */
  function FinishReplay(current: State, snapshot: seq<OfflineRequest>, outcomes: seq<bool>): (s': State)
    requires |outcomes| == |snapshot|
    ensures s'.online == current.online && s'.now == current.now && s'.cache == current.cache
  {
    current.(queue := Survivors(snapshot, outcomes))
  }

  /** Reference definition of one replay pass. */
  function ReplayPass(s: State, outcomes: seq<bool>): ReplayResult
    requires |outcomes| == |s.queue|
  {
    if !s.online || s.queue == [] then ReplayResult(s, [], [])
    else
      var s' := FinishReplay(s, s.queue, outcomes);
      ReplayResult(s', s.queue, [StatusOf(s, true), StatusOf(s', false)])
  }

  /** `processOfflineQueue`: issues the queued requests strictly in order and
      keeps exactly the ones that failed. */
  method Replay(s: State, outcomes: seq<bool>) returns (r: ReplayResult)
    requires |outcomes| == |s.queue|
    ensures r == ReplayPass(s, outcomes)
    ensures !s.online || s.queue == [] ==> r == ReplayResult(s, [], [])
    ensures s.online && s.queue != [] ==>
      && r.issued == s.queue
      && r.state == s.(queue := Survivors(s.queue, outcomes))
      && r.events == [StatusChanged(true, true, |s.queue|), StatusChanged(true, false, |r.state.queue|)]
    ensures |r.state.queue| <= |s.queue|
  {
    if !s.online || |s.queue| == 0 {
      return ReplayResult(s, [], []);
    }
    var remaining: seq<OfflineRequest> := [];
    var issued: seq<OfflineRequest> := [];
    var i := 0;
    while i < |s.queue|
      invariant 0 <= i <= |s.queue|
      invariant issued == s.queue[..i]
      invariant remaining == Survivors(s.queue[..i], outcomes[..i])
    {
      var item := s.queue[i];
      issued := issued + [item];
      if !outcomes[i] {
        remaining := remaining + [Bump(item)];
      }
      assert s.queue[..i + 1][..i] == s.queue[..i];
      assert outcomes[..i + 1][..i] == outcomes[..i];
      i := i + 1;
    }
    assert s.queue[..i] == s.queue;
    assert outcomes[..i] == outcomes;
    var s' := s.(queue := remaining);
    r := ReplayResult(s', issued, [StatusOf(s, true), StatusOf(s', false)]);
  }

  /** The `online` listener: replay runs up to its first await, the listener
      then publishes a status while the old queue is still persisted, and the
      final status follows the rewrite. */
  function GoOnline(s: State, outcomes: seq<bool>): (r: ReplayResult)
    requires |outcomes| == |s.queue|
    ensures r.state.online && |r.events| > 0
    ensures r.events[|r.events| - 1] == StatusChanged(true, false, |r.state.queue|)
    ensures s.queue == [] ==> r.state == s.(online := true) && r.events == [StatusChanged(true, false, 0)]
    ensures s.queue != [] ==>
      && r.issued == s.queue
      && r.state == s.(online := true, queue := Survivors(s.queue, outcomes))
      && r.events == [StatusChanged(true, true, |s.queue|), StatusChanged(true, false, |s.queue|),
                      StatusChanged(true, false, |r.state.queue|)]
  {
    var up := s.(online := true);
    var pass := ReplayPass(up, outcomes);
    if s.queue == [] then ReplayResult(up, [], [StatusOf(up, false)])
    else pass.(events := [pass.events[0], StatusOf(up, false), pass.events[1]])
  }

  /** The `offline` listener. */
  function GoOffline(s: State): (r: (State, Event))
    ensures !r.0.online && r.0.queue == s.queue && r.0.cache == s.cache
    ensures r.1 == StatusChanged(false, false, |s.queue|)
  {
    var down := s.(online := false);
    (down, StatusOf(down, false))
  }

  // ---------------------------------------------------------------------
  // Properties across operations
  // ---------------------------------------------------------------------

  /** A successful live GET is served back verbatim by an offline GET of the
      same URL for the whole freshness window, boundary included; except that
      a cached 204 or 205 cannot be rebuilt with its (empty) body, so the
      offline call rejects. */
  lemma CachedGetServedOffline(s: State, url: string, net: NetResult, later: int, codec: JsonCodec)
    requires net.Delivered? && IsOk(net.status)
    requires s.now <= later <= s.now + CacheTtlMs
    ensures !BodyStatusAccepted(net.status) <==> net.status == 204 || net.status == 205
    ensures var online := InterceptOnline(s, url, "GET", net).state;
            var offline := online.(online := false, now := later);
            BodyStatusAccepted(net.status) ==>
              InterceptOffline(offline, url, "GET", map[], None, "", codec).reply
                == Answer(Response(net.status, net.headers, Text(net.body)))
    ensures var online := InterceptOnline(s, url, "GET", net).state;
            var offline := online.(online := false, now := later);
            !BodyStatusAccepted(net.status) ==>
              InterceptOffline(offline, url, "GET", map[], None, "", codec).reply == Rejected
  {
  }

  /** A login or registration write made offline, in any spelling of its
      method, is refused and leaves the queue and the cache as they were. */
  lemma AuthWritesNeverQueued(s: State, url: string, rawMethod: string, headers: Headers, body: Option<string>,
                              freshId: string, net: NetResult, codec: JsonCodec)
    requires !s.online
    requires Strings.Contains(url, "/auth/login") || Strings.Contains(url, "/auth/register")
    requires Strings.UpperAscii(rawMethod) != "GET"
    ensures Intercept(s, url, rawMethod, headers, body, freshId, net, codec) == Step(Answer(Unavailable), s, [])
  {
  }

  /** A PUT, PATCH or DELETE made offline never changes the cache, even with
      a JSON body; `post` in lower case does merge, as it is upper-cased first. */
  lemma OnlyPostMerges(s: State, url: string, rawMethod: string, headers: Headers, body: Option<string>,
                       freshId: string, net: NetResult, codec: JsonCodec)
    requires !s.online
    requires Strings.UpperAscii(rawMethod) != "POST"
    ensures Intercept(s, url, rawMethod, headers, body, freshId, net, codec).state.cache == s.cache
  {
  }

  /** A request queued while a replay is in flight is lost: it does reach
      the persisted queue, but the replay ends by overwriting the queue with
      the survivors of its own snapshot. The method is upper-cased, as the
      shim passes it on. */
  lemma LateArrivalOverwritten(snapshot: seq<OfflineRequest>, outcomes: seq<bool>, during: State,
                               url: string, httpMethod: string, headers: Headers,
                               body: Option<string>, freshId: string, codec: JsonCodec)
    requires |outcomes| == |snapshot|
    requires forall e :: e in snapshot ==> e.id != freshId
    ensures var queued := InterceptOffline(during, url, httpMethod, headers, body, freshId, codec).state;
            !ServedFromCache(during, url, httpMethod) && ShouldQueue(url, httpMethod) ==>
              |queued.queue| > 0 && queued.queue[|queued.queue| - 1].id == freshId
    ensures var queued := InterceptOffline(during, url, httpMethod, headers, body, freshId, codec).state;
            forall e :: e in FinishReplay(queued, snapshot, outcomes).queue ==> e.id != freshId
  {
    var queued := InterceptOffline(during, url, httpMethod, headers, body, freshId, codec).state;
    OnlySnapshotSurvives(queued, snapshot, outcomes, freshId);
  }

  /** Whatever the persisted queue holds, the final write keeps only entries
      of the snapshot. */
  lemma {:induction false} OnlySnapshotSurvives(current: State, snapshot: seq<OfflineRequest>, outcomes: seq<bool>,
                                                id: string)
    requires |outcomes| == |snapshot|
    requires forall e :: e in snapshot ==> e.id != id
    ensures forall e :: e in FinishReplay(current, snapshot, outcomes).queue ==> e.id != id
  {
    SurvivorsAreFailures(snapshot, outcomes);
    var kept := FinishReplay(current, snapshot, outcomes).queue;
    var ps := FailedPositions(outcomes);
    forall e | e in kept
      ensures e.id != id
    {
      var k :| 0 <= k < |kept| && kept[k] == e;
      assert e == Bump(snapshot[ps[k]]);
      assert snapshot[ps[k]] in snapshot;
    }
  }

  /** Offline, a create is queued; back online, a fully successful replay
      drains the queue and the last status reports nothing pending. */
  lemma OfflineCreateThenReconnect(s: State, url: string, headers: Headers, body: Option<string>,
                                   freshId: string, codec: JsonCodec)
    requires !s.online && s.queue == []
    requires !Strings.Contains(url, "/auth/login") && !Strings.Contains(url, "/auth/register")
    ensures var queued := InterceptOffline(s, url, "POST", headers, body, freshId, codec).state;
            var back := GoOnline(queued, [true]);
            && |queued.queue| == 1
            && back.issued == queued.queue
            && back.state.queue == []
            && back.events[|back.events| - 1] == StatusChanged(true, false, 0)
  {
    var st := InterceptOffline(s, url, "POST", headers, body, freshId, codec);
    assert st == Enqueue(s, url, "POST", headers, body, freshId, codec) by {
      assert !ServedFromCache(s, url, "POST") && ShouldQueue(url, "POST");
    }
    var queued := st.state;
    assert |queued.queue| == 1;
    SurvivorsAllOk(queued.queue, [true]);
    var up := queued.(online := true);
    assert GoOnline(queued, [true]).state == ReplayPass(up, [true]).state;
  }
}

=== FILE: offline_cache.dfy ===
/** The read cache of the offline sync layer: freshness, and the optimistic
    merge that splices a queued item into cached list responses. */
module OfflineCache {
  import opened Wrappers
  import opened JsonData
  import opened OfflineStore
  import Strings

  /** Freshness window: 24 hours, in milliseconds. */
  const CacheTtlMs: int := 1000 * 60 * 60 * 24

  /** An entry may be served while `now - savedAt <= CacheTtlMs`; the bound is inclusive. */
  predicate IsFresh(e: CacheEntry, now: int) {
    now - e.savedAt <= CacheTtlMs
  }

  /** `url.split('?')[0]`: the URL without its query string. */
  function StripQuery(url: string): (r: string)
    ensures r <= url && '?' !in r
    ensures |r| < |url| ==> url[|r|] == '?'
  {
    Strings.TakeUntil(url, '?')
  }

  /** The collection prefix a cache key must start with to be merged into:
      the query-stripped URL, terminated by exactly one added `/` when it
      does not already end with one. */
  function CollectionPrefix(url: string): (p: string)
    ensures StripQuery(url) <= p && |p| <= |StripQuery(url)| + 1
    ensures Strings.EndsWith(p, "/")
    ensures Strings.EndsWith(StripQuery(url), "/") ==> p == StripQuery(url)
  {
    var path := StripQuery(url);
    if Strings.EndsWith(path, "/") then path else path + "/"
  }

  /** Prepends `item` to the collection inside a cached document. A top-level
      array wins, then an array under `data`, then an array under `results`;
      any other shape is not a collection (None). */
  function PrependItem(doc: Json, item: Json): (r: Option<Json>)
    ensures doc.JArray? ==> r == Some(JArray([item] + doc.elems))
    ensures doc.JObject? && "data" in doc.fields && doc.fields["data"].JArray? ==>
      r == Some(JObject(doc.fields["data" := JArray([item] + doc.fields["data"].elems)]))
    ensures doc.JObject? && !("data" in doc.fields && doc.fields["data"].JArray?)
            && "results" in doc.fields && doc.fields["results"].JArray? ==>
      r == Some(JObject(doc.fields["results" := JArray([item] + doc.fields["results"].elems)]))
    ensures r.None? <==>
      (!doc.JArray? && !(doc.JObject? && (("data" in doc.fields && doc.fields["data"].JArray?) ||
                                          ("results" in doc.fields && doc.fields["results"].JArray?))))
  {
    match doc
    case JArray(elems) => Some(JArray([item] + elems))
    case JObject(fields) =>
      if "data" in fields && fields["data"].JArray? then
        Some(JObject(fields["data" := JArray([item] + fields["data"].elems)]))
      else if "results" in fields && fields["results"].JArray? then
        Some(JObject(fields["results" := JArray([item] + fields["results"].elems)]))
      else None
    case _ => None
  }

  /** One cache entry after the merge: rewritten only when its key has the
      collection prefix and its body parses to a recognised collection. */
  function MergeEntry(e: CacheEntry, key: string, prefix: string, item: Json, now: int, codec: JsonCodec): (e': CacheEntry)
    ensures e'.url == e.url && e'.status == e.status && e'.headers == e.headers
    ensures !(prefix <= key) ==> e' == e
    ensures e' != e ==> e'.savedAt == now
  {
    if !(prefix <= key) then e
    else match codec.parse(e.body)
      case None => e
      case Some(doc) =>
        match PrependItem(doc, item)
        case None => e
        case Some(merged) => e.(body := codec.stringify(merged), savedAt := now)
  }

  /** The optimistic merge of a queued item into every cached collection
      under the written URL. */
  function MergeOptimistic(cache: map<string, CacheEntry>, url: string, item: Json, now: int, codec: JsonCodec)
    : (cache': map<string, CacheEntry>)
    ensures cache'.Keys == cache.Keys
    ensures forall k :: k in cache && !(CollectionPrefix(url) <= k) ==> cache'[k] == cache[k]
    ensures forall k :: k in cache && codec.parse(cache[k].body).None? ==> cache'[k] == cache[k]
    ensures forall k :: (k in cache && codec.parse(cache[k].body).Some?
                         && PrependItem(codec.parse(cache[k].body).value, item).None?) ==> cache'[k] == cache[k]
    ensures forall k :: (k in cache && CollectionPrefix(url) <= k && codec.parse(cache[k].body).Some?
                         && PrependItem(codec.parse(cache[k].body).value, item).Some?) ==>
      cache'[k] == cache[k].(body := codec.stringify(PrependItem(codec.parse(cache[k].body).value, item).value),
                             savedAt := now)
  {
    var prefix := CollectionPrefix(url);
    map k | k in cache :: MergeEntry(cache[k], k, prefix, item, now, codec)
  }

  /** With a codec that reads back what it writes, every merged collection
      entry now parses to the collection with the item at its front, ahead
      of the items it held before. */
  lemma MergedBodyRoundTrip(cache: map<string, CacheEntry>, url: string, item: Json, now: int, codec: JsonCodec, key: string)
    requires forall j :: codec.parse(codec.stringify(j)) == Some(j)
    requires key in cache && CollectionPrefix(url) <= key
    requires codec.parse(cache[key].body).Some?
    ensures var doc := codec.parse(cache[key].body).value;
            var body' := MergeOptimistic(cache, url, item, now, codec)[key].body;
            && (doc.JArray? ==> codec.parse(body') == Some(JArray([item] + doc.elems)))
            && (doc.JObject? && "data" in doc.fields && doc.fields["data"].JArray? ==>
                  codec.parse(body') == Some(JObject(doc.fields["data" := JArray([item] + doc.fields["data"].elems)])))
            && (doc.JObject? && !("data" in doc.fields && doc.fields["data"].JArray?)
                && "results" in doc.fields && doc.fields["results"].JArray? ==>
                  codec.parse(body') == Some(JObject(doc.fields["results" := JArray([item] + doc.fields["results"].elems)])))
            && (PrependItem(doc, item).None? ==> body' == cache[key].body)
  {
    var doc := codec.parse(cache[key].body).value;
    if PrependItem(doc, item).Some? {
      assert codec.parse(codec.stringify(PrependItem(doc, item).value)) == Some(PrependItem(doc, item).value);
    }
  }

  /** A key equal to the written URL without a trailing slash is not under
      its collection prefix, so it is never merged into. */
  lemma SlashlessKeyNotMerged(cache: map<string, CacheEntry>, url: string, item: Json, now: int, codec: JsonCodec)
    requires url in cache && '?' !in url && !Strings.EndsWith(url, "/")
    ensures MergeOptimistic(cache, url, item, now, codec)[url] == cache[url]
  {
  }
}

=== FILE: offline_store.dfy ===
/** The two persisted collections of the offline sync layer: the write queue
    and the read cache, kept as serialised JSON under two storage keys. */
module OfflineStore {
  import opened Wrappers

  const QueueKey: string := "offline_queue_v1"
  const CacheKey: string := "offline_cache_v1"

  /** Header records, name to value, as supplied by the caller. */
  type Headers = map<string, string>

  /** One deferred mutating request. */
  datatype OfflineRequest = OfflineRequest(
    id: string,
    url: string,
    httpMethod: string,
    headers: Headers,
    body: Option<string>,
    createdAt: int,
    attempts: int)

  /** One cached read result, keyed in the cache by its exact URL. */
  datatype CacheEntry = CacheEntry(
    url: string,
    status: int,
    headers: Headers,
    body: string,
    savedAt: int)

  /** What `JSON.parse` followed by the unchecked cast yields for each slot:
      an array for the queue, an object for the cache, or something else. */
  datatype QueueDoc = QueueArray(entries: seq<OfflineRequest>) | NotAnArray
  datatype CacheDoc = CacheObject(entries: map<string, CacheEntry>) | NotAnObject

  /** Serialisation of the slots; `decode*` returns None where `JSON.parse` throws. */
  datatype StoreCodec = StoreCodec(
    encodeQueue: seq<OfflineRequest> -> string,
    decodeQueue: string -> Option<QueueDoc>,
    encodeCache: map<string, CacheEntry> -> string,
    decodeCache: string -> Option<CacheDoc>)

  /** The key-value storage holding both slots. */
  datatype Storage = Storage(slots: map<string, string>)

  /** The queue as read back from storage. Never fails: a missing or empty
      slot, text that does not parse, or a document that is not an array all
      read as the empty queue. */
  function ReadQueue(st: Storage, codec: StoreCodec): (q: seq<OfflineRequest>)
    ensures QueueKey !in st.slots || st.slots[QueueKey] == "" ==> q == []
    ensures QueueKey in st.slots && codec.decodeQueue(st.slots[QueueKey]).None? ==> q == []
    ensures QueueKey in st.slots && codec.decodeQueue(st.slots[QueueKey]) == Some(NotAnArray) ==> q == []
    ensures q != [] ==> QueueKey in st.slots && codec.decodeQueue(st.slots[QueueKey]) == Some(QueueArray(q))
  {
    if QueueKey !in st.slots || st.slots[QueueKey] == "" then []
    else match codec.decodeQueue(st.slots[QueueKey])
      case Some(QueueArray(entries)) => entries
      case _ => []
  }

  /** The cache as read back from storage, with the same fail-soft reading:
      missing, empty, unparsable or non-object content is the empty map. */
  function ReadCache(st: Storage, codec: StoreCodec): (c: map<string, CacheEntry>)
    ensures CacheKey !in st.slots || st.slots[CacheKey] == "" ==> c == map[]
    ensures CacheKey in st.slots && codec.decodeCache(st.slots[CacheKey]).None? ==> c == map[]
    ensures CacheKey in st.slots && codec.decodeCache(st.slots[CacheKey]) == Some(NotAnObject) ==> c == map[]
    ensures c != map[] ==> CacheKey in st.slots && codec.decodeCache(st.slots[CacheKey]) == Some(CacheObject(c))
  {
    if CacheKey !in st.slots || st.slots[CacheKey] == "" then map[]
    else match codec.decodeCache(st.slots[CacheKey])
      case Some(CacheObject(entries)) => entries
      case _ => map[]
  }

  /** Replaces the whole persisted queue. */
  function WriteQueue(st: Storage, q: seq<OfflineRequest>, codec: StoreCodec): (st': Storage)
    ensures st'.slots.Keys == st.slots.Keys + {QueueKey}
    ensures forall k :: k in st.slots && k != QueueKey ==> st'.slots[k] == st.slots[k]
  {
    Storage(st.slots[QueueKey := codec.encodeQueue(q)])
  }

  /** Replaces the whole persisted cache. */
  function WriteCache(st: Storage, c: map<string, CacheEntry>, codec: StoreCodec): (st': Storage)
    ensures st'.slots.Keys == st.slots.Keys + {CacheKey}
    ensures forall k :: k in st.slots && k != CacheKey ==> st'.slots[k] == st.slots[k]
  {
    Storage(st.slots[CacheKey := codec.encodeCache(c)])
  }

  /** The codec is faithful: what is written reads back as written. */
  ghost predicate Faithful(codec: StoreCodec) {
    && (forall q :: codec.decodeQueue(codec.encodeQueue(q)) == Some(QueueArray(q)) && codec.encodeQueue(q) != "")
    && (forall c :: codec.decodeCache(codec.encodeCache(c)) == Some(CacheObject(c)) && codec.encodeCache(c) != "")
  }

  /** Writing then reading a slot is the identity, and writing one slot
      never disturbs the other. */
  lemma StorageRoundTrip(st: Storage, q: seq<OfflineRequest>, c: map<string, CacheEntry>, codec: StoreCodec)
    requires Faithful(codec)
    ensures ReadQueue(WriteQueue(st, q, codec), codec) == q
    ensures ReadCache(WriteCache(st, c, codec), codec) == c
    ensures ReadCache(WriteQueue(st, q, codec), codec) == ReadCache(st, codec)
    ensures ReadQueue(WriteCache(st, c, codec), codec) == ReadQueue(st, codec)
  {
    assert codec.decodeQueue(codec.encodeQueue(q)) == Some(QueueArray(q));
    assert codec.decodeCache(codec.encodeCache(c)) == Some(CacheObject(c));
  }
}

=== FILE: session.dfy ===
/** The session helpers: reading the stored POS session and the claims of
    the JSON Web Token it carries. Storage is a map from key to text;
    `atob`, `JSON.parse`, and the `String()`/`Number()` coercions of
    numbers, arrays and objects are oracles of a `Platform`. */
module Session {
  import opened Wrappers
  import opened JsonData
  import Strings

  /** The storage key of the logged-in session. */
  const SessionKey: string := "pos_sesion"

  /** The foreign calls the helpers make. `atob` and `codec.parse` return
      None where they throw; `numberOf` is `Number(v)` on strings, arrays
      and objects and returns None where the result is NaN or infinite;
      `stringOf` is `String(v)` on numbers, arrays and objects. */
  datatype Platform = Platform(
    codec: JsonCodec,
    atob: string -> Option<string>,
    numberOf: Json -> Option<real>,
    stringOf: Json -> string)

  /** `String(v)` on a parsed JSON value. */
  function JsString(v: Json, p: Platform): (s: string)
    ensures v.JString? ==> s == v.s
  {
    match v
    case JString(s) => s
    case JNull => "null"
    case JBool(b) => if b then "true" else "false"
    case _ => p.stringOf(v)
  }

  /** `Number(v)` on a parsed JSON value; None stands for NaN and the infinities. */
  function JsNumber(v: Json, p: Platform): (n: Option<real>)
    ensures v.JNumber? ==> n == Some(v.n)
    ensures v == JNull ==> n == Some(0.0)
  {
    match v
    case JNull => Some(0.0)
    case JBool(b) => Some(if b then 1.0 else 0.0)
    case JNumber(n) => Some(n)
    case _ => p.numberOf(v)
  }

  // ---------------------------------------------------------------------
  // Token payload decoding (JWS compact serialisation, base64url)
  // ---------------------------------------------------------------------

  /** `token.split('.')[1]`: the text between the first and the second dot
      (or the end), absent when the token has no dot. */
  function SecondSegment(token: string): (seg: Option<string>)
    ensures seg.None? <==> '.' !in token
    ensures seg.Some? ==> '.' !in seg.value
  {
    match Strings.IndexOf(token, '.')
    case None => None
    case Some(i) => Some(Strings.TakeUntil(token[i + 1..], '.'))
  }

  /** The second segment of `header.payload.rest` is `payload`, whatever follows it. */
  lemma SecondSegmentOf(header: string, payload: string, rest: string)
    requires '.' !in header && '.' !in payload
    requires rest == [] || rest[0] == '.'
    ensures SecondSegment(header + ['.'] + payload + rest) == Some(payload)
  {
    var token := header + ['.'] + payload + rest;
    assert token == header + (['.'] + (payload + rest));
    Strings.IndexOfAfter(header, '.', payload + rest);
    assert token[|header| + 1..] == payload + rest;
    Strings.TakeUntilBefore(payload, '.', rest);
  }

  /** The standard-alphabet counterpart of a base64url character. */
  function StandardChar(c: char): char {
    if c == '-' then '+' else if c == '_' then '/' else c
  }

  /** The base64url counterpart of a standard-alphabet character. */
  function UrlChar(c: char): char {
    if c == '+' then '-' else if c == '/' then '_' else c
  }

  /** `replace(/-/g, '+').replace(/_/g, '/')`: base64url text rewritten to
      the standard alphabet, character by character. */
  function ToStandardAlphabet(s: string): (r: string)
    ensures |r| == |s|
    ensures forall i :: 0 <= i < |s| ==> r[i] == StandardChar(s[i])
  {
    var once := Strings.ReplaceAll(s, '-', "+");
    Strings.ReplaceAllPointwise(s, '-', '+');
    Strings.ReplaceAllPointwise(once, '_', '/');
    Strings.ReplaceAll(once, '_', "/")
  }

  /** Standard base64 text rewritten to the base64url alphabet (the encoder's side). */
  function ToUrlAlphabet(s: string): (r: string)
    ensures |r| == |s|
    ensures forall i :: 0 <= i < |s| ==> r[i] == UrlChar(s[i])
  {
    seq(|s|, i requires 0 <= i < |s| => UrlChar(s[i]))
  }

  /** Translating standard text to base64url and back restores it. */
  lemma AlphabetRoundTrip(s: string)
    requires '-' !in s && '_' !in s
    ensures ToStandardAlphabet(ToUrlAlphabet(s)) == s
  {
    var u := ToUrlAlphabet(s);
    forall i | 0 <= i < |s|
      ensures ToStandardAlphabet(u)[i] == s[i]
    {
      assert u[i] == UrlChar(s[i]);
    }
  }

  /** Conversely, base64url text survives the trip through the standard alphabet. */
  lemma UrlAlphabetRoundTrip(u: string)
    requires '+' !in u && '/' !in u
    ensures ToUrlAlphabet(ToStandardAlphabet(u)) == u
  {
    var s := ToStandardAlphabet(u);
    forall i | 0 <= i < |u|
      ensures ToUrlAlphabet(s)[i] == u[i]
    {
      assert s[i] == StandardChar(u[i]);
    }
  }

  /** `(4 - (n % 4)) % 4`: the number of `=` that completes a base64 quantum. */
  function PadCount(n: nat): (k: nat)
    ensures k <= 3 && (n + k) % 4 == 0
    ensures k == 0 <==> n % 4 == 0
  {
    (4 - n % 4) % 4
  }

  /** No other amount of at most three characters completes the quantum. */
  lemma PadCountUnique(n: nat, k: nat)
    requires k <= 3 && (n + k) % 4 == 0
    ensures k == PadCount(n)
  {
  }

  function Equals(k: nat): (r: string)
    ensures |r| == k && forall i :: 0 <= i < k ==> r[i] == '='
  {
    seq(k, _ => '=')
  }

  /** `padEnd(length + PadCount(length), '=')`. */
  function Pad(s: string): (r: string)
    ensures s <= r && |r| % 4 == 0 && |r| - |s| <= 3
    ensures forall i :: |s| <= i < |r| ==> r[i] == '='
  {
    s + Equals(PadCount(|s|))
  }

  /** Padding restores the `=` characters a base64url encoder dropped. */
  lemma PadRestores(body: string, k: nat)
    requires k <= 3 && (|body| + k) % 4 == 0
    ensures Pad(body) == body + Equals(k)
  {
    PadCountUnique(|body|, k);
  }

  /** `parseJwt`: the JSON document in the token's payload segment, or None
      where the segment is missing or empty, or decoding or parsing throws. */
  function ParseJwt(token: string, p: Platform): (r: Option<Json>)
    ensures SecondSegment(token).None? ==> r.None?
    ensures SecondSegment(token) == Some([]) ==> r.None?
    ensures r.Some? ==> p.atob(Pad(ToStandardAlphabet(SecondSegment(token).value))).Some?
  {
    match SecondSegment(token)
    case None => None
    case Some(seg) =>
      if seg == [] then None
      else match p.atob(Pad(ToStandardAlphabet(seg)))
        case None => None
        case Some(text) => p.codec.parse(text)
  }

  /** A token whose payload segment is the base64url form of `body + k '='`
      decodes to whatever `atob` yields for that standard text, parsed. */
  lemma JwtPayloadRoundTrip(header: string, body: string, k: nat, signature: string, text: string, p: Platform)
    requires '.' !in header
    requires body != [] && '.' !in body && '-' !in body && '_' !in body
    requires k <= 3 && (|body| + k) % 4 == 0
    requires p.atob(body + Equals(k)) == Some(text)
    ensures ParseJwt(header + ['.'] + ToUrlAlphabet(body) + (['.'] + signature), p) == p.codec.parse(text)
  {
    var seg := ToUrlAlphabet(body);
    assert '.' !in seg by {
      forall i | 0 <= i < |seg| ensures seg[i] != '.' {
        assert body[i] != '.';
      }
    }
    SecondSegmentOf(header, seg, ['.'] + signature);
    AlphabetRoundTrip(body);
    PadRestores(body, k);
  }

  // ---------------------------------------------------------------------
  // The stored session and its token
  // ---------------------------------------------------------------------

  /** The parsed session record: None when the slot is missing or empty, or
      `JSON.parse` throws. */
  function SessionData(storage: map<string, string>, p: Platform): (r: Option<Json>)
    ensures r.Some? ==> SessionKey in storage && storage[SessionKey] != []
                        && p.codec.parse(storage[SessionKey]) == r
    ensures SessionKey in storage && storage[SessionKey] != [] ==> r == p.codec.parse(storage[SessionKey])
  {
    if SessionKey !in storage || storage[SessionKey] == [] then None
    else p.codec.parse(storage[SessionKey])
  }

  /** `data?.token ? String(data.token) : ''`, then `if (!token)`: None when
      the token is falsy or renders as the empty string. */
  function SessionToken(data: Json, p: Platform): (t: Option<string>)
    ensures t.Some? ==> && t.value != [] && Field(data, "token").Some? && Truthy(Field(data, "token").value)
                        && t.value == JsString(Field(data, "token").value, p)
    ensures Field(data, "token").Some? && Truthy(Field(data, "token").value)
            && JsString(Field(data, "token").value, p) != [] ==>
              t == Some(JsString(Field(data, "token").value, p))
  {
    match Field(data, "token")
    case None => None
    case Some(v) => if Truthy(v) && JsString(v, p) != [] then Some(JsString(v, p)) else None
  }

  /** The decoded claims of the session token, when the decoded value is truthy. */
  function TokenClaims(data: Json, p: Platform): (c: Option<Json>)
    ensures c.Some? ==> Truthy(c.value) && SessionToken(data, p).Some?
                        && ParseJwt(SessionToken(data, p).value, p) == c
    ensures SessionToken(data, p).Some? && ParseJwt(SessionToken(data, p).value, p).Some?
            && Truthy(ParseJwt(SessionToken(data, p).value, p).value) ==>
              c == ParseJwt(SessionToken(data, p).value, p)
  {
    match SessionToken(data, p)
    case None => None
    case Some(token) =>
      match ParseJwt(token, p)
      case None => None
      case Some(claims) => if Truthy(claims) then Some(claims) else None
  }

  // ---------------------------------------------------------------------
  // Claim precedence (`a ?? b ?? c ?? d`)
  // ---------------------------------------------------------------------

  /** `j.key` is neither `undefined` nor `null`. */
  predicate Present(j: Json, key: string) {
    j.JObject? && key in j.fields && j.fields[key] != JNull
  }

  /** `keys[i]` is the first key whose value is present. */
  predicate FirstAt(j: Json, keys: seq<string>, i: nat) {
    i < |keys| && Present(j, keys[i]) && forall l :: 0 <= l < i ==> !Present(j, keys[l])
  }

  /** The value of the first present key, as the `??` chain selects it. When
      none is present the chain ends in `null` or `undefined`, which every
      caller treats as no value. */
  function FirstPresent(j: Json, keys: seq<string>): (r: Option<Json>)
    ensures r.Some? ==> r.value != JNull
    decreases |keys|
  {
    if keys == [] then None
    else if Present(j, keys[0]) then Some(j.fields[keys[0]])
    else FirstPresent(j, keys[1..])
  }

  /** `FirstPresent` returns the value at the first present key and only that. */
  lemma {:induction false} FirstPresentIff(j: Json, keys: seq<string>, i: nat)
    ensures FirstAt(j, keys, i) ==> FirstPresent(j, keys) == Some(j.fields[keys[i]])
    ensures FirstPresent(j, keys).Some? ==> exists l: nat :: FirstAt(j, keys, l)
    decreases |keys|
  {
    if keys != [] {
      if !Present(j, keys[0]) {
        FirstPresentIff(j, keys[1..], if i == 0 then 0 else i - 1);
        if FirstAt(j, keys, i) {
          assert i > 0;
          assert FirstAt(j, keys[1..], i - 1) by {
            forall l | 0 <= l < i - 1 ensures !Present(j, keys[1..][l]) {
              assert keys[1..][l] == keys[l + 1];
            }
          }
        }
        if FirstPresent(j, keys).Some? {
          var l: nat :| FirstAt(j, keys[1..], l);
          assert FirstAt(j, keys, l + 1) by {
            forall m | 0 <= m < l + 1 ensures !Present(j, keys[m]) {
              if m > 0 { assert keys[m] == keys[1..][m - 1]; }
            }
          }
        }
      } else {
        assert FirstAt(j, keys, 0);
      }
    }
  }

  /** With no key present the chain yields nothing. */
  lemma {:induction false} FirstPresentNone(j: Json, keys: seq<string>)
    ensures FirstPresent(j, keys).None? <==> forall l :: 0 <= l < |keys| ==> !Present(j, keys[l])
    decreases |keys|
  {
    if keys != [] {
      FirstPresentNone(j, keys[1..]);
      if !Present(j, keys[0]) {
        assert forall l :: 0 <= l < |keys| - 1 ==> keys[1..][l] == keys[l + 1];
      }
    }
  }

  // ---------------------------------------------------------------------
  // getSessionUserId
  // ---------------------------------------------------------------------

  const UserIdClaims: seq<string> := ["user_id", "usuario_id", "id", "sub"]

  /** `Number(v)` kept only when finite and positive. */
  function PositiveId(v: Json, p: Platform): (r: Option<real>)
    ensures r.Some? ==> r.value > 0.0 && JsNumber(v, p) == r
  {
    match JsNumber(v, p)
    case None => None
    case Some(n) => if n > 0.0 then Some(n) else None
  }

  /** The numeric id of the logged-in user, or None. */
  function GetSessionUserId(storage: map<string, string>, p: Platform): (r: Option<real>)
    ensures r.Some? ==> r.value > 0.0
  {
    match SessionData(storage, p)
    case None => None
    case Some(data) =>
      match TokenClaims(data, p)
      case None => None
      case Some(claims) =>
        match FirstPresent(claims, UserIdClaims)
        case None => None
        case Some(v) => PositiveId(v, p)
  }

  /** The first present id claim decides the outcome: the id is its value
      when that is a finite positive number, and otherwise there is no id,
      even when a later claim holds a valid one. */
  lemma UserIdFirstClaimDecides(storage: map<string, string>, p: Platform, data: Json, claims: Json, i: nat)
    requires SessionData(storage, p) == Some(data) && TokenClaims(data, p) == Some(claims)
    requires FirstAt(claims, UserIdClaims, i)
    ensures GetSessionUserId(storage, p) == PositiveId(claims.fields[UserIdClaims[i]], p)
  {
    FirstPresentIff(claims, UserIdClaims, i);
  }

  /** A present but invalid `user_id` hides a valid `sub`. */
  lemma UserIdNoFallThrough(storage: map<string, string>, p: Platform, data: Json, claims: Json)
    requires SessionData(storage, p) == Some(data) && TokenClaims(data, p) == Some(claims)
    requires claims.JObject? && "user_id" in claims.fields && claims.fields["user_id"] == JNumber(0.0)
    requires "sub" in claims.fields && claims.fields["sub"] == JNumber(7.0)
    ensures GetSessionUserId(storage, p).None?
  {
    assert FirstAt(claims, UserIdClaims, 0);
    UserIdFirstClaimDecides(storage, p, data, claims, 0);
  }

  /** An id is reported exactly when the session, its token and its claims
      all decode and the first present id claim is a finite positive number. */
  lemma UserIdIff(storage: map<string, string>, p: Platform, n: real)
    ensures GetSessionUserId(storage, p) == Some(n) <==>
      && SessionData(storage, p).Some?
      && TokenClaims(SessionData(storage, p).value, p).Some?
      && (var claims := TokenClaims(SessionData(storage, p).value, p).value;
          exists i: nat :: FirstAt(claims, UserIdClaims, i) && PositiveId(claims.fields[UserIdClaims[i]], p) == Some(n))
  {
    if SessionData(storage, p).Some? && TokenClaims(SessionData(storage, p).value, p).Some? {
      var claims := TokenClaims(SessionData(storage, p).value, p).value;
      FirstPresentIff(claims, UserIdClaims, 0);
      if GetSessionUserId(storage, p) == Some(n) {
        var l: nat :| FirstAt(claims, UserIdClaims, l);
        FirstPresentIff(claims, UserIdClaims, l);
      }
      forall i: nat | FirstAt(claims, UserIdClaims, i)
        ensures GetSessionUserId(storage, p) == PositiveId(claims.fields[UserIdClaims[i]], p)
      {
        FirstPresentIff(claims, UserIdClaims, i);
      }
    }
  }

  // ---------------------------------------------------------------------
  // getSessionUserName
  // ---------------------------------------------------------------------

  const UserNameClaims: seq<string> := ["username", "usuario", "user", "name"]

  /** The session record's own truthy `usuario`, if any. */
  predicate HasSessionUser(data: Json) {
    Field(data, "usuario").Some? && Truthy(Field(data, "usuario").value)
  }

  /** The name of the logged-in user, or None. */
  function GetSessionUserName(storage: map<string, string>, p: Platform): (r: Option<string>)
    ensures r.Some? ==> SessionData(storage, p).Some?
  {
    match SessionData(storage, p)
    case None => None
    case Some(data) =>
      if HasSessionUser(data) then Some(JsString(data.fields["usuario"], p))
      else match TokenClaims(data, p)
        case None => None
        case Some(claims) =>
          match FirstPresent(claims, UserNameClaims)
          case None => None
          case Some(v) => if Truthy(v) then Some(JsString(v, p)) else None
  }

  /** The session's own `usuario` wins over the token, which is then not even read. */
  lemma SessionUserWins(storage: map<string, string>, p: Platform, data: Json)
    requires SessionData(storage, p) == Some(data) && HasSessionUser(data)
    ensures GetSessionUserName(storage, p) == Some(JsString(data.fields["usuario"], p))
  {
  }

  /** Without it, the name is the first present name claim, provided that
      claim is truthy; a present falsy claim hides the later ones. */
  lemma UserNameFromClaims(storage: map<string, string>, p: Platform, data: Json, claims: Json, i: nat)
    requires SessionData(storage, p) == Some(data) && !HasSessionUser(data)
    requires TokenClaims(data, p) == Some(claims) && FirstAt(claims, UserNameClaims, i)
    ensures var v := claims.fields[UserNameClaims[i]];
            GetSessionUserName(storage, p) == if Truthy(v) then Some(JsString(v, p)) else None
  {
    FirstPresentIff(claims, UserNameClaims, i);
  }

  /** Without a session user and without any name claim there is no name. */
  lemma UserNameAbsent(storage: map<string, string>, p: Platform, data: Json, claims: Json)
    requires SessionData(storage, p) == Some(data) && !HasSessionUser(data)
    requires TokenClaims(data, p) == Some(claims)
    requires forall l :: 0 <= l < |UserNameClaims| ==> !Present(claims, UserNameClaims[l])
    ensures GetSessionUserName(storage, p).None?
  {
    FirstPresentNone(claims, UserNameClaims);
  }

  /** Without a session user, a missing token or an undecodable payload
      gives no name: the claims are never consulted. */
  lemma UserNameNoClaims(storage: map<string, string>, p: Platform, data: Json)
    requires SessionData(storage, p) == Some(data) && !HasSessionUser(data)
    requires TokenClaims(data, p).None?
    ensures GetSessionUserName(storage, p).None?
  {
  }

  // ---------------------------------------------------------------------
  // getSessionCajaNombre
  // ---------------------------------------------------------------------

  const CajaLabel: string := "Caja "

  predicate TruthyField(data: Json, key: string) {
    Field(data, key).Some? && Truthy(Field(data, key).value)
  }

  /** The display name of the open cash register, or None. */
  function GetSessionCajaNombre(storage: map<string, string>, p: Platform): (r: Option<string>)
    ensures r.None? <==> (SessionData(storage, p).None?
                          || (!TruthyField(SessionData(storage, p).value, "cajaNombre")
                              && !TruthyField(SessionData(storage, p).value, "cajaId")))
  {
    match SessionData(storage, p)
    case None => None
    case Some(data) =>
      if TruthyField(data, "cajaNombre") then Some(JsString(data.fields["cajaNombre"], p))
      else if TruthyField(data, "cajaId") then Some(CajaLabel + JsString(data.fields["cajaId"], p))
      else None
  }

  /** A truthy `cajaNombre` is reported whatever `cajaId` holds. */
  lemma CajaNombreWins(storage: map<string, string>, p: Platform, data: Json, name: string)
    requires SessionData(storage, p) == Some(data)
    requires data.JObject? && "cajaNombre" in data.fields && data.fields["cajaNombre"] == JString(name)
    requires name != []
    ensures GetSessionCajaNombre(storage, p) == Some(name)
  {
  }

  /** Otherwise a positive whole `cajaId` yields `Caja <id>`, and the id can
      be read back from the label's digits when numbers render in decimal. */
  lemma CajaLabelRoundTrip(storage: map<string, string>, p: Platform, data: Json, id: nat)
    requires SessionData(storage, p) == Some(data) && !TruthyField(data, "cajaNombre")
    requires data.JObject? && "cajaId" in data.fields && data.fields["cajaId"] == JNumber(id as real)
    requires id > 0 && p.stringOf(JNumber(id as real)) == Strings.NatToString(id)
    ensures GetSessionCajaNombre(storage, p) == Some(CajaLabel + Strings.NatToString(id))
    ensures var shown := GetSessionCajaNombre(storage, p).value;
            CajaLabel <= shown && Strings.DigitsValue(shown[|CajaLabel|..]) == id
  {
    var shown := CajaLabel + Strings.NatToString(id);
    assert shown[|CajaLabel|..] == Strings.NatToString(id);
    Strings.NatToStringRoundTrip(id);
  }
}

=== FILE: strings.dfy ===
/** String primitives of JavaScript that the modelled code relies on,
    stated over `string == seq<char>`. */
module Strings {
  import opened Wrappers

  // ---------------------------------------------------------------------
  // Substring search (`String.prototype.includes`)
  // ---------------------------------------------------------------------

  /** `sub` occurs somewhere in `s`. */
  predicate Contains(s: string, sub: string)
    decreases |s|
  {
    sub <= s || (|s| > 0 && Contains(s[1..], sub))
  }

  /** An occurrence at any offset is found by `Contains`. */
  lemma {:induction false} ContainsAt(s: string, sub: string, i: nat)
    requires i <= |s| && sub <= s[i..]
    ensures Contains(s, sub)
    decreases i
  {
    if i > 0 {
      assert s[1..][i - 1..] == s[i..];
      ContainsAt(s[1..], sub, i - 1);
    }
  }

  /** Conversely, `Contains` always has a witnessing offset. */
  lemma {:induction false} ContainsWitness(s: string, sub: string) returns (i: nat)
    requires Contains(s, sub)
    ensures i <= |s| && sub <= s[i..]
    decreases |s|
  {
    if sub <= s {
      i := 0;
    } else {
      var j := ContainsWitness(s[1..], sub);
      assert s[1..][j..] == s[j + 1..];
      i := j + 1;
    }
  }

  /** `a` ends with `suffix` (`String.prototype.endsWith`). */
  predicate EndsWith(a: string, suffix: string) {
    |suffix| <= |a| && a[|a| - |suffix|..] == suffix
  }

  // ---------------------------------------------------------------------
  // Global single-character replacement (`s.replace(/c/g, rep)`)
  // ---------------------------------------------------------------------

  /** Every occurrence of `c` in `s` replaced by `rep`, left to right. */
  function ReplaceAll(s: string, c: char, rep: string): (r: string)
    ensures c !in s ==> r == s
    ensures c !in rep ==> c !in r
    ensures forall d :: d in r ==> d in rep || (d in s && d != c)
    decreases |s|
  {
    if s == [] then []
    else (if s[0] == c then rep else [s[0]]) + ReplaceAll(s[1..], c, rep)
  }

  /** Replacing a single character is a homomorphism of concatenation. */
  lemma {:induction false} ReplaceAllConcat(a: string, b: string, c: char, rep: string)
    ensures ReplaceAll(a + b, c, rep) == ReplaceAll(a, c, rep) + ReplaceAll(b, c, rep)
    decreases |a|
  {
    if a != [] {
      var head := if a[0] == c then rep else [a[0]];
      assert (a + b)[0] == a[0];
      assert (a + b)[1..] == a[1..] + b;
      ReplaceAllConcat(a[1..], b, c, rep);
      calc {
        ReplaceAll(a + b, c, rep);
        head + ReplaceAll(a[1..] + b, c, rep);
        head + (ReplaceAll(a[1..], c, rep) + ReplaceAll(b, c, rep));
        { AppendAssoc(head, ReplaceAll(a[1..], c, rep), ReplaceAll(b, c, rep)); }
        (head + ReplaceAll(a[1..], c, rep)) + ReplaceAll(b, c, rep);
      }
    } else {
      assert a + b == b;
    }
  }

  lemma AppendAssoc<T>(a: seq<T>, b: seq<T>, c: seq<T>)
    ensures a + (b + c) == (a + b) + c
  {
  }

  /** On a one-character string the replacement is a single lookup. */
  lemma ReplaceAllSingle(x: char, c: char, rep: string)
    ensures ReplaceAll([x], c, rep) == if x == c then rep else [x]
  {
    assert [x][1..] == [];
  }

  /** Replacing a character by a single character maps `s` position by position. */
  lemma {:induction false} ReplaceAllPointwise(s: string, c: char, d: char)
    ensures |ReplaceAll(s, c, [d])| == |s|
    ensures forall i :: 0 <= i < |s| ==> ReplaceAll(s, c, [d])[i] == if s[i] == c then d else s[i]
    decreases |s|
  {
    if s != [] {
      ReplaceAllPointwise(s[1..], c, d);
      var head := if s[0] == c then [d] else [s[0]];
      assert ReplaceAll(s, c, [d]) == head + ReplaceAll(s[1..], c, [d]);
      forall i | 0 < i < |s|
        ensures ReplaceAll(s, c, [d])[i] == if s[i] == c then d else s[i]
      {
        assert ReplaceAll(s, c, [d])[i] == ReplaceAll(s[1..], c, [d])[i - 1];
        assert s[1..][i - 1] == s[i];
      }
    }
  }

  // ---------------------------------------------------------------------
  // ASCII case mapping (`toUpperCase` / `toLowerCase` on HTTP tokens)
  // ---------------------------------------------------------------------

  function UpperChar(c: char): char {
    if 'a' <= c <= 'z' then (c as int - 32) as char else c
  }

  function LowerChar(c: char): char {
    if 'A' <= c <= 'Z' then (c as int + 32) as char else c
  }

  /** Upper-cases the ASCII letters of `s` and keeps every other character. */
  function UpperAscii(s: string): (r: string)
    ensures |r| == |s|
    ensures forall i :: 0 <= i < |s| ==> r[i] == UpperChar(s[i])
  {
    seq(|s|, i requires 0 <= i < |s| => UpperChar(s[i]))
  }

  /** Lower-cases the ASCII letters of `s` and keeps every other character. */
  function LowerAscii(s: string): (r: string)
    ensures |r| == |s|
    ensures forall i :: 0 <= i < |s| ==> r[i] == LowerChar(s[i])
  {
    seq(|s|, i requires 0 <= i < |s| => LowerChar(s[i]))
  }

  // ---------------------------------------------------------------------
  // Character classes of ECMAScript regular expressions
  // ---------------------------------------------------------------------

  /** The characters `.` does not match without the `s` flag. */
  predicate IsLineTerminator(c: char) {
    c == '\n' || c == '\r' || c == '\U{2028}' || c == '\U{2029}'
  }

  /** The characters matched by `\s` and removed by `trim()`. */
  predicate IsJsSpace(c: char) {
    || IsLineTerminator(c)
    || c == ' ' || c == '\t' || c == '\U{000B}' || c == '\U{000C}'
    || c == '\U{00A0}' || c == '\U{1680}' || ('\U{2000}' <= c <= '\U{200A}')
    || c == '\U{202F}' || c == '\U{205F}' || c == '\U{3000}' || c == '\U{FEFF}'
  }

  /** The white space of HTTP: tab, line feed, carriage return and space. */
  predicate IsHttpSpace(c: char) {
    c == '\t' || c == '\n' || c == '\r' || c == ' '
  }

  /** The two white-space classes that get trimmed: ECMAScript's and HTTP's. */
  datatype Space = JsSpace | HttpSpace

  predicate IsSpace(c: char, space: Space) {
    match space
    case JsSpace => IsJsSpace(c)
    case HttpSpace => IsHttpSpace(c)
  }

  /** `s` without its leading characters of class `space`. */
  function TrimStart(s: string, space: Space): (r: string)
    ensures |r| <= |s| && s[|s| - |r|..] == r
    ensures r != [] ==> !IsSpace(r[0], space)
    ensures forall i :: 0 <= i < |s| - |r| ==> IsSpace(s[i], space)
    decreases |s|
  {
    if s != [] && IsSpace(s[0], space) then TrimStart(s[1..], space) else s
  }

  /** `s` without its trailing characters of class `space`. */
  function TrimEnd(s: string, space: Space): (r: string)
    ensures r <= s
    ensures r != [] ==> !IsSpace(r[|r| - 1], space)
    ensures forall i :: |r| <= i < |s| ==> IsSpace(s[i], space)
    decreases |s|
  {
    if s != [] && IsSpace(s[|s| - 1], space) then TrimEnd(s[..|s| - 1], space) else s
  }

  /** `String.prototype.trim`. */
  function Trim(s: string): string {
    TrimEnd(TrimStart(s, JsSpace), JsSpace)
  }

  /** The value normalisation of the Fetch standard: leading and trailing
      HTTP white space removed. */
  function TrimHttp(s: string): string {
    TrimEnd(TrimStart(s, HttpSpace), HttpSpace)
  }

  // ---------------------------------------------------------------------
  // Splitting on a separator character
  // ---------------------------------------------------------------------

  /** Position of the first `c` in `s`, if any. */
  function IndexOf(s: string, c: char): (r: Option<nat>)
    ensures r.None? <==> c !in s
    ensures r.Some? ==> r.value < |s| && s[r.value] == c && c !in s[..r.value]
    decreases |s|
  {
    if s == [] then None
    else if s[0] == c then Some(0)
    else match IndexOf(s[1..], c)
      case None => None
      case Some(i) =>
        assert s[..i + 1] == [s[0]] + s[1..][..i];
        Some(i + 1)
  }

  /** The longest prefix of `s` without `c`: the first field of `s.split(c)`. */
  function TakeUntil(s: string, c: char): (r: string)
    ensures r <= s && c !in r
    ensures |r| < |s| ==> s[|r|] == c
    ensures c !in s ==> r == s
    decreases |s|
  {
    if s == [] || s[0] == c then [] else [s[0]] + TakeUntil(s[1..], c)
  }

  /** The first `c` of `a + [c] + b` is the one after `a` when `a` has none. */
  lemma {:induction false} IndexOfAfter(a: string, c: char, b: string)
    requires c !in a
    ensures IndexOf(a + ([c] + b), c) == Some(|a|)
    decreases |a|
  {
    if a != [] {
      assert (a + ([c] + b))[1..] == a[1..] + ([c] + b);
      IndexOfAfter(a[1..], c, b);
    }
  }

  /** The field before `c` in `a + b` is `a` when `b` starts at a `c` or is empty. */
  lemma {:induction false} TakeUntilBefore(a: string, c: char, b: string)
    requires c !in a && (b == [] || b[0] == c)
    ensures TakeUntil(a + b, c) == a
    decreases |a|
  {
    if a == [] {
      assert a + b == b;
    } else {
      assert (a + b)[1..] == a[1..] + b;
      TakeUntilBefore(a[1..], c, b);
    }
  }

  // ---------------------------------------------------------------------
  // Decimal rendering of naturals (`String(n)` for non-negative integers)
  // ---------------------------------------------------------------------

  function DigitChar(d: nat): char
    requires d < 10
  {
    (('0' as int) + d) as char
  }

  predicate IsDigit(c: char) {
    '0' <= c <= '9'
  }

  /** Decimal digits of `n`, most significant first, without leading zeros. */
  function NatToString(n: nat): (r: string)
    ensures |r| >= 1
    ensures forall i :: 0 <= i < |r| ==> IsDigit(r[i])
    ensures r[0] == '0' ==> n == 0 && r == "0"
    decreases n
  {
    if n < 10 then [DigitChar(n)] else NatToString(n / 10) + [DigitChar(n % 10)]
  }

  /** The value of a string of decimal digits. */
  function DigitsValue(s: string): nat
    requires forall i :: 0 <= i < |s| ==> IsDigit(s[i])
    decreases |s|
  {
    if s == [] then 0
    else
      assert IsDigit(s[|s| - 1]);
      DigitsValue(s[..|s| - 1]) * 10 + (s[|s| - 1] as int - '0' as int)
  }

  /** Reading back the rendered digits gives the number: the rendering is injective. */
  lemma {:induction false} NatToStringRoundTrip(n: nat)
    ensures DigitsValue(NatToString(n)) == n
    decreases n
  {
    var r := NatToString(n);
    if n >= 10 {
      NatToStringRoundTrip(n / 10);
      assert r[..|r| - 1] == NatToString(n / 10);
    }
  }
}

=== FILE: wrappers.dfy ===
/** Failure-compatible wrappers used across the model: `Option` for values
    JavaScript represents as `null`/`undefined`, `Result` for thrown errors. */
module Wrappers {

  datatype Option<+T> = None | Some(value: T) {

    /** The wrapped value, or `default` when absent (JavaScript's `??`). */
    function GetOr(default: T): T {
      match this
      case Some(v) => v
      case None => default
    }
  }

  datatype Result<+R, +E> = Success(value: R) | Failure(error: E)
}
